=== FILE: README.md ===
# manageHistoryFiles in Dafny

manageHistoryFiles looks after the `history` files that instrument
workstations write, one per host, application and user.

- **Deduplication and gap filling.** `utils.py` deletes the files of a
  directory whose bytes equal, or occur inside, the bytes of another file
  there, pass after pass until nothing more goes. When exactly one of two
  byte-equal files is named `old`, it keeps that one. The older
  `containment.py` makes one such pass but only compares files of different
  sizes, so it deletes a file whose bytes occur inside a strictly larger file
  and never a byte-equal copy. `utils.py` also renumbers the rotations
  `history.N` and `history.old.N` so that the numbers run from 1 with no gaps.
- **Session extraction.** `manage_history_files.py` reads a history file and
  cuts it into sessions at the date header lines. From each session it
  extracts the date, the start clock, the end clock and the duration. The
  older `find_history_files.py` reads each history file as one record, built
  from its third, sixth and last lines.

This project models that core and proves what it does.

- **Files and directories.** A directory is a map from file name to bytes
  (`Directory.Dir`). Methods take it as input and return the new map instead of
  touching a disk. The order in which `glob` or `os.walk` enumerates names is an
  input sequence.
- **Regular expressions.** Each one becomes a hand-written matcher.
  - `Patterns` holds the shared pieces: dates, clocks, and the
    `host/app/user/file` path.
  - `ManagePatterns` holds the patterns of `manage_history_files.py`.
  - `Legacy` holds those of `find_history_files.py`.
  - Leftmost-match and lazy-quantifier behaviour is stated as lemmas.
- **Dates.** `datetime.strptime`, the subtraction of two datetimes and the
  `divmod` formatting are integer calendar arithmetic in `Calendar`.
- **State-changing code.** Each loop that updates state in the source is a
  method with loop invariants:
  - the size-ordered pair scans;
  - the renaming loop;
  - the `os.walk` collection;
  - the `max_index` search;
  - the line-by-line buffer splitting of the main block.

  Each such method is proved against a specification function. Lemmas about
  that function state what the source promises:
  - the fixed point of deduplication;
  - that no bytes are lost;
  - the contiguous renumbering;
  - the splitting of a file into sessions.

Modules:
- `Text` and `Lines`: Python string builtins.
- `Sorting`: the stable `sorted`.
- `Directory`: listings.
- `Comparator`: `is_equal`, `is_contained`, `is_old`.
- `Containment`: `containment.py`.
- `Dedup`: `run_containment` of `utils.py`.
- `Rotation`: `max_index`.
- `Locator`: `find_history_files`.
- `Renumber`: `rename_files_sequentially` and `fill_gaps`.
- `Patterns` and `ManagePatterns`: the regexes.
- `Calendar` and `Session`: `calculate_duration` and `extract_data`.
- `Splitter`: the main loop of `manage_history_files.py`.
- `Legacy`: `find_history_files.py`.

## Model

| member | source | states |
|---|---|---|
| Comparator.IsEqual | utils.py:52-53 | true exactly when both byte strings have the same length and agree at every position |
| Comparator.IsContained | utils.py:55-56 | true exactly when `smaller` occurs as a contiguous run of `bigger`; a contained string is never longer, and the empty string is contained in every string |
| Comparator.ContainedOfEqualSize | utils.py:52-56 | equal byte strings contain each other, and a contained string of the same length is equal |
| Comparator.IsOld | utils.py:101-104 | true exactly when `old` occurs in the name |
| Text.Contains | containment.py:5-6 | Python's `in` on bytes and strings holds exactly when the needle occurs contiguously in the haystack |
| Text.OccursTransitive | utils.py:137-139 | containment is transitive: what is inside a file that is inside another is inside that other |
| Text.RStrip | manage_history_files.py:92 | `rstrip()` keeps a prefix, ends on a non-space, and drops only whitespace |
| Text.LStrip | manage_history_files.py:156 | `lstrip()` keeps a suffix, starts on a non-space, and drops only whitespace |
| Text.RStripNewlines | manage_history_files.py:154 | `rstrip("\n")` keeps a prefix and drops only line feeds, all of them |
| Text.LastWhere | manage_history_files.py:117-123 | a scan over `reversed(lines)` finds the greatest index whose line qualifies and no later one, or reports that none does |
| Text.FirstFromSound | manage_history_files.py:38 | the lazy `.*?` settles on the first position that completes the match, and none before it does |
| Text.NatToString | utils.py:75-76 | `str(n)` is a canonical numeral without leading zeros that reads back as `n` |
| Text.Replace | find_history_files.py:76 | `str.replace` leaves a string without the pattern unchanged |
| Text.ReplaceAtFirst | find_history_files.py:76 | `str.replace` replaces the first occurrence and goes on right after it, so occurrences never overlap; with `Text.Replace` this fixes the result on every input |
| Text.ReplacePrefix | find_history_files.py:76 | `str.replace` copies a leading part none of whose positions starts an occurrence |
| Lines.SplitLines | manage_history_files.py:89 | `splitlines()` gives lines that hold no line boundary, and no lines exactly for the empty string |
| Lines.JoinLinesSnoc | manage_history_files.py:170 | `buffer += line + "\n"` appends the line to the lines the buffer holds |
| Lines.FirstLine | manage_history_files.py:89 | a buffer that starts with a line and a line feed splits into that line followed by the lines of the rest |
| Lines.SplitJoinLines | manage_history_files.py:89 | splitting a buffer built from boundary-free lines gives exactly those lines back, so `extract_data` sees the lines that were appended |
| Lines.VerticalTabSplits | manage_history_files.py:89 | a vertical tab inside an appended line makes `splitlines()` see two lines |
| Sorting.SortBy | utils.py:116 | `sorted` returns a permutation of its input, of the same length |
| Sorting.SortBySorted | utils.py:116 | the result is ordered by the key |
| Sorting.SortByStable | utils.py:116 | the sort is stable: the entries that share a key keep their input order |
| Sorting.SortedDistinct | utils.py:71 | sorting indices with no repeats gives a strictly increasing sequence |
| Directory.Listing | containment.py:13 | each entry of `files_with_sizes` names a file of the directory and carries its size |
| Directory.ListingCovers | containment.py:13 | every file of the directory that the enumeration yields is listed |
| Directory.ListingDistinct | containment.py:13 | no file is listed twice |
| Directory.ListingLists | containment.py:13 | the listing is exact: every file of the directory once, with its size |
| Directory.ListsPermutation | containment.py:15 | a reordering of an exact listing, such as the size sort, is still exact |
| Directory.UnlinkAll | containment.py:29-30 | unlinking the marked paths leaves exactly the directory without them |
| Containment.Mark | containment.py:20-27 | a pair marks nothing or exactly its smaller-side file |
| Containment.RowMarksIff | containment.py:19-27 | the inner loop marks a name exactly when one of its pairs marks it |
| Containment.MarksBeforeIff | containment.py:18-27 | after the first rows of the outer loop, a name is marked exactly when one of their pairs marks it |
| Containment.Scan | containment.py:16-27 | the two nested loops collect exactly the marks of every pair of the sorted listing |
| Containment.ScanMarksIff | containment.py:13-27 | a file is marked exactly when its bytes occur in a strictly larger file of the directory |
| Containment.InsideIsMarked | containment.py:18-27 | a file whose bytes occur in a strictly larger file is marked, whatever the order of the listing |
| Containment.MarkedIsInside | containment.py:18-27 | only such files are marked |
| Containment.RunContainment | containment.py:8-30 | one pass keeps a subset of the files with unchanged contents, and a file is deleted exactly when a strictly larger file contains its bytes |
| Containment.SurvivorExists | containment.py:18-30 | the bytes of every file are still held by some surviving file |
| Containment.LargestSurvives | containment.py:20-21 | a file that no other file outgrows is never deleted |
| Containment.CopiesShareFate | containment.py:20-21 | byte-identical copies are deleted together or kept together: equal sizes never delete each other |
| Dedup.Losers | utils.py:126-139 | a pair marks at most its own two files |
| Dedup.PairVerdict | utils.py:126-139 | the verdict on one pair of the size-ordered scan; its meaning is stated by `Dedup.TieBreakKeepsOld` and `Dedup.LoserIsContained` |
| Dedup.TieBreakKeepsOld | utils.py:126-135 | for a pair of byte-equal files of which exactly one is named `old`, the pair adds exactly the other file to `to_be_deleted`, whichever of the two is on the bigger side of the scan |
| Dedup.LoserIsContained | utils.py:126-139 | a pair marks something only when the smaller-side bytes occur in the bigger-side bytes, and it marks the bigger side only when the two are byte-equal |
| Dedup.RowMarksIff | utils.py:120-122 | the inner loop over `reversed(files_sorted)` stops at `big`, so it visits exactly the files strictly after `big` |
| Dedup.MarksBeforeIff | utils.py:119-139 | after the first rows, a name is marked exactly when a pair `(b, s)` with `b` among those rows and `b < s` marks it |
| Dedup.PassMarksIff | utils.py:117-139 | `to_be_deleted` holds exactly the names that some pair `b < s` of the sorted listing marks |
| Dedup.ScanRow | utils.py:120-139 | the inner loop adds exactly the marks of the pairs of its row |
| Dedup.ScanPass | utils.py:117-139 | the nested loops collect exactly `PassMarks` |
| Dedup.SortedListing | utils.py:113-116 | the listing sorted by size is exact and in descending size order; the name sort of line 115 is overwritten |
| Dedup.NestedPairLoses | utils.py:126-139 | in a size-sorted listing, a pair whose bytes occur one in the other always loses one of its files |
| Dedup.MarksWhenNested | utils.py:117-139 | when two distinct files of the directory nest, the pass marks something |
| Dedup.MarkedIsNested | utils.py:117-139 | when the pass marks something, two distinct files of the directory nest |
| Dedup.NoMarksIffAntichain | utils.py:141-142 | the pass marks nothing exactly when no file's bytes occur in another file, so the loop stops at a fixed point and only there |
| Dedup.SurvivorHolds | utils.py:117-139 | the bytes of every file are held by a file that the pass does not mark, even among byte-equal copies |
| Dedup.PassMarksInDir | utils.py:144-145 | every marked path is a file of the directory |
| Dedup.PassPreservesContent | utils.py:117-145 | after the marks of one pass are unlinked, the bytes of every file are still held by a remaining file |
| Dedup.PassRetains | utils.py:141-145 | one pass keeps every byte string of the original directory, and a pass that marks something shrinks the directory |
| Dedup.DeleteShrinks | utils.py:144-145 | unlinking a non-empty set of files makes the directory smaller |
| Dedup.RunContainment | utils.py:106-145 | the loop keeps a subset of the files with unchanged contents; it ends with no file inside another; every original byte string is still held by a surviving file; and every repeating pass deletes a file, so it terminates |
| Rotation.StripGz | utils.py:11 | a final `.gz` is dropped exactly when the name has one |
| Rotation.SuffixNumberSound | utils.py:11-19 | a number found in the name comes from a `.N` or `.N.gz` ending |
| Rotation.SuffixNumberComplete | utils.py:11-19 | a name ending in `.D` or `.D.gz` gives the value of `D` |
| Rotation.SuffixNumber | utils.py:11-19 | the number of a `.N` or `.N.gz` ending; its meaning is stated by `Rotation.SuffixNumberSound`, `Rotation.SuffixNumberComplete` and `Rotation.SuffixNumberIff` |
| Rotation.SuffixNumberIff | utils.py:11-19 | the suffix search gives `n` exactly when the name ends in `.N` or `.N.gz` with `N` worth `n` |
| Rotation.LargestRotation | utils.py:14-24 | the largest rotation number among the globbed names; its meaning is stated by `Rotation.LargestRotationIsMax`, and `Rotation.MaxIndex` computes it by the loop |
| Rotation.LargestRotationIsMax | utils.py:14-24 | the result bounds the number of every name that starts with `filename` and has such an ending, and is 0 or one of those numbers |
| Rotation.MaxIndex | utils.py:7-24 | the loop returns that largest number |
| Locator.Join | utils.py:48 | `os.path.join(root, fname)` ends with `fname` |
| Locator.TargetNames | utils.py:27-31 | the set built holds exactly `history`, `history.old`, and `history.N` and `history.old.N` for N from 1 to 10 |
| Locator.NumberedTargetDigits | utils.py:29-31 | a numbered target's digits are the numeral of some N in 1..10 |
| Locator.IsTargetName | utils.py:27-31 | membership in `target_names`; its meaning is stated by `Locator.TargetNames` and `Locator.NumberedTargetIff` |
| Locator.NumberedTargetIff | utils.py:27-31 | `history.D` or `history.old.D` is a target exactly when `D` is the canonical numeral of a number from 1 to 10 |
| Locator.OutOfRangeIsNotTarget | utils.py:29-31 | `history.11`, `history.0` and `history.01` are rejected |
| Locator.SnapshotSound | utils.py:41 | a name the timestamp pattern accepts is `history~`, 8 digits, `-`, 6 digits, optionally `.old` |
| Locator.SnapshotComplete | utils.py:41 | every such name is accepted |
| Locator.IsSnapshotName | utils.py:41 | the timestamp pattern; its meaning is stated by `Locator.SnapshotSound`, `Locator.SnapshotComplete` and `Locator.SnapshotIff` |
| Locator.SnapshotIff | utils.py:41 | the timestamp pattern accepts exactly those names |
| Locator.MatchesInIff | utils.py:46-48 | within one directory of the walk, a path is appended exactly when it is the root joined to an accepted file name |
| Locator.MatchesIff | utils.py:45-48 | a path is returned exactly when some step of the walk has an accepted file whose joined path it is |
| Locator.Collect | utils.py:43-50 | the loops return the joined accepted paths in traversal order |
| Locator.FindHistoryFiles | utils.py:26-50 | `find_history_files` of utils.py returns, in walk order, the paths of the files that are targets or timestamp snapshots |
| Locator.FindPlainHistoryFiles | find_history_files.py:35-44 | the older `find_history_files` returns, in walk order, exactly the paths of the files named `history` or `history.old` |
| Renumber.IndexOfNumbered | utils.py:66-68 | the name `f"{prefix}.{n}"` is read back by the index pattern as `n` |
| Renumber.NumberedInjective | utils.py:75-76 | different numbers give different names |
| Renumber.BareIsNotNumbered | utils.py:58-62 | the bare `prefix` file is never a numbered name |
| Renumber.IndicesOfIff | utils.py:64-68 | `n` is collected exactly when some entry of the list matches the pattern with index `n` |
| Renumber.Rename | utils.py:80 | `os.rename` onto a free name moves the content to the new name and changes nothing else |
| Renumber.Run | utils.py:74-80 | the renaming loop on the sorted indices; its meaning is stated by `Renumber.RunFrame`, `Renumber.RunKeepsCount`, `Renumber.RunDense` and `Renumber.RenumberDense` |
| Renumber.RunFrame | utils.py:74-80 | the renaming loop never creates, removes or changes a file that is not a numbered name, the bare `prefix` included |
| Renumber.RunKeepsCount | utils.py:77-80 | no rename overwrites a file: the number of files is unchanged |
| Renumber.DenseStay | utils.py:77 | an index already in its place is left alone and the loop's invariant holds for the next index |
| Renumber.DenseMove | utils.py:74-80 | an index above its place moves to a free name and the loop's invariant holds for the next index |
| Renumber.RunDense | utils.py:74-80 | with strictly increasing indices from 1 up, the loop never fails and ends with the names `prefix.1` to `prefix.k`, each holding the content of the index in that place |
| Renumber.CollectIndices | utils.py:64-68 | the loop collects the indices in list order |
| Renumber.RenameInOrder | utils.py:74-80 | the loop over the indices performs `Run` |
| Renumber.RenameFilesSequentially | utils.py:58-80 | `rename_files_sequentially` performs `Run` on the sorted indices |
| Renumber.SortedIndices | utils.py:71 | distinct indices of at least 1 sort into a strictly increasing sequence that starts at 1 or above and has the same elements |
| Renumber.RenumberDense | utils.py:58-80 | distinct numbered files `prefix.a1 < ... < prefix.ak` become exactly `prefix.1` to `prefix.k`; the i-th smallest old index gets number i; no file is lost; every other name keeps its content |
| Renumber.Olds | utils.py:90-93 | the old family holds exactly the located paths that contain `history.old` |
| Renumber.OldSet | utils.py:89-93 | `to_be_removed` holds exactly those paths |
| Renumber.Others | utils.py:95-96 | the other family holds exactly the located paths without `history.old` |
| Renumber.RemoveOldsDistinct | utils.py:95-96 | on a list without repeats, removing the old paths one by one leaves exactly the other family |
| Renumber.CollectOlds | utils.py:88-93 | the loop builds the old family and the set to remove |
| Renumber.RemoveAll | utils.py:95-96 | the `remove` loop deletes the first occurrence of each path of the set |
| Renumber.SplitOld | utils.py:88-96 | the two families are split as above, and on a list without repeats the rest is exactly the other family |
| Renumber.PathJoin | utils.py:98-99 | `str(Path(d) / name)` is the plain join except for the directory `.`, which pathlib drops |
| Renumber.RenumberFamilies | utils.py:87-99 | the located files are split into two families and each is renumbered under its own prefix; the second run is skipped when the first one raised |
| Renumber.FillGaps | utils.py:82-99 | `fill_gaps(d)` as written, with the prefixes built by pathlib; what it then does is stated by `Renumber.RenumberBothFamilies` |
| Renumber.FillGapsJoined | utils.py:82-99 | `fill_gaps(d)` with the prefixes joined to `d` as the walk joins its paths; what it then does is stated by `Renumber.FillGapsJoinedCloses` |
| Renumber.OldPrefixExtends | utils.py:98-99 | the old family's prefix is the history prefix followed by `.old`, for the joined and the pathlib prefixes alike |
| Renumber.FamiliesApart | utils.py:98-99 | a name `prefix.n` is never a `prefix.old.m` and the other way round, so the two renumberings cannot touch each other's files |
| Renumber.FillGapsWith | utils.py:95-99 | the two renumberings of `fill_gaps`, the second skipped when the first fails; its meaning is stated by `Renumber.RenumberBothFamilies` |
| Renumber.RenumberBothFamilies | utils.py:82-99 | on a list without repeats whose two families are dense, both renumberings succeed; the history files become exactly `prefix.1` to `prefix.k` and the old ones exactly `prefix.old.1` to `prefix.old.m`, each in the order of its old indices and with its content; no file is lost and no other file changes |
| Renumber.FillGapsJoinedCloses | utils.py:82-99 | `fill_gaps` with joined prefixes closes every gap of both families under the same conditions |
| Renumber.SecondKeepsFirst | utils.py:98-99 | the second renumbering keeps the history files where the first one put them |
| Renumber.SecondMovesOld | utils.py:98-99 | the first renumbering leaves the old family alone, so the second one moves the original old files |
| Renumber.DotFillGapsRenamesNothing | utils.py:98-99 | as written, `fill_gaps(".")` leaves the directory as it was, gaps included |
| Renumber.JoinedIndex | utils.py:66 | joining the directory to both the prefix and the name reads the same index |
| Renumber.CorrectedPrefixSeesTopLevel | utils.py:98-99 | with the joined prefix, the indices found in the walked paths are exactly those of the bare file names |
| Patterns.HTimeLen | manage_history_files.py:37 | `\d{1,2}:\d{2}:\d{2}` matches 7 or 8 characters starting with a digit, or nothing |
| Patterns.DateIsNotTime | manage_history_files.py:36-37 | a date and a clock never start at the same place, so the optional date group is never ambiguous |
| Patterns.ClockCaptured | manage_history_files.py:37 | what the clock pattern matches is a clock |
| Patterns.DateCaptured | manage_history_files.py:18 | what the date pattern matches is a date |
| Patterns.TimeAfterDate | manage_history_files.py:19 | a start clock found after the date sits right after a run of whitespace |
| Patterns.TimeAfterDateComplete | manage_history_files.py:19 | a clock right after the whitespace that follows the date is the start clock found |
| Patterns.SplitUnsplit | manage_history_files.py:7-15 | a path is its separator-free segments joined by its separators |
| Patterns.UnsplitSplit | manage_history_files.py:7-15 | joining separator-free segments with separators and splitting again gives them back |
| Patterns.HostAppUserSound | manage_history_files.py:7-15 | an accepted path is `.`, a separator, and four non-empty separator-free segments with separators between them |
| Patterns.HostAppUserComplete | manage_history_files.py:7-15 | every such path is accepted, with its four segments |
| Patterns.HostAppUser | manage_history_files.py:7-15 | `host_app_user_pattern` and its four groups; its meaning is stated by `Patterns.HostAppUserSound`, `Patterns.HostAppUserComplete` and `Patterns.HostAppUserIff` |
| Patterns.HostAppUserIff | manage_history_files.py:7-15 | `host_app_user_pattern` matches exactly the paths `./host/app/user/file`, with `/` or `\` at each separator, and its groups are the four segments in order |
| ManagePatterns.JDThenISOFromIff | manage_history_files.py:20 | letting `.*?` try the first `JD` only loses no match: a later `JD` has no more `ISO` words after it |
| ManagePatterns.DateTimeStart | manage_history_files.py:17-21 | `date_time_start_pattern` and its groups; its meaning is stated by `ManagePatterns.DateTimeStartStarted` and `ManagePatterns.DateTimeStartBare` |
| ManagePatterns.DateTimeStartStarted | manage_history_files.py:17-21 | the header pattern gives a date and a start exactly for a date, whitespace, a two-digit-hour clock, then the word `JD` and later the word `ISO` |
| ManagePatterns.DateTimeStartBare | manage_history_files.py:17-21 | it gives a date without a start exactly when the line is the date alone |
| ManagePatterns.ClockLineIsNoHeader | manage_history_files.py:17-18 | a line that starts with a clock is no header |
| ManagePatterns.LeadTime | manage_history_files.py:23-33 | `start_pattern` and `end_pattern`; its meaning is stated by `ManagePatterns.LeadTimeIff` |
| ManagePatterns.LeadTimeIff | manage_history_files.py:23-33 | `start_pattern` and `end_pattern` give a clock at the start of the line, or one after a date and whitespace, and nothing else |
| ManagePatterns.DurationH | manage_history_files.py:39 | the `duration_h` group is a 7- or 8-character clock |
| ManagePatterns.DurationS | manage_history_files.py:39 | the `duration_s` group has 6 characters and is set only when `duration_h` is not |
| ManagePatterns.EndDuration | manage_history_files.py:35-41 | `end_duration_pattern` and its groups; its meaning is stated by `ManagePatterns.EndFromLeftmost`, `ManagePatterns.EndFromAt` and `ManagePatterns.EndDurationSound` |
| ManagePatterns.EndFromLeftmost | manage_history_files.py:37-39 | the groups come from the leftmost complete trailer after the end clock |
| ManagePatterns.EndFromAt | manage_history_files.py:37-39 | when the trailer phrase and its tail first complete at `q`, the groups are those read there |
| ManagePatterns.EndDurationSound | manage_history_files.py:35-41 | the end group has clock shape, and at most one of the two duration groups is set |
| ManagePatterns.EndDurationCaptures | manage_history_files.py:37 | the end group is a clock |
| ManagePatterns.DateTimeStartCaptures | manage_history_files.py:17-21 | the header's date is a date, and its start, when present, is a clock |
| ManagePatterns.LeadTimeCaptures | manage_history_files.py:29-33 | the end clock found is a clock |
| ManagePatterns.PhraseLiteral | manage_history_files.py:38-40 | the phrase in lower case with single spaces is found by the case-insensitive match |
| ManagePatterns.HeaderLine | manage_history_files.py:17-21 | `<date> <start> JD ISO` gives its date and its start |
| ManagePatterns.TrailerLine | manage_history_files.py:35-41 | `<end> history registration finished` gives its end clock and no duration |
| ManagePatterns.TrailerLineHours | manage_history_files.py:35-41 | `... finished after <clock>` gives the clock as `duration_h` |
| ManagePatterns.TrailerLineSeconds | manage_history_files.py:35-41 | `... finished after <SS.mmm> s` gives `SS.mmm` as `duration_s` |
| Calendar.DaysInMonth | manage_history_files.py:76-77 | a month has 28 to 31 days, and 29 exactly for February of a leap year |
| Calendar.DaysBeforeYearStep | manage_history_files.py:78 | the day count of the proleptic Gregorian calendar advances by one year's length per year |
| Calendar.DaysBeforeMonthStep | manage_history_files.py:78 | the day count advances by one month's length per month |
| Calendar.NextDayOrdinal | manage_history_files.py:78 | the next calendar day has the next ordinal, across month and year ends |
| Calendar.OvernightSeconds | manage_history_files.py:55-78 | a session that ends on the next day lasts 86400 seconds more than the difference of its clocks |
| Calendar.ParseStamp | manage_history_files.py:73-77 | `strptime` gives a valid datetime, or raises for an out-of-range field or a missing clock |
| Calendar.Digits | manage_history_files.py:73 | the zero-padded `%Y`, `%m`, `%d`, `%H`, `%M` and `%S` fields have exactly their width and hold only digits |
| Calendar.DateText | manage_history_files.py:73 | the date part of the format, `%Y-%m-%d`, is ten characters long |
| Calendar.ClockText | manage_history_files.py:73 | the clock part of the format, `%H:%M:%S`, is eight characters long |
| Calendar.ParseStampFormatted | manage_history_files.py:73-77 | every valid datetime up to year 9999, written as `YYYY-MM-DD` and `HH:MM:SS`, is parsed back to itself |
| Calendar.ParseStampText | manage_history_files.py:73-77 | what `strptime` accepts is the written form of the datetime it returns; a one-digit hour is that form without its leading zero |
| Calendar.DigitsValue | manage_history_files.py:73-77 | `w` zero-padded digits read back as any number below `10^w` |
| Calendar.DigitsOfValue | manage_history_files.py:73-77 | a digit string is the zero-padded form of its value at its own width |
| Calendar.ValueLeadingZero | manage_history_files.py:73-77 | a leading zero does not change the value `%H` reads |
| Calendar.DateTextFields | manage_history_files.py:73-77 | the written date is a date whose three fields read back as the year, month and day |
| Calendar.ClockTextFields | manage_history_files.py:73-77 | the written clock is an `HH:MM:SS` clock whose three fields read back as the hour, minute and second |
| Calendar.DateOfFields | manage_history_files.py:73-77 | a date is the written form of the three numbers it holds |
| Calendar.ClockOfFields | manage_history_files.py:73-77 | an `HH:MM:SS` clock is the written form of the three numbers it holds |
| Calendar.ShortClockOfFields | manage_history_files.py:73-77 | an `H:MM:SS` clock with a leading zero is the written form of the three numbers it holds |
| Calendar.Pad2 | manage_history_files.py:81 | `f"{n:02}"` is at least two digits reading back as `n`, exactly two below 100, the canonical numeral from 10 up, and a minus sign before the canonical numeral of `-n` for a negative `n` |
| Calendar.FormatDuration | manage_history_files.py:79-81 | the `divmod` formatting of the elapsed seconds; its meaning is stated by `Calendar.FormatDurationRoundTrip` and `Calendar.FormatDurationNegative` |
| Calendar.FormatDurationRoundTrip | manage_history_files.py:79-81 | the `HH:MM:SS h` text reads back as the elapsed seconds: hours times 3600 plus minutes times 60 plus seconds, with minutes and seconds below 60, negative durations included |
| Calendar.DurationTextRoundTrip | manage_history_files.py:75-86 | reading the result back gives the elapsed seconds, or nothing for `Error` |
| Calendar.FormatDurationNegative | manage_history_files.py:79-81 | a session that ends before it starts reads as a negative hour count |
| Session.EndDate | manage_history_files.py:55-71 | the end date is a date, and it is the start date when the buffer has no header line |
| Session.EndDateLastHeader | manage_history_files.py:56-69 | otherwise it is the date of the last header line of the buffer |
| Session.Elapsed | manage_history_files.py:73-78 | an elapsed time exists exactly when both instants parse |
| Session.CalculateDuration | manage_history_files.py:54-86 | `calculate_duration`; its meaning is stated by `Session.CalculateDurationMeaning` |
| Session.CalculateDurationMeaning | manage_history_files.py:54-86 | `calculate_duration` is `Error` exactly when an instant does not parse, and otherwise reads back as the seconds between the two instants |
| Session.StartOf | manage_history_files.py:95-100 | the start is the header's when present, and otherwise exactly the clock the start pattern finds on the third line, if any |
| Session.TrailerDuration | manage_history_files.py:108-113 | a stated hour duration wins and gets ` h`, else a stated seconds duration gets ` s`, else the duration is computed from the start to the end clock |
| Session.Ended | manage_history_files.py:102-123 | the record has the header's date and start; with a trailer on the last line, its end clock and `TrailerDuration`; without one, the end clock of the last line that starts with a clock and the duration computed up to it; there is no record exactly when the last line is no trailer and no line starts with a clock |
| Session.ExtractData | manage_history_files.py:88-131 | `extract_data` on a buffer; its meaning is stated by `Session.ExtractLines`, `Session.ExtractDataNoTuple`, `Session.ExtractDataComplete`, `Session.StartOf` and `Session.Ended` |
| Session.ExtractLines | manage_history_files.py:89-131 | the result is all `None` exactly for an empty buffer, a first line that is no header, or a header without a start in fewer than three lines |
| Session.ExtractDataNoTuple | manage_history_files.py:116-123 | `extract_data` returns the bare `None` exactly when a header opens the buffer and is not cut short, the last line is no trailer, and no line starts with a clock |
| Session.ExtractDataComplete | manage_history_files.py:91-123 | a record with a date is never half filled: the date and start are the header's, and the end and the duration are present |
| Session.HeaderAndTrailer | manage_history_files.py:102-115 | a buffer that opens with a started header and closes with a trailer gives their groups, and the duration stated or computed |
| Session.SessionRecord | manage_history_files.py:54-115 | a one-header session closed by a trailer with no stated duration gives the header's date and start, the trailer's end, and the duration computed on the header's day |
| Legacy.DateStart | find_history_files.py:15-19 | `date_start_pattern` matches exactly when the line starts with a date; the date is its first ten characters and the start, when present, is a clock |
| Legacy.LegacyStart | find_history_files.py:21-24 | `start_pattern` matches exactly when the line starts with a two-digit-hour clock, which it returns |
| Legacy.LegacyEndDuration | find_history_files.py:26-33 | `end_duration_pattern` of the older script; its meaning is stated by `Legacy.LegacyEndFrom`, `Legacy.LegacyEndFromAt` and `Legacy.LegacyEndDurationCaptures` |
| Legacy.LegacyEndFrom | find_history_files.py:26-33 | the end group is the clock at the start of the match |
| Legacy.LegacyEndFromAt | find_history_files.py:26-33 | when the trailer phrase first completes at `q`, the duration group is the one read there |
| Legacy.LegacyEndDurationCaptures | find_history_files.py:28 | the end group is a clock |
| Legacy.LegacyStartOf | find_history_files.py:52-59 | the start is the header's; without one, a start exists exactly when there is a sixth line that starts with a clock, and it is that clock |
| Legacy.LegacyRecord | find_history_files.py:51-84 | the result is always a 4-tuple, and all `None` exactly when the third line does not start with a date |
| Legacy.ExtractLegacy | find_history_files.py:46-90 | `extract_data` of the older script; its meaning is stated by `Legacy.ExtractLegacyNothing`, `Legacy.LegacyRecord`, `Legacy.LegacyStartSource` and `Legacy.LegacyEnd` |
| Legacy.ExtractLegacyNothing | find_history_files.py:46-90 | `extract_data` is all `None` exactly for an unreadable file, fewer than three lines, or a third line without a date, and never the bare `None` |
| Legacy.OnlyThreeLinesMatter | find_history_files.py:50-82 | two files that agree on the third, the sixth and the last line give the same record: the backward date scan only prints |
| Legacy.RegisteringIsNoClock | find_history_files.py:81-82 | `Registering` is no clock, so it cannot be mistaken for an end time |
| Legacy.LegacyEnd | find_history_files.py:71-82 | with a date on the third line, the end is `Registering` exactly when the last line is no trailer, and otherwise it is the trailer's clock; the duration is then also `Registering` |
| Legacy.LegacyDurationCopied | find_history_files.py:73-80 | the duration is present exactly when the trailer states one; it is the stated text with every `hours` replaced by `h`, so it is copied unchanged when it does not spell `hours` |
| Legacy.LegacyStartSource | find_history_files.py:52-59 | the start is the header's, else that of a sixth line that starts with a clock, else none |
| Legacy.ReplaceSkips | find_history_files.py:76 | `replace` leaves alone a prefix that holds no first character of the pattern |
| Legacy.HoursShortened | find_history_files.py:75-76 | a duration `H:MM:SS hours` is reported as `H:MM:SS h` |
| Splitter.Stripped | manage_history_files.py:154 | each line is its raw line without the trailing line feeds |
| Splitter.SameAsLast | manage_history_files.py:156 | the end test as written holds exactly for the lines equal to the file's last line |
| Splitter.AtLastIndex | manage_history_files.py:156 | the end test by position holds for the last line alone |
| Splitter.Kept | manage_history_files.py:155 | the lines the loop keeps are all non-blank |
| Splitter.Step | manage_history_files.py:155-173 | one turn of the buffer loop; its meaning is stated by `Splitter.StepShaped` |
| Splitter.StepShaped | manage_history_files.py:155-173 | one turn of the loop keeps the shape of the buffers |
| Splitter.Cut | manage_history_files.py:153-173 | the buffer loop over the stripped lines; its meaning is stated by `Splitter.CutShape`, `Splitter.CutKeepsLines`, `Splitter.CutOpensWithHeader` and `Splitter.CutAtEnd` |
| Splitter.Buffers | manage_history_files.py:153-173 | the loop with the end test as written, `raw_line == lines[-1]`; its meaning is stated by `Splitter.RepeatedLastLineSplitsSession` and, where no earlier line equals the last, `Splitter.AsWrittenAgrees` |
| Splitter.CutShape | manage_history_files.py:153-173 | the buffers keep their shape through the whole loop, whatever the tests |
| Splitter.CutKeepsLines | manage_history_files.py:153-173 | before the end test fires, the buffers handed on followed by the open one are exactly the non-blank lines, in order, none lost or repeated |
| Splitter.CutOpensWithHeader | manage_history_files.py:156-167 | every buffer handed on after the first starts with a line that opens a session |
| Splitter.CutAtEnd | manage_history_files.py:156-167 | when only the last line passes the end test, it joins the open buffer, which is handed on; every non-blank line has then been handed on once, in order, and the buffer left over holds the last line alone |
| Splitter.CloseWithLast | manage_history_files.py:158-167 | closing a non-empty buffer with the last line keeps the lines in order and the headers in front |
| Splitter.BlankLastLine | manage_history_files.py:155 | a blank last line closes nothing |
| Splitter.AsWrittenAgrees | manage_history_files.py:156 | the end test as written cuts the same buffers as the test by position when no earlier raw line equals the last one |
| Splitter.RepeatedLineCut | manage_history_files.py:156-167 | as written, a header and two equal lines are cut into `[h, x]` and `[x, x]` |
| Splitter.RepeatedLastLineSplitsSession | manage_history_files.py:156-167 | as written, a file of a header and two equal lines hands on a second session that starts without a header and repeats a line |
| Splitter.ByPositionAtEnd | manage_history_files.py:149-173 | with the end test by position, every non-blank line reaches `extract_data` once, in order, and every buffer after the first starts at a session header |
| Splitter.StepJoined | manage_history_files.py:155-173 | one line taken on the buffer string follows one step on the lines it holds |
| Splitter.TakeLine | manage_history_files.py:155-173 | one turn of the loop on the buffer string: it skips a blank line, closes a non-empty buffer at a header or at the end (the last line joining it), or continues the buffer |
| Splitter.Advance | manage_history_files.py:153-173 | taking a raw line keeps the buffer strings equal to the text of the blocks |
| Splitter.SplitFile | manage_history_files.py:149-173 | the buffers handed on are the text of the blocks cut from the file, each reported with its `extract_data` record; a bare `None` record stops the program at its unpacking, and it is the last one |

## Left out

- **File I/O.** Reading, `stat`, `unlink`, `os.rename`, `os.path.exists`,
  `glob` and `os.walk` act on the name-to-bytes map. Enumeration orders are
  inputs.
- **Unreadable files.** A file of `find_history_files.py` that cannot be read
  or decoded is modelled as missing contents, which gives the caught exception's
  all-`None` record.
- **Listing order across passes.** Each pass of `Dedup.RunContainment` sees
  the same enumeration order with the files already deleted removed. The
  filesystem does not promise this order.
- **Printing.** All `print` and `termcolor` output is left out. This covers
  the messages of `calculate_duration` and the report line of the main blocks.
  The backward date scan of find_history_files.py:62-69 only prints;
  `Legacy.OnlyThreeLinesMatter` states that it does not affect the result.
- **The main blocks.** They are modelled as far as the buffer-splitting loop:
  the `host_app_user_pattern` filter and the loop over the located files are
  not composed with it.
- **Unicode classes.** `\d` and the word characters of `\b` are the ASCII
  ones; Unicode digits and letters are not modelled. `\s` and
  `str.isspace` are modelled with Python's full set of whitespace
  characters.
- **Regex metacharacters in the renaming prefix.** `rename_files_sequentially`
  interpolates the prefix unescaped. `.` is modelled as matching any
  character but a newline; no other metacharacter is modelled.
- **`strptime` and floats.** `strptime` is modelled only on the shapes the
  patterns capture. `timedelta.total_seconds()` is modelled as whole seconds,
  which it is for these inputs.
- **Behaviour kept as the code has it.**
  - On byte-equal files the `old`-named copy is kept.
  - The families of `fill_gaps` are split on `history.old`.
  - A stated duration is copied as written (`H:MM:SS h`, `SS.mmm s`).
  - A negative elapsed time is written with a negative hour count.
  - The end date is the date of the last header line of the buffer.
- **`Renumber.RunFrame`.** It states the frame only for names that are not
  numbered names of the prefix. The numbered names are covered by
  `Renumber.RunDense`, under its increasing-indices precondition.

## Findings

| source | as written | input that shows it | evidently intended | confidence | as-written member | corrected member |
|---|---|---|---|---|---|---|
| utils.py:98-99 | the prefixes are `str(Path(d) / "history")`, which pathlib reduces to `history` for `d = "."`, while the walk of utils.py:45-48 reports `./history.3`; the pattern of utils.py:66 then matches no path | `fill_gaps(".")` on a directory holding `history.1` and `history.3` | the files renumbered to `history.1` and `history.2`: with the joined prefix the top-level rotations are found by their bare names (`Renumber.CorrectedPrefixSeesTopLevel`) and both families are closed | not executed | Renumber.DotFillGapsRenamesNothing | Renumber.FillGapsJoinedCloses |
| manage_history_files.py:156-159 | the end of the file is detected by `raw_line == lines[-1]`, so any earlier line equal to the last one also closes the session | a file of a header `h` followed by two lines `x`, `x` | one session `h`, `x`, `x` handed to `extract_data` | not executed | Splitter.RepeatedLastLineSplitsSession | Splitter.ByPositionAtEnd |

=== FILE: calendar.dfy ===
/**
 * The date arithmetic of `calculate_duration` (manage_history_files.py:54-86):
 * `datetime.strptime` with the format `%Y-%m-%d, %H:%M:%S` on the date and
 * clock strings the patterns capture, the difference of two datetimes in
 * seconds, and the `HH:MM:SS h` text built from it with `divmod`.
 */
module Calendar {
  import opened Wrappers
  import opened Text
  import opened Locator
  import opened Patterns

  // ---------------------------------------------------------------------------
  // The proleptic Gregorian calendar of Python's `datetime`

  predicate IsLeap(y: nat) {
    y % 4 == 0 && (y % 100 != 0 || y % 400 == 0)
  }

  function DaysInMonth(y: nat, m: nat): (n: nat)
    requires 1 <= m <= 12
    ensures 28 <= n <= 31
    ensures n == 29 <==> m == 2 && IsLeap(y)
  {
    if m == 2 then (if IsLeap(y) then 29 else 28)
    else if m == 4 || m == 6 || m == 9 || m == 11 then 30
    else 31
  }

  function DaysInYear(y: nat): nat {
    if IsLeap(y) then 366 else 365
  }

  /** `_days_before_year`: the days of the years before `y`. */
  function DaysBeforeYear(y: nat): nat
    requires 1 <= y
  {
    var p := y - 1;
    p * 365 + p / 4 - p / 100 + p / 400
  }

  /** `_days_before_month`: the days of the months of year `y` before `m`. */
  function DaysBeforeMonth(y: nat, m: nat): nat
    requires 1 <= m <= 12
  {
    var table := [0, 0, 31, 59, 90, 120, 151, 181, 212, 243, 273, 304, 334];
    table[m] + if m > 2 && IsLeap(y) then 1 else 0
  }

  lemma QuarterStep(p: nat)
    ensures (p + 1) / 4 == p / 4 + (if (p + 1) % 4 == 0 then 1 else 0)
  {
  }

  lemma CenturyStep(p: nat)
    ensures (p + 1) / 100 == p / 100 + (if (p + 1) % 100 == 0 then 1 else 0)
  {
  }

  lemma QuadricentennialStep(p: nat)
    ensures (p + 1) / 400 == p / 400 + (if (p + 1) % 400 == 0 then 1 else 0)
  {
  }

  lemma LeapDivisors(y: nat)
    ensures y % 400 == 0 ==> y % 100 == 0
    ensures y % 100 == 0 ==> y % 4 == 0
  {
    if y % 400 == 0 {
      assert y == 100 * (4 * (y / 400));
    }
    if y % 100 == 0 {
      assert y == 4 * (25 * (y / 100));
    }
  }

  /** A year's days follow the days before it. */
  lemma DaysBeforeYearStep(y: nat)
    requires 1 <= y
    ensures DaysBeforeYear(y + 1) == DaysBeforeYear(y) + DaysInYear(y)
  {
    var p := y - 1;
    QuarterStep(p);
    CenturyStep(p);
    QuadricentennialStep(p);
    LeapDivisors(y);
  }

  /** A month's days follow the days before it. */
  lemma DaysBeforeMonthStep(y: nat, m: nat)
    requires 1 <= m < 12
    ensures DaysBeforeMonth(y, m + 1) == DaysBeforeMonth(y, m) + DaysInMonth(y, m)
  {
  }

  lemma DaysBeforeDecember(y: nat)
    ensures DaysBeforeMonth(y, 12) + DaysInMonth(y, 12) == DaysInYear(y)
  {
  }

  /** A date and a time of day, as `datetime` holds them. */
  datatype Stamp = Stamp(year: nat, month: nat, day: nat, hour: nat, minute: nat, second: nat)

  /** The ranges `datetime` accepts. */
  predicate ValidStamp(t: Stamp) {
    1 <= t.year && 1 <= t.month <= 12 && 1 <= t.day <= DaysInMonth(t.year, t.month)
    && t.hour < 24 && t.minute < 60 && t.second < 60
  }

  /** `date.toordinal()`: 1 January of year 1 is day 1. */
  function Ordinal(t: Stamp): nat
    requires ValidStamp(t)
  {
    DaysBeforeYear(t.year) + DaysBeforeMonth(t.year, t.month) + t.day
  }

  /** The seconds since the start of the calendar, which `end_dt - start_dt` subtracts. */
  function Seconds(t: Stamp): int
    requires ValidStamp(t)
  {
    (Ordinal(t) - 1) * 86400 + t.hour * 3600 + t.minute * 60 + t.second
  }

  /** The calendar day after the day of `t`, at the same clock. */
  function NextDay(t: Stamp): (u: Stamp)
    requires ValidStamp(t)
    ensures ValidStamp(u)
  {
    if t.day < DaysInMonth(t.year, t.month) then t.(day := t.day + 1)
    else if t.month < 12 then t.(month := t.month + 1, day := 1)
    else t.(year := t.year + 1, month := 1, day := 1)
  }

  /** The day after a day is the next ordinal, across month and year ends. */
  lemma NextDayOrdinal(t: Stamp)
    requires ValidStamp(t)
    ensures Ordinal(NextDay(t)) == Ordinal(t) + 1
  {
    if t.day == DaysInMonth(t.year, t.month) {
      if t.month < 12 {
        DaysBeforeMonthStep(t.year, t.month);
      } else {
        DaysBeforeYearStep(t.year);
        DaysBeforeDecember(t.year);
      }
    }
  }

  /**
   * A session that ends on the next calendar day lasts a day more than the
   * difference of its clocks: the reason `calculate_duration` looks for a
   * later date.
   */
  lemma OvernightSeconds(t: Stamp, hour: nat, minute: nat, second: nat)
    requires ValidStamp(t) && hour < 24 && minute < 60 && second < 60
    ensures var u := NextDay(t).(hour := hour, minute := minute, second := second);
      ValidStamp(u)
      && Seconds(u) - Seconds(t) == 86400 + (hour * 3600 + minute * 60 + second) - (t.hour * 3600 + t.minute * 60 + t.second)
  {
    NextDayOrdinal(t);
  }

  // ---------------------------------------------------------------------------
  // strptime

  /**
   * `datetime.strptime(f"{date}, {clock}", "%Y-%m-%d, %H:%M:%S")`, `None`
   * for the `ValueError` it raises. A missing clock is formatted as `None`,
   * which the format rejects; `%H` takes one or two digits up to 23, `%M`
   * and `%S` two digits up to 59 (the format accepts 60 and 61 seconds, the
   * `datetime` constructor does not), the month runs from 01 to 12 and the
   * day must exist in that month of that year.
   */
  function ParseStamp(date: string, clock: Option<string>): (r: Option<Stamp>)
    requires IsDate(date)
    requires clock.Some? ==> IsClock(clock.value)
    ensures r.Some? ==> ValidStamp(r.value)
    ensures clock.None? ==> r.None?
  {
    if clock.None? then None
    else
      var c := clock.value;
      assert AllDigits(date[..4]) && AllDigits(date[5..7]) && AllDigits(date[8..10]);
      assert AllDigits(c[..|c| - 6]) && AllDigits(c[|c| - 5..|c| - 3]) && AllDigits(c[|c| - 2..]);
      var t := Stamp(Value(date[..4]), Value(date[5..7]), Value(date[8..10]),
                     Value(c[..|c| - 6]), Value(c[|c| - 5..|c| - 3]), Value(c[|c| - 2..]));
      if ValidStamp(t) then Some(t) else None
  }

  /** `10` to the power `w`. */
  function Pow10(w: nat): (r: nat)
    ensures r >= 1
  {
    if w == 0 then 1 else 10 * Pow10(w - 1)
  }

  /** `n` in exactly `w` decimal digits, zero-padded on the left; higher digits beyond `w` are dropped. */
  function Digits(n: nat, w: nat): (r: string)
    ensures |r| == w && AllDigits(r)
  {
    if w == 0 then [] else Digits(n / 10, w - 1) + [DigitChar(n % 10)]
  }

  /** `w` digits hold every number below `10^w`. */
  lemma {:induction false} DigitsValue(n: nat, w: nat)
    requires n < Pow10(w)
    ensures Value(Digits(n, w)) == n
  {
    if w > 0 {
      assert n / 10 < Pow10(w - 1);
      DigitsValue(n / 10, w - 1);
      ValueSnoc(Digits(n / 10, w - 1), DigitChar(n % 10));
    }
  }

  /** Reading a digit string and writing it back at the same width gives it back, leading zeros included. */
  lemma {:induction false} DigitsOfValue(s: string)
    requires AllDigits(s)
    ensures Value(s) < Pow10(|s|) && Digits(Value(s), |s|) == s
  {
    if s != [] {
      var p, c := s[..|s| - 1], s[|s| - 1];
      assert AllDigits(p);
      DigitsOfValue(p);
      assert s == p + [c];
      var v := Value(s);
      assert v == 10 * Value(p) + DigitValue(c);
      assert v / 10 == Value(p) && v % 10 == DigitValue(c);
      assert DigitChar(DigitValue(c)) == c;
    }
  }

  /** A leading zero does not change a number. */
  lemma {:induction false} ValueLeadingZero(s: string)
    requires AllDigits(s)
    ensures AllDigits("0" + s) && Value("0" + s) == Value(s)
  {
    if s != [] {
      var p := s[..|s| - 1];
      assert AllDigits(p);
      ValueLeadingZero(p);
      assert ("0" + s)[..|s|] == "0" + p;
    }
  }

  /** `strftime("%Y-%m-%d")`: the date of a stamp in the form the session headers use. */
  function DateText(t: Stamp): (r: string)
    ensures |r| == 10
  {
    Digits(t.year, 4) + "-" + Digits(t.month, 2) + "-" + Digits(t.day, 2)
  }

  /** `strftime("%H:%M:%S")`: the clock of a stamp with two digits per field. */
  function ClockText(t: Stamp): (r: string)
    ensures |r| == 8
  {
    Digits(t.hour, 2) + ":" + Digits(t.minute, 2) + ":" + Digits(t.second, 2)
  }

  /** A stamp written out as a date and a clock is parsed back to itself. */
  lemma ParseStampFormatted(t: Stamp)
    requires ValidStamp(t) && t.year < 10000
    ensures IsDate(DateText(t)) && IsClock(ClockText(t))
    ensures ParseStamp(DateText(t), Some(ClockText(t))) == Some(t)
  {
    var d, c := DateText(t), ClockText(t);
    DateTextFields(t);
    ClockTextFields(t);
    assert HTimeLen(c, 0) == 8;
  }

  lemma DateTextFields(t: Stamp)
    requires ValidStamp(t) && t.year < 10000
    ensures IsDate(DateText(t))
    ensures var d := DateText(t); Value(d[..4]) == t.year && Value(d[5..7]) == t.month && Value(d[8..10]) == t.day
  {
    var d := DateText(t);
    assert d[..4] == Digits(t.year, 4) && d[5..7] == Digits(t.month, 2) && d[8..10] == Digits(t.day, 2);
    assert Pow10(4) == 10000 && Pow10(2) == 100;
    DigitsValue(t.year, 4);
    DigitsValue(t.month, 2);
    DigitsValue(t.day, 2);
  }

  lemma ClockTextFields(t: Stamp)
    requires ValidStamp(t)
    ensures TimeAt(ClockText(t), 0)
    ensures var c := ClockText(t); Value(c[..2]) == t.hour && Value(c[3..5]) == t.minute && Value(c[6..]) == t.second
  {
    var c := ClockText(t);
    assert c[..2] == Digits(t.hour, 2) && c[3..5] == Digits(t.minute, 2) && c[6..] == Digits(t.second, 2);
    assert Pow10(2) == 100;
    DigitsValue(t.hour, 2);
    DigitsValue(t.minute, 2);
    DigitsValue(t.second, 2);
  }

  /**
   * What `ParseStamp` accepts is the written form of the stamp it returns;
   * a one-digit hour is that form without its leading zero.
   */
  lemma ParseStampText(date: string, clock: string)
    requires IsDate(date) && IsClock(clock) && ParseStamp(date, Some(clock)).Some?
    ensures var t := ParseStamp(date, Some(clock)).value;
      date == DateText(t) && (|clock| == 8 ==> clock == ClockText(t)) && (|clock| == 7 ==> "0" + clock == ClockText(t))
  {
    var t := ParseStamp(date, Some(clock)).value;
    ParsedFields(date, clock);
    DateOfFields(date);
    if |clock| == 8 {
      ClockOfFields(clock);
    } else {
      ShortClockOfFields(clock);
    }
  }

  /** The fields `ParseStamp` reads, one per number of the stamp. */
  lemma ParsedFields(date: string, clock: string)
    requires IsDate(date) && IsClock(clock) && ParseStamp(date, Some(clock)).Some?
    ensures AllDigits(date[..4]) && AllDigits(date[5..7]) && AllDigits(date[8..10])
    ensures AllDigits(clock[..|clock| - 6]) && AllDigits(clock[|clock| - 5..|clock| - 3]) && AllDigits(clock[|clock| - 2..])
    ensures ParseStamp(date, Some(clock)).value
      == Stamp(Value(date[..4]), Value(date[5..7]), Value(date[8..10]),
               Value(clock[..|clock| - 6]), Value(clock[|clock| - 5..|clock| - 3]), Value(clock[|clock| - 2..]))
  {
  }

  lemma DateOfFields(date: string)
    requires IsDate(date)
    ensures AllDigits(date[..4]) && AllDigits(date[5..7]) && AllDigits(date[8..10])
    ensures date == Digits(Value(date[..4]), 4) + "-" + Digits(Value(date[5..7]), 2) + "-" + Digits(Value(date[8..10]), 2)
  {
    assert AllDigits(date[..4]) && AllDigits(date[5..7]) && AllDigits(date[8..10]);
    DigitsOfValue(date[..4]);
    DigitsOfValue(date[5..7]);
    DigitsOfValue(date[8..10]);
    assert date == date[..4] + "-" + date[5..7] + "-" + date[8..10];
  }

  lemma ClockOfFields(c: string)
    requires IsClock(c) && |c| == 8
    ensures AllDigits(c[..|c| - 6]) && AllDigits(c[|c| - 5..|c| - 3]) && AllDigits(c[|c| - 2..])
    ensures c == Digits(Value(c[..|c| - 6]), 2) + ":" + Digits(Value(c[|c| - 5..|c| - 3]), 2) + ":" + Digits(Value(c[|c| - 2..]), 2)
  {
    assert TimeAt(c, 0);
    assert AllDigits(c[..2]) && AllDigits(c[3..5]) && AllDigits(c[6..]);
    DigitsOfValue(c[..2]);
    DigitsOfValue(c[3..5]);
    DigitsOfValue(c[6..]);
    assert c == c[..2] + ":" + c[3..5] + ":" + c[6..];
  }

  lemma ShortClockOfFields(c: string)
    requires IsClock(c) && |c| == 7
    ensures AllDigits(c[..|c| - 6]) && AllDigits(c[|c| - 5..|c| - 3]) && AllDigits(c[|c| - 2..])
    ensures "0" + c == Digits(Value(c[..|c| - 6]), 2) + ":" + Digits(Value(c[|c| - 5..|c| - 3]), 2) + ":" + Digits(Value(c[|c| - 2..]), 2)
  {
    assert ShortTimeAt(c, 0);
    assert AllDigits(c[..1]) && AllDigits(c[2..4]) && AllDigits(c[5..]);
    ValueLeadingZero(c[..1]);
    DigitsOfValue("0" + c[..1]);
    DigitsOfValue(c[2..4]);
    DigitsOfValue(c[5..]);
    assert "0" + c == ("0" + c[..1]) + ":" + c[2..4] + ":" + c[5..];
  }

  // ---------------------------------------------------------------------------
  // The duration text

  /** `f"{n:02}"`: zero-padded to two characters; a negative number keeps its sign instead. */
  function Pad2(n: int): (r: string)
    ensures n >= 0 ==> |r| >= 2 && AllDigits(r) && Value(r) == n
    ensures 0 <= n < 100 ==> |r| == 2
    ensures n < 0 ==> |r| >= 2 && r[0] == '-' && AllDigits(r[1..]) && Value(r[1..]) == -n
    ensures n >= 10 ==> r == NatToString(n)
    ensures n < 0 ==> r == "-" + NatToString(-n)
  {
    if n < 0 then
      var r := "-" + NatToString(-n);
      assert r[1..] == NatToString(-n);
      r
    else if n < 10 then
      ValueSnoc("0", DigitChar(n));
      "0" + [DigitChar(n)]
    else
      assert NatToString(n) == NatToString(n / 10) + [DigitChar(n % 10)];
      NatToString(n)
  }

  /**
   * `divmod` by 3600 and then by 60, formatted as `HH:MM:SS h`. Python's
   * `divmod` floors, so a negative elapsed time has a negative hour count and
   * non-negative minutes and seconds.
   */
  function FormatDuration(elapsed: int): string {
    var hours, remainder := elapsed / 3600, elapsed % 3600;
    var minutes, seconds := remainder / 60, remainder % 60;
    Pad2(hours) + ":" + Pad2(minutes) + ":" + Pad2(seconds) + " h"
  }

  /** An independent reader of `[-]H…:MM:SS h`, the inverse of `FormatDuration`. */
  function ParseDuration(r: string): Option<int> {
    if |r| < 9 || r[|r| - 2] != ' ' || r[|r| - 1] != 'h' || r[|r| - 5] != ':' || r[|r| - 8] != ':' then None
    else
      var h, m, s := r[..|r| - 8], r[|r| - 7..|r| - 5], r[|r| - 4..|r| - 2];
      var negative := h != [] && h[0] == '-';
      var digits := if negative then h[1..] else h;
      if digits == [] || !AllDigits(digits) || !AllDigits(m) || !AllDigits(s) || Value(m) >= 60 || Value(s) >= 60 then None
      else Some((if negative then -(Value(digits) as int) else Value(digits) as int) * 3600 + Value(m) * 60 + Value(s))
  }

  lemma ParseDurationPieces(h: string, m: string, s: string)
    requires |h| >= 2 && |m| == 2 && |s| == 2
    ensures var r := h + ":" + m + ":" + s + " h";
      |r| >= 9 && r[|r| - 2] == ' ' && r[|r| - 1] == 'h' && r[|r| - 5] == ':' && r[|r| - 8] == ':'
      && r[..|r| - 8] == h && r[|r| - 7..|r| - 5] == m && r[|r| - 4..|r| - 2] == s
  {
    var r := h + ":" + m + ":" + s + " h";
    assert r == h + (":" + m + ":" + s + " h");
  }

  /** Reading the duration text back gives the elapsed seconds, negative ones included. */
  lemma FormatDurationRoundTrip(elapsed: int)
    ensures ParseDuration(FormatDuration(elapsed)) == Some(elapsed)
  {
    var hours, remainder := elapsed / 3600, elapsed % 3600;
    var minutes, seconds := remainder / 60, remainder % 60;
    var h, m, s := Pad2(hours), Pad2(minutes), Pad2(seconds);
    ParseDurationPieces(h, m, s);
    assert hours * 3600 + minutes * 60 + seconds == elapsed;
  }

  /** The result of `calculate_duration`: the duration text, or `Error` for a `ValueError`. */
  function DurationText(elapsed: Option<int>): string {
    match elapsed
    case None => "Error"
    case Some(e) => FormatDuration(e)
  }

  /** Reading the result back recovers the elapsed seconds, and the error. */
  lemma DurationTextRoundTrip(elapsed: Option<int>)
    ensures ParseDuration(DurationText(elapsed)) == elapsed
  {
    if elapsed.Some? {
      FormatDurationRoundTrip(elapsed.value);
    } else {
      assert |"Error"| < 9;
    }
  }

  /** A session that ends before it starts reads as a negative hour count. */
  lemma FormatDurationNegative(elapsed: int)
    requires elapsed < 0
    ensures FormatDuration(elapsed)[0] == '-'
  {
  }
}

=== FILE: comparator.dfy ===
/**
 * The content comparisons and the naming policy of the deduplication engine
 * (`is_equal`, `is_contained`, `is_old` in utils.py; `is_contained` in
 * containment.py, which is the same function).
 */
module Comparator {
  import opened Text

  type Byte = b: int | 0 <= b < 256

  /** A file's content as `bytes`, as read by `open(path, "rb").read()`. */
  type Bytes = seq<Byte>

  /** `is_equal`: byte-for-byte equality. */
  function IsEqual(smaller: Bytes, bigger: Bytes): (r: bool)
    ensures r <==> |smaller| == |bigger| && forall i :: 0 <= i < |smaller| ==> smaller[i] == bigger[i]
  {
    smaller == bigger
  }

  /** `is_contained`: `smaller in bigger`, true also for an empty `smaller`. */
  function IsContained(smaller: Bytes, bigger: Bytes): (r: bool)
    ensures r <==> Occurs(smaller, bigger)
    ensures r ==> |smaller| <= |bigger|
    ensures smaller == [] ==> r
  {
    var r := Contains(smaller, bigger);
    assert r ==> |smaller| <= |bigger| by {
      if r { OccursLength(smaller, bigger); }
    }
    assert smaller == [] ==> OccursAt(smaller, bigger, 0);
    r
  }

  /** Equal files contain each other, and containment between equal sizes is equality. */
  lemma ContainedOfEqualSize(smaller: Bytes, bigger: Bytes)
    ensures IsEqual(smaller, bigger) ==> IsContained(smaller, bigger)
    ensures IsContained(smaller, bigger) && |smaller| == |bigger| ==> IsEqual(smaller, bigger)
  {
    if IsEqual(smaller, bigger) { OccursReflexive(smaller); }
    if IsContained(smaller, bigger) { OccursLength(smaller, bigger); }
  }

  /** `is_old`: the name marks an "old" generation when it contains the substring `old`. */
  function IsOld(filename: string): (r: bool)
    ensures r <==> Occurs("old", filename)
  {
    Contains("old", filename)
  }
}

=== FILE: containment.dfy ===
/**
 * `run_containment` of containment.py, the earlier single-pass deduplicator:
 * it lists the directory once, sorts it by size (largest first), marks every
 * file whose bytes occur inside a strictly bigger file, and unlinks the marks.
 * Files of equal size are never compared, so identical copies all survive.
 */
module Containment {
  import opened Text
  import opened Comparator
  import opened Sorting
  import opened Directory

  /** The mark that the pair `(big_file, small_file) = (S[b], S[s])` adds (containment.py:20-27). */
  function Mark(S: seq<Entry>, dir: Dir, b: nat, s: nat): (r: set<string>)
    requires b < |S| && s < |S| && EntriesIn(S, dir)
    ensures r == {} || r == {S[s].name}
  {
    if S[b].size <= S[s].size then {}
    else if IsContained(dir[S[s].name], dir[S[b].name]) then {S[s].name}
    else {}
  }

  /** The marks of the pairs `(S[b], S[s])` with `lo <= s`. */
  function RowMarks(S: seq<Entry>, dir: Dir, b: nat, lo: nat): set<string>
    requires b < |S| && lo <= |S| && EntriesIn(S, dir)
    decreases |S| - lo
  {
    if lo == |S| then {} else Mark(S, dir, b, lo) + RowMarks(S, dir, b, lo + 1)
  }

  /** The marks of the pairs whose `big_file` is one of the first `rows` entries. */
  function MarksBefore(S: seq<Entry>, dir: Dir, rows: nat): set<string>
    requires rows <= |S| && EntriesIn(S, dir)
  {
    if rows == 0 then {} else MarksBefore(S, dir, rows - 1) + RowMarks(S, dir, rows - 1, 0)
  }

  lemma {:induction false} RowMarksIff(S: seq<Entry>, dir: Dir, b: nat, lo: nat, x: string)
    requires b < |S| && lo <= |S| && EntriesIn(S, dir)
    ensures x in RowMarks(S, dir, b, lo) <==> exists s :: lo <= s < |S| && x in Mark(S, dir, b, s)
    decreases |S| - lo
  {
    if lo < |S| {
      RowMarksIff(S, dir, b, lo + 1, x);
    }
  }

  lemma {:induction false} MarksBeforeIff(S: seq<Entry>, dir: Dir, rows: nat, x: string)
    requires rows <= |S| && EntriesIn(S, dir)
    ensures x in MarksBefore(S, dir, rows) <==> exists b, s :: 0 <= b < rows && 0 <= s < |S| && x in Mark(S, dir, b, s)
  {
    if rows > 0 {
      MarksBeforeIff(S, dir, rows - 1, x);
      RowMarksIff(S, dir, rows - 1, 0, x);
      if x in RowMarks(S, dir, rows - 1, 0) {
        var s :| 0 <= s < |S| && x in Mark(S, dir, rows - 1, s);
        assert 0 <= rows - 1 < rows;
      }
    }
  }

  /** The bytes of `x` occur inside a strictly bigger file of `dir`. */
  ghost predicate StrictlyInside(dir: Dir, x: string)
    requires x in dir
  {
    exists y :: y in dir && |dir[x]| < |dir[y]| && Occurs(dir[x], dir[y])
  }

  /**
   * The scan marks exactly the files held inside a strictly bigger file: the
   * result depends neither on the listing order nor on the sort.
   */
  lemma ScanMarksIff(S: seq<Entry>, dir: Dir, x: string)
    requires Lists(S, dir)
    ensures x in MarksBefore(S, dir, |S|) <==> x in dir && StrictlyInside(dir, x)
  {
    if x in dir && StrictlyInside(dir, x) {
      InsideIsMarked(S, dir, x);
    }
    if x in MarksBefore(S, dir, |S|) {
      MarkedIsInside(S, dir, x);
    }
  }

  lemma InsideIsMarked(S: seq<Entry>, dir: Dir, x: string)
    requires Lists(S, dir)
    requires x in dir && StrictlyInside(dir, x)
    ensures x in MarksBefore(S, dir, |S|)
  {
    var y :| y in dir && |dir[x]| < |dir[y]| && Occurs(dir[x], dir[y]);
    var s :| 0 <= s < |S| && S[s].name == x;
    var b :| 0 <= b < |S| && S[b].name == y;
    assert x in Mark(S, dir, b, s);
    MarksBeforeIff(S, dir, |S|, x);
  }

  lemma MarkedIsInside(S: seq<Entry>, dir: Dir, x: string)
    requires Lists(S, dir)
    requires x in MarksBefore(S, dir, |S|)
    ensures x in dir && StrictlyInside(dir, x)
  {
    MarksBeforeIff(S, dir, |S|, x);
    var b, s :| 0 <= b < |S| && 0 <= s < |S| && x in Mark(S, dir, b, s);
    assert Occurs(dir[x], dir[S[b].name]);
  }

  /** The two nested loops of containment.py:18-27. */
  method Scan(filesSorted: seq<Entry>, dir: Dir) returns (toBeDeleted: set<string>)
    requires EntriesIn(filesSorted, dir)
    ensures toBeDeleted == MarksBefore(filesSorted, dir, |filesSorted|)
  {
    toBeDeleted := {};
    var b := 0;
    while b < |filesSorted|
      invariant 0 <= b <= |filesSorted|
      invariant toBeDeleted == MarksBefore(filesSorted, dir, b)
    {
      var s := |filesSorted|;
      while s > 0
        invariant 0 <= s <= |filesSorted|
        invariant toBeDeleted == MarksBefore(filesSorted, dir, b) + RowMarks(filesSorted, dir, b, s)
      {
        s := s - 1;
        var bigFile, smallFile := filesSorted[b], filesSorted[s];
        if bigFile.size <= smallFile.size {
          continue;
        }
        var small, big := dir[smallFile.name], dir[bigFile.name];
        if IsContained(small, big) {
          toBeDeleted := toBeDeleted + {smallFile.name};
        }
      }
      b := b + 1;
    }
  }

  /**
   * `run_containment` (containment.py:8-30). `order` is the order in which the
   * directory is enumerated.
   */
  method RunContainment(dir: Dir, order: seq<string>) returns (result: Dir)
    requires Distinct(order)
    requires forall x :: x in dir ==> x in order
    ensures result.Keys <= dir.Keys
    ensures forall x :: x in result ==> result[x] == dir[x]
    ensures forall x :: x in dir ==> (x in result <==> !StrictlyInside(dir, x))
  {
    var filesWithSizes := Listing(dir, order);
    var filesSorted := SortBy(filesWithSizes, BySizeDescending);
    ListingLists(dir, order);
    ListsPermutation(filesWithSizes, filesSorted, dir);
    var toBeDeleted := Scan(filesSorted, dir);
    forall x | x in toBeDeleted ensures x in dir {
      ScanMarksIff(filesSorted, dir, x);
    }
    result := UnlinkAll(dir, toBeDeleted);
    forall x | x in dir ensures x in result <==> !StrictlyInside(dir, x) {
      ScanMarksIff(filesSorted, dir, x);
    }
  }

  /** The files of `dir` that are strictly bigger than `x`. */
  ghost function Bigger(dir: Dir, x: string): set<string>
    requires x in dir
  {
    set y | y in dir && |dir[x]| < |dir[y]|
  }

  /**
   * No bytes are lost: every file's bytes remain inside a file that is not
   * deleted (a biggest file holding them is never inside a bigger one).
   */
  lemma {:induction false} SurvivorExists(dir: Dir, x: string)
    requires x in dir
    ensures exists y :: y in dir && !StrictlyInside(dir, y) && Occurs(dir[x], dir[y])
    decreases |Bigger(dir, x)|
  {
    if !StrictlyInside(dir, x) {
      OccursReflexive(dir[x]);
    } else {
      var y :| y in dir && |dir[x]| < |dir[y]| && Occurs(dir[x], dir[y]);
      assert |Bigger(dir, y)| < |Bigger(dir, x)| by {
        assert Bigger(dir, y) <= Bigger(dir, x) - {y};
        SubsetCardinality(Bigger(dir, y), Bigger(dir, x) - {y});
      }
      SurvivorExists(dir, y);
      var z :| z in dir && !StrictlyInside(dir, z) && Occurs(dir[y], dir[z]);
      OccursTransitive(dir[x], dir[y], dir[z]);
    }
  }

  /** A file that no other file outgrows is never deleted: the biggest files all survive. */
  lemma LargestSurvives(dir: Dir, x: string)
    requires x in dir && forall y :: y in dir ==> |dir[y]| <= |dir[x]|
    ensures !StrictlyInside(dir, x)
  {
  }

  /** Files with the same bytes share their fate: the single pass never separates copies. */
  lemma CopiesShareFate(dir: Dir, x: string, y: string)
    requires x in dir && y in dir && dir[x] == dir[y]
    ensures StrictlyInside(dir, x) <==> StrictlyInside(dir, y)
  {
  }
}

=== FILE: dedup.dfy ===
/**
 * `run_containment` of utils.py: repeated passes over one directory that delete
 * files whose bytes are equal to, or contained in, the bytes of another file of
 * the same directory, until a pass finds nothing to delete.
 *
 * One pass sorts the listing by size, largest first (stably, so equal sizes stay
 * in listing order), then visits every pair `(big, small)` with `small` strictly
 * after `big` in that order and decides the pair with `PairVerdict`. The losers
 * are collected in a set and unlinked only after the whole scan.
 */
module Dedup {
  import opened Text
  import opened Comparator
  import opened Sorting
  import opened Directory

  /** The outcome of comparing one pair. */
  datatype Verdict = Keep | DropSmall | DropBig

  /**
   * The decision for one pair (utils.py:126-139). Equal bytes: the smaller-side
   * file goes when the bigger-side name is "old", otherwise the bigger-side file
   * goes. Different bytes: the smaller-side file goes when it is contained in the
   * bigger-side file.
   */
  function PairVerdict(bigName: string, big: Bytes, small: Bytes): Verdict {
    if IsEqual(small, big) then (if IsOld(bigName) then DropSmall else DropBig)
    else if IsContained(small, big) then DropSmall
    else Keep
  }

  /** The names that the pair at positions `b < s` of `S` adds to `to_be_deleted`. */
  function Losers(S: seq<Entry>, dir: Dir, b: nat, s: nat): (r: set<string>)
    requires b < s < |S| && EntriesIn(S, dir)
    ensures r <= {S[b].name, S[s].name}
  {
    match PairVerdict(S[b].name, dir[S[b].name], dir[S[s].name])
    case Keep => {}
    case DropSmall => {S[s].name}
    case DropBig => {S[b].name}
  }

  /** The marks from the pairs `(b, s)` with `lo <= s < |S|`. */
  function RowMarks(S: seq<Entry>, dir: Dir, b: nat, lo: nat): set<string>
    requires b < lo <= |S| && EntriesIn(S, dir)
    decreases |S| - lo
  {
    if lo == |S| then {} else Losers(S, dir, b, lo) + RowMarks(S, dir, b, lo + 1)
  }

  /** The marks from the pairs whose bigger side is one of the first `rows` files. */
  function MarksBefore(S: seq<Entry>, dir: Dir, rows: nat): set<string>
    requires rows <= |S| && EntriesIn(S, dir)
  {
    if rows == 0 then {} else MarksBefore(S, dir, rows - 1) + RowMarks(S, dir, rows - 1, rows)
  }

  /** `to_be_deleted` after one full scan of `S`. */
  function PassMarks(S: seq<Entry>, dir: Dir): set<string>
    requires EntriesIn(S, dir)
  {
    MarksBefore(S, dir, |S|)
  }

  lemma {:induction false} RowMarksIff(S: seq<Entry>, dir: Dir, b: nat, lo: nat, x: string)
    requires b < lo <= |S| && EntriesIn(S, dir)
    ensures x in RowMarks(S, dir, b, lo) <==> exists s :: lo <= s < |S| && x in Losers(S, dir, b, s)
    decreases |S| - lo
  {
    if lo < |S| {
      RowMarksIff(S, dir, b, lo + 1, x);
    }
  }

  lemma {:induction false} MarksBeforeIff(S: seq<Entry>, dir: Dir, rows: nat, x: string)
    requires rows <= |S| && EntriesIn(S, dir)
    ensures x in MarksBefore(S, dir, rows) <==> exists b, s :: 0 <= b < rows && b < s < |S| && x in Losers(S, dir, b, s)
  {
    if rows > 0 {
      MarksBeforeIff(S, dir, rows - 1, x);
      RowMarksIff(S, dir, rows - 1, rows, x);
    }
  }

  /** A file is marked in a pass iff some scanned pair names it as the loser. */
  lemma PassMarksIff(S: seq<Entry>, dir: Dir, x: string)
    requires EntriesIn(S, dir)
    ensures x in PassMarks(S, dir) <==> exists b, s :: 0 <= b < s < |S| && x in Losers(S, dir, b, s)
  {
    MarksBeforeIff(S, dir, |S|, x);
  }

  /**
   * Equal bytes with exactly one "old" name: the pair marks the other file and
   * never the "old" one, whichever of the two is on the bigger side of the scan
   * (utils.py:126-135).
   */
  lemma TieBreakKeepsOld(S: seq<Entry>, dir: Dir, b: nat, s: nat)
    requires b < s < |S| && EntriesIn(S, dir)
    requires dir[S[b].name] == dir[S[s].name] && IsOld(S[b].name) != IsOld(S[s].name)
    ensures forall x :: x in Losers(S, dir, b, s) <==> (x == S[b].name || x == S[s].name) && !IsOld(x)
  {
  }

  /** A pair only ever marks a file whose bytes occur in its partner's bytes. */
  lemma LoserIsContained(S: seq<Entry>, dir: Dir, b: nat, s: nat)
    requires b < s < |S| && EntriesIn(S, dir)
    ensures Losers(S, dir, b, s) != {} ==> IsContained(dir[S[s].name], dir[S[b].name])
    ensures S[b].name in Losers(S, dir, b, s) && S[b].name != S[s].name ==> dir[S[b].name] == dir[S[s].name]
  {
    ContainedOfEqualSize(dir[S[s].name], dir[S[b].name]);
  }

  /** No file of `dir` has bytes that occur in another file of `dir`. */
  ghost predicate Antichain(dir: Dir) {
    forall x, y :: x in dir && y in dir && x != y ==> !Occurs(dir[x], dir[y])
  }

  /** Some file of `dir` holds `content` as a contiguous run. */
  ghost predicate Covered(content: Bytes, dir: Dir) {
    exists y :: y in dir && Occurs(content, dir[y])
  }

  /** On a size-sorted listing, a pair whose files hold one another always has a loser. */
  lemma NestedPairLoses(S: seq<Entry>, dir: Dir, b: nat, s: nat)
    requires Lists(S, dir) && SortedBy(S, BySizeDescending)
    requires b < s < |S|
    requires Occurs(dir[S[s].name], dir[S[b].name]) || Occurs(dir[S[b].name], dir[S[s].name])
    ensures Losers(S, dir, b, s) != {}
  {
    var big, small := dir[S[b].name], dir[S[s].name];
    assert BySizeDescending(S[b]) <= BySizeDescending(S[s]);
    if Occurs(big, small) {
      OccursLength(big, small);
    } else {
      OccursLength(small, big);
    }
    ContainedOfEqualSize(small, big);
  }

  /** A pass over a directory whose files hold one another marks something. */
  lemma MarksWhenNested(S: seq<Entry>, dir: Dir, x: string, y: string)
    requires Lists(S, dir)
    requires SortedBy(S, BySizeDescending)
    requires x in dir && y in dir && x != y && Occurs(dir[x], dir[y])
    ensures PassMarks(S, dir) != {}
  {
    var i :| 0 <= i < |S| && S[i].name == x;
    var j :| 0 <= j < |S| && S[j].name == y;
    if i < j {
      NestedPairLoses(S, dir, i, j);
      var z :| z in Losers(S, dir, i, j);
      PassMarksIff(S, dir, z);
    } else {
      NestedPairLoses(S, dir, j, i);
      var z :| z in Losers(S, dir, j, i);
      PassMarksIff(S, dir, z);
    }
  }

  /** A file marked in a pass has its bytes inside another file of the directory. */
  lemma MarkedIsNested(S: seq<Entry>, dir: Dir, z: string)
    requires Lists(S, dir)
    requires z in PassMarks(S, dir)
    ensures !Antichain(dir)
  {
    PassMarksIff(S, dir, z);
    var b, s :| 0 <= b < s < |S| && z in Losers(S, dir, b, s);
    LoserIsContained(S, dir, b, s);
    assert Occurs(dir[S[s].name], dir[S[b].name]);
  }

  /**
   * The fixed point (utils.py:141-142): on a listing sorted by decreasing size, a
   * pass marks nothing exactly when no file's bytes occur inside another file.
   */
  lemma NoMarksIffAntichain(S: seq<Entry>, dir: Dir)
    requires Lists(S, dir)
    requires SortedBy(S, BySizeDescending)
    ensures PassMarks(S, dir) == {} <==> Antichain(dir)
  {
    if PassMarks(S, dir) == {} {
      forall x, y | x in dir && y in dir && x != y ensures !Occurs(dir[x], dir[y]) {
        if Occurs(dir[x], dir[y]) {
          MarksWhenNested(S, dir, x, y);
        }
      }
    } else {
      var z :| z in PassMarks(S, dir);
      MarkedIsNested(S, dir, z);
    }
  }

  ghost function MaxSize(S: seq<Entry>): (m: nat)
    ensures forall i :: 0 <= i < |S| ==> S[i].size <= m
  {
    if S == [] then 0
    else
      var m := MaxSize(S[1..]);
      assert forall i :: 1 <= i < |S| ==> S[i] == S[1..][i - 1];
      if S[0].size > m then S[0].size else m
  }

  /**
   * No content is lost in a pass: the bytes of the file at position `i` occur in
   * some file the pass does not mark. The descent goes to a strictly bigger file
   * (containment), to an "old" copy from a non-"old" one, to an earlier "old"
   * copy, or to a later non-"old" copy, so it ends.
   */
  lemma {:induction false} SurvivorHolds(S: seq<Entry>, dir: Dir, i: nat)
    requires Lists(S, dir) && i < |S|
    ensures exists k :: 0 <= k < |S| && S[k].name !in PassMarks(S, dir) && Occurs(dir[S[i].name], dir[S[k].name])
    decreases MaxSize(S) - S[i].size, (if IsOld(S[i].name) then 0 else 1), (if IsOld(S[i].name) then i else |S| - i)
  {
    var x := S[i].name;
    if x !in PassMarks(S, dir) {
      OccursReflexive(dir[x]);
    } else {
      PassMarksIff(S, dir, x);
      var b, s :| 0 <= b < s < |S| && x in Losers(S, dir, b, s);
      var big, small := dir[S[b].name], dir[S[s].name];
      ContainedOfEqualSize(small, big);
      var j: nat;
      if s == i {
        j := b;
        assert Occurs(dir[x], dir[S[j].name]);
        if IsEqual(small, big) {
          assert IsOld(S[j].name);
        } else {
          OccursLength(small, big);
          assert S[j].size > S[i].size;
        }
      } else {
        assert b == i;
        j := s;
        assert IsEqual(small, big) && !IsOld(x);
        OccursReflexive(dir[x]);
      }
      SurvivorHolds(S, dir, j);
      var k :| 0 <= k < |S| && S[k].name !in PassMarks(S, dir) && Occurs(dir[S[j].name], dir[S[k].name]);
      OccursTransitive(dir[x], dir[S[j].name], dir[S[k].name]);
    }
  }

  /** A pass only marks files of the directory. */
  lemma PassMarksInDir(S: seq<Entry>, dir: Dir)
    requires EntriesIn(S, dir)
    ensures PassMarks(S, dir) <= dir.Keys
  {
    forall x | x in PassMarks(S, dir) ensures x in dir {
      PassMarksIff(S, dir, x);
    }
  }

  /** Every file's bytes survive a pass, in itself or in a file that contains them. */
  lemma PassPreservesContent(S: seq<Entry>, dir: Dir, marks: set<string>)
    requires Lists(S, dir)
    requires marks == PassMarks(S, dir)
    ensures forall x {:trigger Covered(dir[x], dir - marks)} :: x in dir ==> Covered(dir[x], dir - marks)
  {
    forall x | x in dir ensures Covered(dir[x], dir - marks) {
      var i :| 0 <= i < |S| && S[i].name == x;
      SurvivorHolds(S, dir, i);
      var k :| 0 <= k < |S| && S[k].name !in marks && Occurs(dir[x], dir[S[k].name]);
      assert S[k].name in dir - marks;
    }
  }

  /**
   * The scan of one pass (utils.py:117-139): `big` walks the sorted listing
   * forwards, `small` walks it backwards until it reaches `big`.
   */
  method ScanPass(filesSorted: seq<Entry>, dir: Dir) returns (toBeDeleted: set<string>)
    requires EntriesIn(filesSorted, dir)
    ensures toBeDeleted == PassMarks(filesSorted, dir)
  {
    toBeDeleted := {};
    var b := 0;
    while b < |filesSorted|
      invariant 0 <= b <= |filesSorted|
      invariant toBeDeleted == MarksBefore(filesSorted, dir, b)
    {
      toBeDeleted := ScanRow(filesSorted, dir, b, toBeDeleted);
      assert MarksBefore(filesSorted, dir, b + 1) == MarksBefore(filesSorted, dir, b) + RowMarks(filesSorted, dir, b, b + 1);
      b := b + 1;
    }
  }

  /**
   * The inner loop of utils.py:120-139 for the file at `b`: `small` walks
   * backwards from the last file down to `b`, and every loser of a pair is
   * added to `toBeDeleted`.
   */
  method ScanRow(filesSorted: seq<Entry>, dir: Dir, b: nat, marks: set<string>) returns (toBeDeleted: set<string>)
    requires b < |filesSorted| && EntriesIn(filesSorted, dir)
    ensures toBeDeleted == marks + RowMarks(filesSorted, dir, b, b + 1)
  {
    toBeDeleted := marks;
    var s := |filesSorted|;
    while s > 0
      invariant b < s <= |filesSorted|
      invariant toBeDeleted == marks + RowMarks(filesSorted, dir, b, s)
    {
      s := s - 1;
      if s == b {
        break;
      }
      var bigName, smallName := filesSorted[b].name, filesSorted[s].name;
      var small, big := dir[smallName], dir[bigName];
      if IsEqual(small, big) {
        if IsOld(bigName) {
          toBeDeleted := toBeDeleted + {smallName};
        } else {
          toBeDeleted := toBeDeleted + {bigName};
        }
      } else if IsContained(small, big) {
        toBeDeleted := toBeDeleted + {smallName};
      }
    }
  }

  /** `result` is what remains of `dir`: a subset of its files, unchanged, holding all of its bytes. */
  ghost predicate Retains(dir: Dir, result: Dir) {
    && result.Keys <= dir.Keys
    && (forall x :: x in result ==> result[x] == dir[x])
    && (forall x {:trigger Covered(dir[x], result)} :: x in dir ==> Covered(dir[x], result))
  }

  lemma RetainsReflexive(dir: Dir)
    ensures Retains(dir, dir)
  {
    forall x | x in dir ensures Covered(dir[x], dir) {
      OccursReflexive(dir[x]);
    }
  }

  /**
   * What one pass of `run_containment` establishes about content: deleting its
   * marks loses no bytes and, when it marks something, removes at least one file.
   */
  lemma PassRetains(dir: Dir, cur: Dir, filesSorted: seq<Entry>, marks: set<string>)
    requires Retains(dir, cur)
    requires Lists(filesSorted, cur)
    requires marks == PassMarks(filesSorted, cur)
    ensures marks <= cur.Keys
    ensures Retains(dir, cur - marks)
    ensures marks != {} ==> |(cur - marks).Keys| < |cur.Keys|
  {
    PassMarksInDir(filesSorted, cur);
    PassPreservesContent(filesSorted, cur, marks);
    RetainsStep(dir, cur, cur - marks);
    if marks != {} {
      DeleteShrinks(cur, marks);
    }
  }

  lemma SortedListing(cur: Dir, order: seq<string>, filesSorted: seq<Entry>)
    requires Distinct(order)
    requires forall x :: x in cur ==> x in order
    requires filesSorted == SortBy(Listing(cur, order), BySizeDescending)
    ensures Lists(filesSorted, cur) && SortedBy(filesSorted, BySizeDescending)
  {
    ListingLists(cur, order);
    ListsPermutation(Listing(cur, order), filesSorted, cur);
    SortBySorted(Listing(cur, order), BySizeDescending);
  }

  /** Deleting files whose bytes survive elsewhere keeps `Retains`. */
  lemma RetainsStep(dir: Dir, cur: Dir, next: Dir)
    requires Retains(dir, cur)
    requires next.Keys <= cur.Keys
    requires forall x :: x in next ==> next[x] == cur[x]
    requires forall x {:trigger Covered(cur[x], next)} :: x in cur ==> Covered(cur[x], next)
    ensures Retains(dir, next)
  {
    AllCovered(dir, cur, next);
  }

  lemma AllCovered(dir: Dir, cur: Dir, next: Dir)
    requires forall x {:trigger Covered(dir[x], cur)} :: x in dir ==> Covered(dir[x], cur)
    requires forall x {:trigger Covered(cur[x], next)} :: x in cur ==> Covered(cur[x], next)
    ensures forall x {:trigger Covered(dir[x], next)} :: x in dir ==> Covered(dir[x], next)
  {
    forall x | x in dir ensures Covered(dir[x], next) {
      CoveredTransitive(dir[x], cur, next);
    }
  }

  lemma CoveredTransitive(content: Bytes, cur: Dir, next: Dir)
    requires Covered(content, cur)
    requires forall x {:trigger Covered(cur[x], next)} :: x in cur ==> Covered(cur[x], next)
    ensures Covered(content, next)
  {
    var y :| y in cur && Occurs(content, cur[y]);
    assert Covered(cur[y], next);
    var z :| z in next && Occurs(cur[y], next[z]);
    OccursTransitive(content, cur[y], next[z]);
  }

  /** Deleting a non-empty set of present files shrinks the directory. */
  lemma DeleteShrinks(cur: Dir, marks: set<string>)
    requires marks <= cur.Keys && marks != {}
    ensures |(cur - marks).Keys| < |cur.Keys|
  {
    var g :| g in marks;
    assert (cur - marks).Keys <= cur.Keys - {g};
    assert |(cur - marks).Keys| <= |cur.Keys - {g}|;
  }

  /**
   * `run_containment` (utils.py:106-145). `order` is the order in which the
   * directory is enumerated; later passes see the same order without the files
   * already deleted. `passes` counts the passes that deleted something.
   */
  method RunContainment(dir: Dir, order: seq<string>) returns (result: Dir, passes: nat)
    requires Distinct(order)
    requires forall x :: x in dir ==> x in order
    ensures result.Keys <= dir.Keys
    ensures forall x :: x in result ==> result[x] == dir[x]
    ensures Antichain(result)
    ensures forall x {:trigger Covered(dir[x], result)} :: x in dir ==> Covered(dir[x], result)
    ensures passes + |result.Keys| <= |dir.Keys|
  {
    result := dir;
    passes := 0;
    RetainsReflexive(dir);
    var keepContaining := true;
    while keepContaining
      invariant Retains(dir, result)
      invariant passes + |result.Keys| <= |dir.Keys|
      invariant !keepContaining ==> Antichain(result)
      decreases |result.Keys| + (if keepContaining then 1 else 0)
    {
      var filesWithSizes := Listing(result, order);
      var filesSorted := SortBy(filesWithSizes, BySizeDescending);
      SortedListing(result, order, filesSorted);
      var toBeDeleted := ScanPass(filesSorted, result);
      NoMarksIffAntichain(filesSorted, result);
      PassRetains(dir, result, filesSorted, toBeDeleted);
      if toBeDeleted == {} {
        keepContaining := false;
      } else {
        result := UnlinkAll(result, toBeDeleted);
        passes := passes + 1;
      }
    }
  }
}

=== FILE: directory.dfy ===
/**
 * A directory of regular files as the deduplication code sees it: file names
 * mapped to their bytes, a listing in the order `Path.glob("*")` yields it, and
 * the removal of files with `Path.unlink()`.
 */
module Directory {
  import opened Comparator
  import opened Sorting

  /** The regular files of one directory: name to content. */
  type Dir = map<string, Bytes>

  /** One element of `files_with_sizes`: a path and its `st_size`. */
  datatype Entry = Entry(name: string, size: nat)

  /** The key of `sorted(..., key=lambda x: x[1], reverse=True)`, as an ascending key. */
  function BySizeDescending(e: Entry): int { -(e.size as int) }

  ghost predicate EntriesIn(S: seq<Entry>, dir: Dir) {
    forall i :: 0 <= i < |S| ==> S[i].name in dir
  }

  ghost predicate Distinct<T>(s: seq<T>) {
    forall i, j :: 0 <= i < j < |s| ==> s[i] != s[j]
  }

  /** `S` lists every file of `dir` exactly once, each with its true size. */
  ghost predicate Lists(S: seq<Entry>, dir: Dir) {
    (forall i :: 0 <= i < |S| ==> S[i].name in dir && S[i].size == |dir[S[i].name]|)
    && (forall i, j :: 0 <= i < j < |S| ==> S[i].name != S[j].name)
    && (forall x :: x in dir ==> exists i :: 0 <= i < |S| && S[i].name == x)
  }

  /**
   * `[(p, p.stat().st_size) for p in dir_path.glob("*") if p.is_file()]`, where
   * `order` is the order in which the directory is enumerated; names that are not
   * regular files of `dir` are skipped.
   */
  function Listing(dir: Dir, order: seq<string>): (r: seq<Entry>)
    ensures forall i :: 0 <= i < |r| ==> r[i].name in dir && r[i].size == |dir[r[i].name]|
  {
    if order == [] then []
    else (if order[0] in dir then [Entry(order[0], |dir[order[0]]|)] else []) + Listing(dir, order[1..])
  }

  lemma {:induction false} ListingCovers(dir: Dir, order: seq<string>, x: string)
    requires x in dir && x in order
    ensures exists i :: 0 <= i < |Listing(dir, order)| && Listing(dir, order)[i].name == x
  {
    var head := if order[0] in dir then [Entry(order[0], |dir[order[0]]|)] else [];
    var rest := Listing(dir, order[1..]);
    assert Listing(dir, order) == head + rest;
    if x == order[0] {
      assert Listing(dir, order)[0].name == x;
    } else {
      var k :| 0 <= k < |order| && order[k] == x;
      assert order[1..][k - 1] == x;
      ListingCovers(dir, order[1..], x);
      var i :| 0 <= i < |rest| && rest[i].name == x;
      assert Listing(dir, order)[|head| + i].name == x;
    }
  }

  lemma {:induction false} ListingNames(dir: Dir, order: seq<string>, i: int)
    requires 0 <= i < |Listing(dir, order)|
    ensures Listing(dir, order)[i].name in order
  {
    var head := if order[0] in dir then [Entry(order[0], |dir[order[0]]|)] else [];
    var rest := Listing(dir, order[1..]);
    assert Listing(dir, order) == head + rest;
    if i >= |head| {
      ListingNames(dir, order[1..], i - |head|);
    }
  }

  lemma {:induction false} ListingDistinct(dir: Dir, order: seq<string>)
    requires Distinct(order)
    ensures forall i, j :: 0 <= i < j < |Listing(dir, order)| ==> Listing(dir, order)[i].name != Listing(dir, order)[j].name
  {
    if order != [] {
      var head := if order[0] in dir then [Entry(order[0], |dir[order[0]]|)] else [];
      var rest := Listing(dir, order[1..]);
      var r := Listing(dir, order);
      assert r == head + rest;
      assert Distinct(order[1..]);
      ListingDistinct(dir, order[1..]);
      forall i, j | 0 <= i < j < |r| ensures r[i].name != r[j].name {
        if i < |head| {
          ListingNames(dir, order[1..], j - |head|);
          var k :| 0 <= k < |order[1..]| && order[1..][k] == r[j].name;
          assert order[k + 1] == r[j].name;
        } else {
          assert r[i] == rest[i - |head|] && r[j] == rest[j - |head|];
        }
      }
    }
  }

  lemma ListingLists(dir: Dir, order: seq<string>)
    requires Distinct(order)
    requires forall x :: x in dir ==> x in order
    ensures Lists(Listing(dir, order), dir)
  {
    ListingDistinct(dir, order);
    forall x | x in dir ensures exists i :: 0 <= i < |Listing(dir, order)| && Listing(dir, order)[i].name == x {
      ListingCovers(dir, order, x);
    }
  }

  /** Reordering a listing (sorting it) keeps it a listing of the same directory. */
  lemma ListsPermutation(S: seq<Entry>, T: seq<Entry>, dir: Dir)
    requires Lists(S, dir)
    requires multiset(S) == multiset(T)
    ensures Lists(T, dir)
  {
    forall i | 0 <= i < |T| ensures T[i].name in dir && T[i].size == |dir[T[i].name]| {
      assert T[i] in multiset(S);
    }
    forall x | x in dir ensures exists i :: 0 <= i < |T| && T[i].name == x {
      var k :| 0 <= k < |S| && S[k].name == x;
      assert S[k] in multiset(T);
    }
    forall i, j | 0 <= i < j < |T| ensures T[i].name != T[j].name {
      if T[i].name == T[j].name {
        assert T[i] == T[j] by {
          assert T[i] in multiset(S) && T[j] in multiset(S);
        }
        TwiceCount(T, i, j);
        DistinctCount(S, T[i]);
      }
    }
  }

  /**
   * `for file_path in to_be_deleted: file_path.unlink()`: every marked file is
   * removed once and every other file is left as it was.
   */
  method UnlinkAll(dir: Dir, toBeDeleted: set<string>) returns (result: Dir)
    requires toBeDeleted <= dir.Keys
    ensures result == dir - toBeDeleted
  {
    result := dir;
    var pending := toBeDeleted;
    while pending != {}
      invariant pending <= toBeDeleted
      invariant result == dir - (toBeDeleted - pending)
      decreases pending
    {
      var filePath :| filePath in pending;
      result := result - {filePath};
      pending := pending - {filePath};
    }
  }
}

=== FILE: legacy.dfy ===
/**
 * The older reader of find_history_files.py: a whole history file, read with
 * `readlines`, gives one record. Its header is the third line, its start
 * clock falls back to the sixth line, and its last line either is a trailer
 * (with the duration copied from it) or marks the session as still
 * `Registering`.
 */
module Legacy {
  import opened Wrappers
  import opened Text
  import opened Locator
  import opened Patterns
  import opened ManagePatterns
  import opened Session

  // ---------------------------------------------------------------------------
  // date_start_pattern and start_pattern

  /**
   * `date_start_pattern.search(s)` (find_history_files.py:15-19): a date at
   * 0, and the clock that follows whitespace after it when there is one;
   * whatever comes next is accepted.
   */
  function DateStart(s: string): (r: Option<Header>)
    ensures r.Some? <==> DateAt(s, 0)
    ensures r.Some? ==> r.value.date == s[..10] && IsDate(r.value.date)
    ensures r.Some? && r.value.start.Some? ==> |r.value.start.value| == 8 && IsClock(r.value.start.value)
  {
    if DateAt(s, 0) then
      DateCaptured(s);
      var start := TimeAfterDate(s);
      if start.Some? then
        var p := 10 + SpaceRun(s[10..]);
        ClockCaptured(s, p);
        Some(Header(s[..10], start))
      else Some(Header(s[..10], None))
    else None
  }

  /** `start_pattern.search(s)` (find_history_files.py:21-24): a two-digit-hour clock at 0. */
  function LegacyStart(s: string): (r: Option<string>)
    ensures r.Some? <==> TimeAt(s, 0)
    ensures r.Some? ==> r.value == s[..8] && IsClock(r.value)
  {
    if TimeAt(s, 0) then
      ClockCaptured(s, 0);
      Some(s[..8])
    else None
  }

  // ---------------------------------------------------------------------------
  // end_duration_pattern

  /** The groups `end` and `duration` of the older `end_duration_pattern`. */
  datatype LegacyEnding = LegacyEnding(end: string, duration: Option<string>)

  /**
   * `\safter\s*(?P<duration>\d{1,2}:\d{2}:\d{2}(?:\.\d+)?.*$|\d{2}\.\d{3}.*$)`
   * at `e`: the group runs from the first digit after the spaces to the end
   * of the line, once a clock or `SS.mmm` starts there.
   */
  function LegacyDuration(s: string, e: nat): Option<string> {
    if e + 6 <= |s| && IsSpace(s[e]) && WordAtIgnoringCase(s, e + 1, "after") then
      var d := e + 6 + SpaceRun(s[e + 6..]);
      if HTimeLen(s, d) > 0 || SecondsAt(s, d) then Some(s[d..]) else None
    else None
  }

  /** The phrase followed by the optional `after` group and the end of the line. */
  predicate LegacyTrailerAt(s: string, q: nat) {
    PhraseAt(s, q) && (LegacyDuration(s, q + 29).Some? || q + 29 == |s|)
  }

  /** The positions that hold a complete older trailer. */
  function LegacyTrailers(s: string): nat -> bool {
    (q: nat) => LegacyTrailerAt(s, q)
  }

  /** The match with the end clock at `t`, the lazy `.*?` taking the leftmost phrase that completes it. */
  function LegacyEndFrom(s: string, t: nat): (r: Option<LegacyEnding>)
    ensures r.Some? ==> HTimeLen(s, t) > 0 && r.value.end == s[t..t + HTimeLen(s, t)]
  {
    var n := HTimeLen(s, t);
    if n == 0 then None
    else
      match FirstFrom(t + n, |s| + 1, LegacyTrailers(s))
      case None => None
      case Some(q) => Some(LegacyEnding(s[t..t + n], LegacyDuration(s, q + 29)))
  }

  /** When the phrase and its tail sit at `q` and none before it, the match takes its group there. */
  lemma LegacyEndFromAt(s: string, t: nat, q: nat)
    requires HTimeLen(s, t) > 0 && t + HTimeLen(s, t) <= q && LegacyTrailerAt(s, q)
    requires forall q' :: t + HTimeLen(s, t) <= q' < q ==> !LegacyTrailerAt(s, q')
    ensures LegacyEndFrom(s, t) == Some(LegacyEnding(s[t..t + HTimeLen(s, t)], LegacyDuration(s, q + 29)))
  {
    var n := HTimeLen(s, t);
    var trailer := LegacyTrailers(s);
    assert trailer(q) && q < |s| + 1;
    assert forall k: nat :: t + n <= k < q ==> !trailer(k);
    FirstFromIs(t + n, |s| + 1, trailer, q);
    LegacyEndFromFirst(s, t, q);
  }

  lemma LegacyEndFromFirst(s: string, t: nat, q: nat)
    requires HTimeLen(s, t) > 0 && FirstFrom(t + HTimeLen(s, t), |s| + 1, LegacyTrailers(s)) == Some(q)
    ensures LegacyEndFrom(s, t) == Some(LegacyEnding(s[t..t + HTimeLen(s, t)], LegacyDuration(s, q + 29)))
  {
  }

  /**
   * `end_duration_pattern.search(s)` (find_history_files.py:26-33), ignoring
   * case: a date and whitespace may come before the end clock.
   */
  function LegacyEndDuration(s: string): Option<LegacyEnding> {
    var dated := if DateAt(s, 0) && StartPos(s) > 10 then LegacyEndFrom(s, StartPos(s)) else None;
    if dated.Some? then dated else LegacyEndFrom(s, 0)
  }

  /** The end group is a clock. */
  lemma LegacyEndDurationCaptures(s: string)
    requires LegacyEndDuration(s).Some?
    ensures IsClock(LegacyEndDuration(s).value.end)
  {
    if DateAt(s, 0) && StartPos(s) > 10 && LegacyEndFrom(s, StartPos(s)).Some? {
      ClockCaptured(s, StartPos(s));
    } else {
      ClockCaptured(s, 0);
    }
  }

  // ---------------------------------------------------------------------------
  // extract_data

  /** The marker the older reader reports for a session that has no trailer yet. */
  const Registering := "Registering"

  /** The start clock: the header's, else that of the sixth line when there is one. */
  function LegacyStartOf(sixth: Option<string>, h: Header): (r: Option<string>)
    requires h.start.Some? ==> |h.start.value| == 8 && IsClock(h.start.value)
    ensures r.Some? ==> |r.value| == 8 && IsClock(r.value)
    ensures h.start.Some? ==> r == h.start
    ensures h.start.None? ==> (r.Some? <==> sixth.Some? && TimeAt(RStrip(sixth.value), 0))
    ensures h.start.None? && r.Some? ==> r.value == RStrip(sixth.value)[..8]
  {
    if h.start.Some? then h.start
    else if sixth.Some? then LegacyStart(RStrip(sixth.value))
    else None
  }

  /** The record built from the third line, the sixth line if any, and the last line. */
  function LegacyRecord(third: string, sixth: Option<string>, last: string): (r: Extracted)
    ensures r != NoTuple
    ensures r == Nothing <==> !DateAt(RStrip(third), 0)
  {
    match DateStart(RStrip(third))
    case None => Nothing
    case Some(h) =>
      var start := LegacyStartOf(sixth, h);
      match LegacyEndDuration(RStrip(last))
      case None => Extracted(Some(h.date), start, Some(Registering), Some(Registering))
      case Some(m) =>
        var duration := if m.duration.Some? then Some(Replace(m.duration.value, "hours", "h")) else None;
        Extracted(Some(h.date), start, Some(m.end), duration)
  }

  /**
   * `extract_data(file_path)` on the lines the file holds
   * (find_history_files.py:46-90); `None` stands for a file that cannot be
   * opened, whose exception is caught.
   */
  function ExtractLegacy(contents: Option<seq<string>>): Extracted {
    match contents
    case None => Nothing
    case Some(lines) =>
      if |lines| < 3 then Nothing
      else LegacyRecord(lines[2], if |lines| >= 6 then Some(lines[5]) else None, lines[|lines| - 1])
  }

  /**
   * The result is always a 4-tuple, and it is all `None` exactly when the
   * file is unreadable, has fewer than three lines, or its third line does
   * not start with a date.
   */
  lemma ExtractLegacyNothing(contents: Option<seq<string>>)
    ensures ExtractLegacy(contents) != NoTuple
    ensures ExtractLegacy(contents) == Nothing <==> contents.None? || |contents.value| < 3 || !DateAt(RStrip(contents.value[2]), 0)
  {
  }

  /**
   * Only the third, the sixth and the last line decide the record: the
   * backward scan for a later date (find_history_files.py:62-69) only prints.
   */
  lemma OnlyThreeLinesMatter(a: seq<string>, b: seq<string>)
    requires |a| >= 3 && |b| >= 3 && a[2] == b[2] && a[|a| - 1] == b[|b| - 1]
    requires (|a| >= 6 <==> |b| >= 6) && (|a| >= 6 ==> a[5] == b[5])
    ensures ExtractLegacy(Some(a)) == ExtractLegacy(Some(b))
  {
  }

  /** `Registering` is not a clock, so it tells a missing trailer apart from an end time. */
  lemma RegisteringIsNoClock()
    ensures !IsClock(Registering)
  {
    assert !IsDigit(Registering[0]);
  }

  /**
   * Once the third line is a header, the end is `Registering` exactly when the
   * last line is no trailer; otherwise it is the trailer's clock.
   */
  lemma LegacyEnd(third: string, sixth: Option<string>, last: string)
    requires DateAt(RStrip(third), 0)
    ensures var r, m := LegacyRecord(third, sixth, last), LegacyEndDuration(RStrip(last));
      r.Extracted? && r.date == Some(RStrip(third)[..10])
      && (r.end == Some(Registering) <==> m.None?)
      && (m.Some? ==> r.end == Some(m.value.end) && IsClock(r.end.value))
      && (m.None? ==> r.duration == Some(Registering))
  {
    RegisteringIsNoClock();
    if LegacyEndDuration(RStrip(last)).Some? {
      LegacyEndDurationCaptures(RStrip(last));
    }
  }

  /** The duration is copied from the trailer, with `hours` shortened to `h`, and absent when the trailer states none. */
  lemma LegacyDurationCopied(third: string, sixth: Option<string>, last: string)
    requires DateAt(RStrip(third), 0) && LegacyEndDuration(RStrip(last)).Some?
    ensures var r, m := LegacyRecord(third, sixth, last), LegacyEndDuration(RStrip(last)).value;
      (r.duration.Some? <==> m.duration.Some?)
      && (m.duration.Some? ==> r.duration == Some(Replace(m.duration.value, "hours", "h")))
      && (m.duration.Some? && !Occurs("hours", m.duration.value) ==> r.duration == m.duration)
  {
  }

  /**
   * The start clock is the header's when it has one; otherwise that of the
   * sixth line, and none when the file is shorter or that line has no clock.
   */
  lemma LegacyStartSource(third: string, sixth: Option<string>, last: string)
    requires DateAt(RStrip(third), 0)
    ensures var r, h := LegacyRecord(third, sixth, last), DateStart(RStrip(third)).value;
      (h.start.Some? ==> r.start == h.start)
      && (h.start.None? && sixth.Some? && TimeAt(RStrip(sixth.value), 0) ==> r.start == Some(RStrip(sixth.value)[..8]))
      && (h.start.None? && (sixth.None? || !TimeAt(RStrip(sixth.value), 0)) ==> r.start.None?)
  {
  }

  // ---------------------------------------------------------------------------
  // Examples

  /** `replace` moves past a first character that cannot start the pattern. */
  lemma ReplaceStep(s: string, pat: string, rep: string)
    requires |pat| > 0 && s != [] && s[0] != pat[0]
    ensures Replace(s, pat, rep) == [s[0]] + Replace(s[1..], pat, rep)
  {
    if |s| >= |pat| {
      assert s[..|pat|] != pat by {
        assert s[..|pat|][0] == s[0];
      }
    }
  }

  /** `replace` leaves a prefix alone that holds no first character of the pattern. */
  lemma {:induction false} ReplaceSkips(p: string, s: string, pat: string, rep: string)
    requires |pat| > 0 && forall k :: 0 <= k < |p| ==> p[k] != pat[0]
    ensures Replace(p + s, pat, rep) == p + Replace(s, pat, rep)
  {
    if p != [] {
      var q, t := p[1..], Replace(s, pat, rep);
      ReplaceSkips(q, s, pat, rep);
      assert (p + s)[0] == p[0] && (p + s)[1..] == q + s;
      ReplaceStep(p + s, pat, rep);
      HeadTail(p, t);
    } else {
      assert p + s == s;
    }
  }

  /** A duration written `H:MM:SS hours` is reported as `H:MM:SS h`. */
  lemma HoursShortened(clock: string)
    requires IsClock(clock)
    ensures Replace(clock + " hours", "hours", "h") == clock + " h"
  {
    var p := clock + " ";
    assert forall k :: 0 <= k < |p| ==> p[k] != 'h' by {
      assert forall k :: 0 <= k < |clock| ==> IsDigit(clock[k]) || clock[k] == ':';
    }
    ReplaceSkips(p, "hours", "hours", "h");
    assert "hours"[..5] == "hours" && "hours"[5..] == [];
    assert clock + " hours" == p + "hours";
  }
}

=== FILE: lines.dfy ===
/**
 * Python's `str.splitlines()` and the buffers the session splitter of
 * manage_history_files.py builds by appending `line + "\n"`.
 */
module Lines {
  /** The line boundaries of `str.splitlines`: `\r\n` counts as one. */
  predicate IsLineBreak(c: char) {
    c == '\n' || c == '\r' || c == '\U{000B}' || c == '\U{000C}' || ('\U{001C}' <= c <= '\U{001E}')
    || c == '\U{0085}' || c == '\U{2028}' || c == '\U{2029}'
  }

  predicate BreakFree(s: string) {
    forall k :: 0 <= k < |s| ==> !IsLineBreak(s[k])
  }

  /** The first line boundary at or after `lo`, or `|s|`. */
  function NextBreak(s: string, lo: nat): (r: nat)
    requires lo <= |s|
    ensures lo <= r <= |s|
    ensures forall k :: lo <= k < r ==> !IsLineBreak(s[k])
    ensures r < |s| ==> IsLineBreak(s[r])
    decreases |s| - lo
  {
    if lo == |s| || IsLineBreak(s[lo]) then lo else NextBreak(s, lo + 1)
  }

  /**
   * `s.splitlines()`: the lines without their boundaries; a boundary at the
   * very end does not open another, empty, line.
   */
  function SplitLines(s: string): (r: seq<string>)
    ensures forall i :: 0 <= i < |r| ==> BreakFree(r[i])
    ensures r == [] <==> s == []
    decreases |s|
  {
    if s == [] then []
    else
      var i := NextBreak(s, 0);
      if i == |s| then [s]
      else
        var j := if s[i] == '\r' && i + 1 < |s| && s[i + 1] == '\n' then i + 2 else i + 1;
        [s[..i]] + SplitLines(s[j..])
  }

  /** Every line followed by `"\n"`, concatenated: what `buffer += line + "\n"` builds. */
  function JoinLines(lines: seq<string>): (r: string)
    ensures |r| >= |lines|
  {
    if lines == [] then [] else lines[0] + "\n" + JoinLines(lines[1..])
  }

  /** Appending a line to the buffer appends it to the lines. */
  lemma {:induction false} JoinLinesSnoc(lines: seq<string>, line: string)
    ensures JoinLines(lines + [line]) == JoinLines(lines) + line + "\n"
  {
    if lines != [] {
      assert (lines + [line])[1..] == lines[1..] + [line];
      JoinLinesSnoc(lines[1..], line);
    }
  }

  lemma FirstBreak(s: string, line: string, rest: string)
    requires s == line + "\n" + rest && BreakFree(line)
    ensures NextBreak(s, 0) == |line| && s[|line|] == '\n' && s[..|line|] == line && s[|line| + 1..] == rest
  {
    assert s[|line|] == '\n';
    assert forall k :: 0 <= k < |line| ==> s[k] == line[k];
  }

  /** A buffer that starts with a line and `"\n"` splits into that line and the rest. */
  lemma FirstLine(s: string, line: string, rest: string)
    requires s == line + "\n" + rest && BreakFree(line)
    ensures SplitLines(s) == [line] + SplitLines(rest)
  {
    FirstBreak(s, line, rest);
  }

  /**
   * Splitting a buffer built from lines without boundaries gives those lines
   * back: the buffer of a block and the `lines` that `extract_data` sees agree.
   */
  lemma {:induction false} SplitJoinLines(lines: seq<string>)
    requires forall i :: 0 <= i < |lines| ==> BreakFree(lines[i])
    ensures SplitLines(JoinLines(lines)) == lines
  {
    if lines != [] {
      FirstLine(JoinLines(lines), lines[0], JoinLines(lines[1..]));
      SplitJoinLines(lines[1..]);
      assert lines == [lines[0]] + lines[1..];
    }
  }

  /** A vertical tab inside a line splits it: the buffer then has more lines than were appended. */
  lemma VerticalTabSplits()
    ensures SplitLines(JoinLines(["a\U{000B}b"])) == ["a", "b"]
  {
    var s := JoinLines(["a\U{000B}b"]);
    assert s == "a\U{000B}b\n";
    assert NextBreak(s, 0) == 1;
    assert s[..1] == "a" && s[1] != '\r';
    assert SplitLines(s) == ["a"] + SplitLines(s[2..]);
    var t := s[2..];
    assert t == "b\n";
    assert NextBreak(t, 1) == 1;
    assert NextBreak(t, 0) == 1;
    assert t[..1] == "b" && t[1] != '\r';
    assert SplitLines(t) == ["b"] + SplitLines(t[2..]);
    assert t[2..] == [];
  }
}

=== FILE: locator.dfy ===
/**
 * The history-file locators: `find_history_files` of utils.py, which also
 * accepts numbered rotations and timestamped snapshots, and the plainer
 * `find_history_files` of manage_history_files.py and find_history_files.py.
 *
 * `os.walk` is given as the sequence of `(root, files)` pairs it yields, in
 * the order it yields them; the sub-directory lists play no further part.
 */
module Locator {
  import opened Text

  /** One `(root, dirs, files)` triple of `os.walk`, without `dirs`. */
  datatype WalkStep = WalkStep(root: string, files: seq<string>)

  /** `os.path.join(root, name)` on POSIX, for a bare file name. */
  function Join(root: string, name: string): (p: string)
    ensures EndsWith(p, name)
  {
    var p := if root == [] || root[|root| - 1] == '/' then root + name else root + "/" + name;
    assert p[|p| - |name|..] == name;
    p
  }

  /** `f"{stem}.{n}"`. */
  function Numbered(stem: string, n: nat): string {
    stem + "." + NatToString(n)
  }

  /** The names of `target_names` (utils.py:27-31). */
  predicate IsTargetName(f: string) {
    f == "history" || f == "history.old"
    || exists n :: 1 <= n <= 10 && (f == Numbered("history", n) || f == Numbered("history.old", n))
  }

  /** `lit` is spelled out at position `i` of `s`. */
  predicate LiteralAt(s: string, i: nat, lit: string) {
    i + |lit| <= |s| && forall k :: 0 <= k < |lit| ==> s[i + k] == lit[k]
  }

  /** `n` ASCII digits at position `i` of `s`. */
  predicate DigitsAt(s: string, i: nat, n: nat) {
    i + n <= |s| && forall k :: i <= k < i + n ==> IsDigit(s[k])
  }

  /** `ts_pattern.fullmatch(f)` for `^history~\d{8}-\d{6}(?:\.old)?$` (utils.py:41). */
  predicate IsSnapshotName(f: string) {
    && (|f| == 23 || (|f| == 27 && LiteralAt(f, 23, ".old")))
    && LiteralAt(f, 0, "history~") && DigitsAt(f, 8, 8) && f[16] == '-' && DigitsAt(f, 17, 6)
  }

  /** The name filter of utils.py:47. */
  predicate IsHistoryName(f: string) {
    IsTargetName(f) || IsSnapshotName(f)
  }

  /** The name filter of manage_history_files.py:49 and find_history_files.py:41. */
  predicate IsPlainHistoryName(f: string) {
    f == "history" || f == "history.old"
  }

  /** The shape of a snapshot name, written as the concatenation it is. */
  ghost predicate SnapshotShape(f: string) {
    exists day: string, time: string ::
      |day| == 8 && |time| == 6 && AllDigits(day) && AllDigits(time)
      && (f == "history~" + day + "-" + time || f == "history~" + day + "-" + time + ".old")
  }

  lemma SnapshotSound(f: string)
    requires IsSnapshotName(f)
    ensures SnapshotShape(f)
  {
    var day, time := f[8..16], f[17..23];
    var bare := "history~" + day + "-" + time;
    assert f[..23] == bare by {
      forall k | 0 <= k < 23 ensures f[k] == bare[k] {
        if k < 8 {
          assert f[0 + k] == "history~"[k];
        }
      }
    }
    if |f| == 23 {
      assert f == f[..23];
    } else {
      assert f[23..] == ".old" by {
        forall k | 0 <= k < 4 ensures f[23..][k] == ".old"[k] {
          assert f[23 + k] == ".old"[k];
        }
      }
      assert f == f[..23] + f[23..];
    }
    assert AllDigits(day) && AllDigits(time);
    assert f == bare || f == bare + ".old";
  }

  lemma SnapshotComplete(f: string)
    requires SnapshotShape(f)
    ensures IsSnapshotName(f)
  {
    var day: string, time: string :|
      |day| == 8 && |time| == 6 && AllDigits(day) && AllDigits(time)
      && (f == "history~" + day + "-" + time || f == "history~" + day + "-" + time + ".old");
    var bare := "history~" + day + "-" + time;
    assert f[..23] == bare;
    assert forall k :: 0 <= k < 8 ==> f[k] == "history~"[k];
    assert forall k :: 8 <= k < 16 ==> f[k] == day[k - 8];
    assert forall k :: 17 <= k < 23 ==> f[k] == time[k - 17];
    if |f| == 27 {
      assert f[23..] == ".old";
      assert forall k :: 0 <= k < 4 ==> f[23 + k] == f[23..][k];
    }
  }

  /** The snapshot filter accepts exactly `history~` + 8 digits + `-` + 6 digits, optionally `.old`. */
  lemma SnapshotIff(f: string)
    ensures IsSnapshotName(f) <==> SnapshotShape(f)
  {
    if IsSnapshotName(f) {
      SnapshotSound(f);
    }
    if SnapshotShape(f) {
      SnapshotComplete(f);
    }
  }

  lemma NumberedTargetDigits(stem: string, digits: string)
    requires stem == "history" || stem == "history.old"
    requires AllDigits(digits)
    requires IsTargetName(stem + "." + digits)
    ensures exists n :: 1 <= n <= 10 && digits == NatToString(n)
  {
    var f := stem + "." + digits;
    assert f != "history" && f != "history.old" by {
      if |digits| == 3 {
        assert f[8] == digits[8 - |stem| - 1];
      }
    }
    var n :| 1 <= n <= 10 && (f == Numbered("history", n) || f == Numbered("history.old", n));
    if f == Numbered(stem, n) {
      assert f[|stem| + 1..] == digits;
      assert Numbered(stem, n)[|stem| + 1..] == NatToString(n);
    } else {
      assert false;
    }
  }

  /**
   * A numbered name is a target exactly when its digits are the canonical
   * numeral of a number from 1 to 10.
   */
  lemma NumberedTargetIff(stem: string, digits: string)
    requires stem == "history" || stem == "history.old"
    requires AllDigits(digits)
    ensures IsTargetName(stem + "." + digits) <==> exists n :: 1 <= n <= 10 && digits == NatToString(n)
  {
    if IsTargetName(stem + "." + digits) {
      NumberedTargetDigits(stem, digits);
    }
    if exists n :: 1 <= n <= 10 && digits == NatToString(n) {
      var n :| 1 <= n <= 10 && digits == NatToString(n);
      assert stem + "." + digits == Numbered(stem, n);
    }
  }

  /** `history.11`, `history.0` and `history.01` are not targets. */
  lemma OutOfRangeIsNotTarget()
    ensures !IsTargetName("history.11") && !IsTargetName("history.0") && !IsTargetName("history.01")
  {
    ValueSnoc("1", '1');
    assert "1" + ['1'] == "11";
    assert Value("0") == 0 && "01"[0] == '0';
    NumberedTargetIff("history", "11");
    NumberedTargetIff("history", "0");
    NumberedTargetIff("history", "01");
    assert "history.11" == "history" + "." + "11";
    assert "history.0" == "history" + "." + "0";
    assert "history.01" == "history" + "." + "01";
  }

  /** `target_names` built as in utils.py:27-31. */
  method TargetNames() returns (targets: set<string>)
    ensures forall f :: f in targets <==> IsTargetName(f)
  {
    targets := {"history", "history.old"};
    var n := 1;
    while n < 11
      invariant 1 <= n <= 11
      invariant forall f :: f in targets <==> (f == "history" || f == "history.old"
        || exists m :: 1 <= m < n && (f == Numbered("history", m) || f == Numbered("history.old", m)))
    {
      targets := targets + {Numbered("history", n)};
      targets := targets + {Numbered("history.old", n)};
      n := n + 1;
    }
  }

  /** The paths that the loop over one directory's `files` appends, in order. */
  function MatchesIn(root: string, files: seq<string>, accept: string -> bool): seq<string> {
    if files == [] then []
    else
      var last := files[|files| - 1];
      MatchesIn(root, files[..|files| - 1], accept) + (if accept(last) then [Join(root, last)] else [])
  }

  /** The `matches` list after walking `walk`. */
  function Matches(walk: seq<WalkStep>, accept: string -> bool): seq<string> {
    if walk == [] then []
    else
      var last := walk[|walk| - 1];
      Matches(walk[..|walk| - 1], accept) + MatchesIn(last.root, last.files, accept)
  }

  lemma {:induction false} MatchesInIff(root: string, files: seq<string>, accept: string -> bool, p: string)
    ensures p in MatchesIn(root, files, accept) <==> exists j :: 0 <= j < |files| && accept(files[j]) && p == Join(root, files[j])
  {
    if files != [] {
      var init := files[..|files| - 1];
      MatchesInIff(root, init, accept, p);
      assert forall j :: 0 <= j < |init| ==> init[j] == files[j];
    }
  }

  /** `p` joins the root of walk step `i` with its accepted file name `j`. */
  predicate Found(walk: seq<WalkStep>, accept: string -> bool, p: string, i: int, j: int) {
    0 <= i < |walk| && 0 <= j < |walk[i].files| && accept(walk[i].files[j]) && p == Join(walk[i].root, walk[i].files[j])
  }

  /** A path is reported iff it joins a walked root with one of its accepted file names. */
  lemma {:induction false} MatchesIff(walk: seq<WalkStep>, accept: string -> bool, p: string)
    ensures p in Matches(walk, accept) <==> exists i, j :: Found(walk, accept, p, i, j)
  {
    if walk != [] {
      var init, last := walk[..|walk| - 1], walk[|walk| - 1];
      MatchesIff(init, accept, p);
      MatchesInIff(last.root, last.files, accept, p);
      if p in Matches(init, accept) {
        var i, j :| Found(init, accept, p, i, j);
        assert init[i] == walk[i];
        assert Found(walk, accept, p, i, j);
      } else if p in MatchesIn(last.root, last.files, accept) {
        var j :| 0 <= j < |last.files| && accept(last.files[j]) && p == Join(last.root, last.files[j]);
        assert Found(walk, accept, p, |walk| - 1, j);
      }
      if exists i, j :: Found(walk, accept, p, i, j) {
        var i, j :| Found(walk, accept, p, i, j);
        if i < |init| {
          assert init[i] == walk[i];
          assert Found(init, accept, p, i, j);
        } else {
          assert walk[i] == last;
        }
      }
    }
  }

  lemma {:induction false} MatchesInSame(root: string, files: seq<string>, p: string -> bool, q: string -> bool)
    requires forall f :: p(f) == q(f)
    ensures MatchesIn(root, files, p) == MatchesIn(root, files, q)
  {
    if files != [] {
      MatchesInSame(root, files[..|files| - 1], p, q);
    }
  }

  /** Two filters that accept the same names report the same paths. */
  lemma {:induction false} MatchesSame(walk: seq<WalkStep>, p: string -> bool, q: string -> bool)
    requires forall f :: p(f) == q(f)
    ensures Matches(walk, p) == Matches(walk, q)
  {
    if walk != [] {
      var last := walk[|walk| - 1];
      MatchesSame(walk[..|walk| - 1], p, q);
      MatchesInSame(last.root, last.files, p, q);
    }
  }

  /** The `os.walk` loop shared by the three locators. */
  method Collect(walk: seq<WalkStep>, accept: string -> bool) returns (matches: seq<string>)
    ensures matches == Matches(walk, accept)
  {
    matches := [];
    var i := 0;
    while i < |walk|
      invariant 0 <= i <= |walk|
      invariant matches == Matches(walk[..i], accept)
    {
      var root, files := walk[i].root, walk[i].files;
      var j := 0;
      while j < |files|
        invariant 0 <= j <= |files|
        invariant matches == Matches(walk[..i], accept) + MatchesIn(root, files[..j], accept)
      {
        var fname := files[j];
        assert files[..j + 1][..j] == files[..j];
        if accept(fname) {
          matches := matches + [Join(root, fname)];
        }
        j := j + 1;
      }
      assert files[..j] == files;
      assert walk[..i + 1][..i] == walk[..i];
      i := i + 1;
    }
    assert walk[..i] == walk;
  }

  /** `find_history_files` of utils.py:26-50. */
  method FindHistoryFiles(walk: seq<WalkStep>) returns (matches: seq<string>)
    ensures matches == Matches(walk, IsHistoryName)
  {
    var targetNames := TargetNames();
    var accept := (fname: string) => fname in targetNames || IsSnapshotName(fname);
    matches := Collect(walk, accept);
    MatchesSame(walk, accept, IsHistoryName);
  }

  /** `find_history_files` of manage_history_files.py:43-52 and find_history_files.py:35-44. */
  method FindPlainHistoryFiles(walk: seq<WalkStep>) returns (matches: seq<string>)
    ensures matches == Matches(walk, IsPlainHistoryName)
  {
    var targetNames := {"history", "history.old"};
    var accept := (fname: string) => fname in targetNames;
    matches := Collect(walk, accept);
    MatchesSame(walk, accept, IsPlainHistoryName);
  }
}

=== FILE: manage_patterns.dfy ===
/**
 * The line patterns of manage_history_files.py:17-41: the block header
 * `date_time_start_pattern`, the leading clock of `start_pattern` and
 * `end_pattern`, and the trailer `end_duration_pattern`.
 */
module ManagePatterns {
  import opened Wrappers
  import opened Text
  import opened Locator
  import opened Patterns

  /** Where the whitespace after a date at 0 ends. */
  function StartPos(s: string): (p: nat)
    requires 10 <= |s|
    ensures 10 <= p <= |s|
    ensures forall k :: 10 <= k < p ==> IsSpace(s[k])
    ensures p == |s| || !IsSpace(s[p])
  {
    10 + SpaceRun(s[10..])
  }

  // ---------------------------------------------------------------------------
  // date_time_start_pattern

  /** The groups `date` and `start` of `date_time_start_pattern`. */
  datatype Header = Header(date: string, start: Option<string>)

  /** A word `JD` at or after `lo`, and a word `ISO` after it. */
  ghost predicate JDThenISO(s: string, lo: nat) {
    exists j: nat, k: nat :: lo <= j && j + 2 <= k && BoundedWordAt(s, j, "JD") && BoundedWordAt(s, k, "ISO")
  }

  /** The positions where the word `w` stands on its own. */
  function WordsAt(s: string, w: string): nat -> bool {
    (j: nat) => BoundedWordAt(s, j, w)
  }

  /** The lazy `.*?\bJD\b.*?\bISO\b`: the first `JD`, then any `ISO` after it. */
  function JDThenISOFrom(s: string, lo: nat): bool {
    match FirstFrom(lo, |s| + 1, WordsAt(s, "JD"))
    case None => false
    case Some(j) => FirstFrom(j + 2, |s| + 1, WordsAt(s, "ISO")).Some?
  }

  /** Trying the first `JD` only loses nothing: a later one has fewer `ISO`s after it. */
  lemma JDThenISOFromIff(s: string, lo: nat)
    ensures JDThenISOFrom(s, lo) <==> JDThenISO(s, lo)
  {
    var jd := FirstFrom(lo, |s| + 1, WordsAt(s, "JD"));
    FirstFromSound(lo, |s| + 1, WordsAt(s, "JD"));
    if jd.Some? {
      var iso := FirstFrom(jd.value + 2, |s| + 1, WordsAt(s, "ISO"));
      FirstFromSound(jd.value + 2, |s| + 1, WordsAt(s, "ISO"));
      assert JDThenISOFrom(s, lo) == iso.Some?;
      if iso.Some? {
        assert BoundedWordAt(s, jd.value, "JD") && BoundedWordAt(s, iso.value, "ISO");
      } else {
        forall j: nat, k: nat | lo <= j && j + 2 <= k && BoundedWordAt(s, j, "JD")
          ensures !BoundedWordAt(s, k, "ISO")
        {
          assert WordsAt(s, "JD")(j);
          if k < |s| + 1 {
            assert !WordsAt(s, "ISO")(k);
          }
        }
      }
    } else {
      assert !JDThenISOFrom(s, lo);
      forall j: nat | lo <= j
        ensures !BoundedWordAt(s, j, "JD")
      {
        if j < |s| + 1 {
          assert !WordsAt(s, "JD")(j);
        }
      }
    }
  }

  /**
   * `date_time_start_pattern.search(s)` (manage_history_files.py:17-21): a
   * date at 0, then either nothing more, or whitespace, a start clock and
   * the words `JD` and `ISO` in that order.
   */
  function DateTimeStart(s: string): Option<Header> {
    if !DateAt(s, 0) then None
    else
      var start := TimeAfterDate(s);
      if start.Some? && JDThenISOFrom(s, StartPos(s) + 8) then Some(Header(s[..10], start))
      else if |s| == 10 then Some(Header(s[..10], None))
      else None
  }

  /** A header with a start clock: date, whitespace, clock, then `JD` and `ISO` as words. */
  ghost predicate StartedHeader(s: string, date: string, start: string) {
    DateAt(s, 0) && date == s[..10]
    && exists p: nat ::
      (10 < p && TimeAt(s, p) && start == s[p..p + 8]
       && (forall k :: 10 <= k < p ==> IsSpace(s[k])) && JDThenISO(s, p + 8))
  }

  /** A run of whitespace ends at one place only. */
  lemma SpaceEndUnique(s: string, lo: nat, p: nat, q: nat)
    requires lo <= p <= |s| && (forall k :: lo <= k < p ==> IsSpace(s[k])) && (p == |s| || !IsSpace(s[p]))
    requires lo <= q < |s| && (forall k :: lo <= k < q ==> IsSpace(s[k])) && !IsSpace(s[q])
    ensures p == q
  {
  }

  lemma DateTimeStartStarted(s: string, date: string, start: string)
    ensures DateTimeStart(s) == Some(Header(date, Some(start))) <==> StartedHeader(s, date, start)
  {
    if DateAt(s, 0) {
      var p := StartPos(s);
      JDThenISOFromIff(s, p + 8);
      if DateTimeStart(s) == Some(Header(date, Some(start))) {
        assert 10 < p && TimeAt(s, p) && start == s[p..p + 8] && JDThenISO(s, p + 8);
      }
      if StartedHeader(s, date, start) {
        var q: nat :| 10 < q && TimeAt(s, q) && start == s[q..q + 8]
          && (forall k :: 10 <= k < q ==> IsSpace(s[k])) && JDThenISO(s, q + 8);
        ClockIsNoSpace(s, q);
        SpaceEndUnique(s, 10, p, q);
        assert TimeAfterDate(s) == Some(start);
      }
    }
  }

  /** A bare date is a header without a start clock, and nothing else is. */
  lemma DateTimeStartBare(s: string, date: string)
    ensures DateTimeStart(s) == Some(Header(date, None)) <==> DateAt(s, 0) && |s| == 10 && s == date
  {
    if DateAt(s, 0) && |s| == 10 {
      assert StartPos(s) == 10;
      assert s[..10] == s;
    }
  }

  // ---------------------------------------------------------------------------
  // start_pattern and end_pattern

  /**
   * `start_pattern` and `end_pattern` (manage_history_files.py:23-33), which
   * are the same pattern: the clock after an optional leading date and its
   * whitespace.
   */
  function LeadTime(s: string): Option<string> {
    var dated := if DateAt(s, 0) then TimeAfterDate(s) else None;
    if dated.Some? then dated else if TimeAt(s, 0) then Some(s[..8]) else None
  }

  /** A clock at 0, or one after a date and whitespace, is what `LeadTime` returns. */
  lemma LeadTimeIff(s: string, t: string)
    ensures LeadTime(s) == Some(t) <==>
      (TimeAt(s, 0) && t == s[..8])
      || (DateAt(s, 0) && exists p: nat :: 10 < p && TimeAt(s, p) && t == s[p..p + 8] && forall k :: 10 <= k < p ==> IsSpace(s[k]))
  {
    if DateAt(s, 0) {
      assert !TimeAt(s, 0) by {
        assert IsDigit(s[2]);
      }
      if exists p: nat :: 10 < p && TimeAt(s, p) && t == s[p..p + 8] && forall k :: 10 <= k < p ==> IsSpace(s[k]) {
        var p: nat :| 10 < p && TimeAt(s, p) && t == s[p..p + 8] && forall k :: 10 <= k < p ==> IsSpace(s[k]);
        TimeAfterDateComplete(s, p);
      }
    }
  }

  // ---------------------------------------------------------------------------
  // end_duration_pattern

  /** The groups `end`, `duration_h` and `duration_s` of `end_duration_pattern`. */
  datatype Ending = Ending(end: string, durationH: Option<string>, durationS: Option<string>)

  /** `\safter\s(?P<duration_h>\d{1,2}:\d{2}:\d{2})(?:.*)?` at `e`: the clock, whatever follows it. */
  function DurationH(s: string, e: nat): (r: Option<string>)
    ensures r.Some? ==> |r.value| == 7 || |r.value| == 8
  {
    if AfterAt(s, e) && HTimeLen(s, e + 7) > 0 then Some(s[e + 7..e + 7 + HTimeLen(s, e + 7)]) else None
  }

  /**
   * `\safter\s(?P<duration_s>\d{2}\.\d{3})\ss$` at `e`, tried only when the
   * first alternative fails.
   */
  function DurationS(s: string, e: nat): (r: Option<string>)
    ensures r.Some? ==> |r.value| == 6 && DurationH(s, e).None?
  {
    if AfterAt(s, e) && HTimeLen(s, e + 7) == 0 && e + 15 == |s| && SecondsAt(s, e + 7)
      && IsSpace(s[e + 13]) && MatchesLetterIgnoringCase(s[e + 14], 's')
    then Some(s[e + 7..e + 13])
    else None
  }

  /** What may follow the phrase: one of the two `after` forms, or the end of the line. */
  predicate TailAt(s: string, e: nat) {
    DurationH(s, e).Some? || DurationS(s, e).Some? || e == |s|
  }

  /** The phrase followed by a tail that completes the match. */
  predicate TrailerAt(s: string, q: nat) {
    PhraseAt(s, q) && TailAt(s, q + 29)
  }

  /** The positions that hold a complete trailer. */
  function Trailers(s: string): nat -> bool {
    (q: nat) => TrailerAt(s, q)
  }

  /** The match with the end clock at `t`: the lazy `.*?` takes the leftmost phrase that completes it. */
  function EndFrom(s: string, t: nat): Option<Ending> {
    var n := HTimeLen(s, t);
    if n == 0 then None
    else
      match FirstFrom(t + n, |s| + 1, Trailers(s))
      case None => None
      case Some(q) => Some(Ending(s[t..t + n], DurationH(s, q + 29), DurationS(s, q + 29)))
  }

  /** `q` holds the leftmost complete trailer at or after `lo`. */
  predicate LeftmostTrailer(s: string, lo: nat, q: nat) {
    lo <= q && TrailerAt(s, q) && forall q' :: lo <= q' < q ==> !TrailerAt(s, q')
  }

  /** The match at `t` takes its groups from the leftmost complete trailer after the end clock. */
  lemma EndFromLeftmost(s: string, t: nat)
    requires EndFrom(s, t).Some?
    ensures exists q: nat {:trigger LeftmostTrailer(s, t + HTimeLen(s, t), q)} ::
      (LeftmostTrailer(s, t + HTimeLen(s, t), q)
       && EndFrom(s, t).value == Ending(s[t..t + HTimeLen(s, t)], DurationH(s, q + 29), DurationS(s, q + 29)))
  {
    var q := FirstFrom(t + HTimeLen(s, t), |s| + 1, Trailers(s)).value;
    FirstTrailerLeftmost(s, t + HTimeLen(s, t));
    EndFromFirst(s, t, q);
  }

  /** The search for a trailer stops at the leftmost one. */
  lemma FirstTrailerLeftmost(s: string, lo: nat)
    requires FirstFrom(lo, |s| + 1, Trailers(s)).Some?
    ensures LeftmostTrailer(s, lo, FirstFrom(lo, |s| + 1, Trailers(s)).value)
  {
    var trailer := Trailers(s);
    FirstFromSound(lo, |s| + 1, trailer);
    var q := FirstFrom(lo, |s| + 1, trailer).value;
    assert trailer(q);
    forall q' | lo <= q' < q ensures !TrailerAt(s, q') {
      assert !trailer(q');
    }
  }

  /** When the phrase and its tail sit at `q` and none before it, the match takes its groups there. */
  lemma EndFromAt(s: string, t: nat, q: nat)
    requires HTimeLen(s, t) > 0 && t + HTimeLen(s, t) <= q && TrailerAt(s, q)
    requires forall q' :: t + HTimeLen(s, t) <= q' < q ==> !TrailerAt(s, q')
    ensures EndFrom(s, t) == Some(Ending(s[t..t + HTimeLen(s, t)], DurationH(s, q + 29), DurationS(s, q + 29)))
  {
    var n := HTimeLen(s, t);
    var trailer := Trailers(s);
    assert trailer(q) && q < |s| + 1;
    assert forall k: nat :: t + n <= k < q ==> !trailer(k);
    FirstFromIs(t + n, |s| + 1, trailer, q);
    EndFromFirst(s, t, q);
  }

  lemma EndFromFirst(s: string, t: nat, q: nat)
    requires HTimeLen(s, t) > 0 && FirstFrom(t + HTimeLen(s, t), |s| + 1, Trailers(s)) == Some(q)
    ensures EndFrom(s, t) == Some(Ending(s[t..t + HTimeLen(s, t)], DurationH(s, q + 29), DurationS(s, q + 29)))
  {
  }

  /**
   * `end_duration_pattern.search(s)` (manage_history_files.py:35-41): the
   * optional date and whitespace are tried first, then a clock at 0.
   */
  function EndDuration(s: string): Option<Ending> {
    var dated := if DateAt(s, 0) && StartPos(s) > 10 then EndFrom(s, StartPos(s)) else None;
    if dated.Some? then dated else EndFrom(s, 0)
  }

  /** The end clock is a clock, and at most one duration group is set. */
  lemma EndDurationSound(s: string)
    requires EndDuration(s).Some?
    ensures var m := EndDuration(s).value;
      (|m.end| == 7 || |m.end| == 8) && IsDigit(m.end[0])
      && !(m.durationH.Some? && m.durationS.Some?)
  {
  }
  // ---------------------------------------------------------------------------
  // What the groups hold

  /** The header's date is a date and its start, when present, a clock. */
  lemma DateTimeStartCaptures(s: string)
    requires DateTimeStart(s).Some?
    ensures var h := DateTimeStart(s).value;
      IsDate(h.date) && (h.start.Some? ==> IsClock(h.start.value))
  {
    DateCaptured(s);
    if DateTimeStart(s).value.start.Some? {
      ClockCaptured(s, StartPos(s));
    }
  }

  lemma LeadTimeCaptures(s: string)
    ensures LeadTime(s).Some? ==> IsClock(LeadTime(s).value)
  {
    if DateAt(s, 0) && TimeAfterDate(s).Some? {
      ClockCaptured(s, StartPos(s));
    } else if LeadTime(s).Some? {
      ClockCaptured(s, 0);
    }
  }

  /** A line that starts with a clock is no header. */
  lemma ClockLineIsNoHeader(s: string)
    requires HTimeLen(s, 0) > 0
    ensures DateTimeStart(s).None?
  {
    if DateAt(s, 0) {
      DateIsNotTime(s, 0);
    }
  }

  lemma EndDurationCaptures(s: string)
    requires EndDuration(s).Some?
    ensures IsClock(EndDuration(s).value.end)
  {
    if DateAt(s, 0) && StartPos(s) > 10 && EndFrom(s, StartPos(s)).Some? {
      ClockCaptured(s, StartPos(s));
    } else {
      ClockCaptured(s, 0);
    }
  }

  // ---------------------------------------------------------------------------
  // The lines the instrument software writes

  lemma MatchesItself(s: string, i: nat, w: string)
    requires IsLowerWord(w) && LiteralAt(s, i, w)
    ensures WordAtIgnoringCase(s, i, w)
  {
  }

  /** The phrase spelled in lower case, with single spaces, is found by the case-insensitive match. */
  lemma PhraseLiteral(s: string, q: nat)
    requires q + 29 <= |s| && LiteralAt(s, q, "history") && s[q + 7] == ' ' && LiteralAt(s, q + 8, "registration")
    requires s[q + 20] == ' ' && LiteralAt(s, q + 21, "finished")
    ensures PhraseAt(s, q)
  {
    MatchesItself(s, q, "history");
    MatchesItself(s, q + 8, "registration");
    MatchesItself(s, q + 21, "finished");
  }

  /** A header `<date> <start> JD ISO` gives its date and its start clock. */
  lemma HeaderLine(date: string, start: string)
    requires IsDate(date) && |start| == 8 && TimeAt(start, 0)
    ensures DateTimeStart(date + " " + start + " JD ISO") == Some(Header(date, Some(start)))
  {
    var s := date + " " + start + " JD ISO";
    assert forall k :: 0 <= k < 10 ==> s[k] == date[k];
    assert forall k :: 0 <= k < 8 ==> s[11 + k] == start[k];
    assert s[..10] == date && s[11..19] == start;
    assert DateAt(s, 0) && TimeAt(s, 11);
    assert s[10] == ' ' && s[19] == ' ' && s[20] == 'J' && s[21] == 'D' && s[22] == ' ';
    assert s[23] == 'I' && s[24] == 'S' && s[25] == 'O' && |s| == 26;
    assert BoundedWordAt(s, 20, "JD") && BoundedWordAt(s, 23, "ISO");
    assert JDThenISO(s, 19);
    assert forall k :: 10 <= k < 11 ==> IsSpace(s[k]);
    assert StartedHeader(s, date, start);
    DateTimeStartStarted(s, date, start);
  }

  /** A clock leading a line is found at 0 and nowhere else. */
  lemma LeadingClock(s: string, end: string)
    requires IsClock(end) && |end| <= |s| && s[..|end|] == end
    ensures HTimeLen(s, 0) == |end| && s[..HTimeLen(s, 0)] == end && !DateAt(s, 0)
  {
    assert forall k :: 0 <= k < |end| ==> s[k] == end[k];
  }

  /** The phrase one space after the end clock is the leftmost one there. */
  lemma TrailerAfterClock(s: string, end: string)
    requires IsClock(end) && |end| + 30 <= |s| && s[..|end|] == end && s[|end|] == ' '
    requires LiteralAt(s, |end| + 1, "history") && s[|end| + 8] == ' ' && LiteralAt(s, |end| + 9, "registration")
    requires s[|end| + 21] == ' ' && LiteralAt(s, |end| + 22, "finished")
    requires TailAt(s, |end| + 30)
    ensures EndDuration(s) == Some(Ending(end, DurationH(s, |end| + 30), DurationS(s, |end| + 30)))
  {
    var n := |end|;
    LeadingClock(s, end);
    PhraseLiteral(s, n + 1);
    assert !MatchesLetterIgnoringCase(s[n + 0], "history"[0]);
    EndFromAt(s, 0, n + 1);
  }

  /** `<end> history registration finished`: the end clock and no stated duration. */
  lemma TrailerLine(end: string)
    requires IsClock(end)
    ensures EndDuration(end + " " + "history" + " " + "registration" + " " + "finished") == Some(Ending(end, None, None))
  {
    var s := end + " " + "history" + " " + "registration" + " " + "finished";
    assert s[..|end|] == end;
    TrailerAfterClock(s, end);
  }

  /** The ` after ` that introduces a stated duration at `e`. */
  lemma AfterLiteral(s: string, e: nat)
    requires e + 7 <= |s| && s[e] == ' ' && LiteralAt(s, e + 1, "after") && s[e + 6] == ' '
    ensures AfterAt(s, e)
  {
    MatchesItself(s, e + 1, "after");
  }

  /** `<end> history registration finished after <clock>`: the duration as a clock. */
  lemma TrailerLineHours(end: string, duration: string)
    requires IsClock(end) && IsClock(duration)
    ensures var s := end + " " + "history" + " " + "registration" + " " + "finished" + " " + "after" + " " + duration;
      EndDuration(s) == Some(Ending(end, Some(duration), None))
  {
    var trailer := end + " " + "history" + " " + "registration" + " " + "finished";
    var s := trailer + " " + "after" + " " + duration;
    var e := |trailer|;
    assert s[..e] == trailer;
    assert s[..|end|] == end;
    AfterLiteral(s, e);
    assert s[e + 7..] == duration;
    LeadingClock(s[e + 7..], duration);
    ShiftedClock(s, e + 7, duration);
    TrailerAfterClock(s, end);
  }

  /** A clock that ends the line at `i` is matched there. */
  lemma ShiftedClock(s: string, i: nat, c: string)
    requires IsClock(c) && i <= |s| && s[i..] == c
    ensures HTimeLen(s, i) == |c| && s[i..i + |c|] == c
  {
    assert forall k :: 0 <= k < |c| ==> s[i + k] == c[k];
  }

  /** `<end> history registration finished after <SS.mmm> s`: the duration in seconds. */
  lemma TrailerLineSeconds(end: string, seconds: string)
    requires IsClock(end) && |seconds| == 6 && SecondsAt(seconds, 0)
    ensures var s := end + " " + "history" + " " + "registration" + " " + "finished" + " " + "after" + " " + seconds + " " + "s";
      EndDuration(s) == Some(Ending(end, None, Some(seconds)))
  {
    var trailer := end + " " + "history" + " " + "registration" + " " + "finished";
    var s := trailer + " " + "after" + " " + seconds + " " + "s";
    var e := |trailer|;
    assert s[..e] == trailer;
    assert s[..|end|] == end;
    AfterLiteral(s, e);
    assert forall k :: 0 <= k < 6 ==> s[e + 7 + k] == seconds[k];
    assert s[e + 7..e + 13] == seconds;
    assert HTimeLen(s, e + 7) == 0;
    TrailerAfterClock(s, end);
  }
}

=== FILE: patterns.dfy ===
/**
 * The regular expressions of manage_history_files.py and find_history_files.py,
 * written out as matchers. Each matcher follows the regex engine's order of
 * trial (greedy before lazy, the first alternative before the second, the
 * leftmost position of a lazy `.*?` first) and returns the groups it captures.
 *
 * Every line handed to these matchers has had its line break removed, so `.`
 * matches every character and `$` means the end of the string.
 */
module Patterns {
  import opened Wrappers
  import opened Text
  import opened Locator

  // ---------------------------------------------------------------------------
  // Dates and times

  /** `\d{4}-\d{2}-\d{2}` at position `i`. */
  predicate DateAt(s: string, i: nat) {
    i + 10 <= |s| && DigitsAt(s, i, 4) && s[i + 4] == '-' && DigitsAt(s, i + 5, 2) && s[i + 7] == '-' && DigitsAt(s, i + 8, 2)
  }

  /** `\d{2}:\d{2}:\d{2}` at position `i`. */
  predicate TimeAt(s: string, i: nat) {
    i + 8 <= |s| && DigitsAt(s, i, 2) && s[i + 2] == ':' && DigitsAt(s, i + 3, 2) && s[i + 5] == ':' && DigitsAt(s, i + 6, 2)
  }

  /** A clock starts with a digit, which is no whitespace. */
  lemma ClockIsNoSpace(s: string, i: nat)
    requires TimeAt(s, i)
    ensures i < |s| && IsDigit(s[i]) && !IsSpace(s[i])
  {
  }

  /** `\d:\d{2}:\d{2}` at position `i`. */
  predicate ShortTimeAt(s: string, i: nat) {
    i + 7 <= |s| && IsDigit(s[i]) && s[i + 1] == ':' && DigitsAt(s, i + 2, 2) && s[i + 4] == ':' && DigitsAt(s, i + 5, 2)
  }

  /** `\d{2}\.\d{3}` at position `i`. */
  predicate SecondsAt(s: string, i: nat) {
    i + 6 <= |s| && DigitsAt(s, i, 2) && s[i + 2] == '.' && DigitsAt(s, i + 3, 3)
  }

  /**
   * The length of the match of `\d{1,2}:\d{2}:\d{2}` at `i`, or 0: the greedy
   * two-digit hour is tried before the one-digit hour.
   */
  function HTimeLen(s: string, i: nat): (n: nat)
    ensures n == 0 || n == 7 || n == 8
    ensures n > 0 ==> i + n <= |s| && IsDigit(s[i])
    ensures n == 0 <==> !TimeAt(s, i) && !ShortTimeAt(s, i)
  {
    if TimeAt(s, i) then 8 else if ShortTimeAt(s, i) then 7 else 0
  }

  /** A clock and a date never start at the same place. */
  lemma DateIsNotTime(s: string, i: nat)
    requires DateAt(s, i)
    ensures HTimeLen(s, i) == 0
  {
    assert IsDigit(s[i + 1]) && IsDigit(s[i + 2]);
  }

  /** A clock as the patterns capture it: `\d{1,2}:\d{2}:\d{2}` and nothing more. */
  predicate IsClock(c: string) {
    |c| >= 7 && HTimeLen(c, 0) == |c|
  }

  /** A date as the patterns capture it: `\d{4}-\d{2}-\d{2}` and nothing more. */
  predicate IsDate(d: string) {
    |d| == 10 && DateAt(d, 0)
  }

  /** What a clock pattern matches at `i` is a clock. */
  lemma ClockCaptured(s: string, i: nat)
    requires HTimeLen(s, i) > 0
    ensures IsClock(s[i..i + HTimeLen(s, i)])
  {
    var n := HTimeLen(s, i);
    var c := s[i..i + n];
    assert forall k :: 0 <= k < n ==> c[k] == s[i + k];
  }

  /** What the date pattern matches at 0 is a date. */
  lemma DateCaptured(s: string)
    requires DateAt(s, 0)
    ensures IsDate(s[..10])
  {
    var d := s[..10];
    assert forall k :: 0 <= k < 10 ==> d[k] == s[k];
  }

  /** `(?:\s+(?P<start>\d{2}:\d{2}:\d{2}))` right after a date at 0: the start time, when there is one. */
  function TimeAfterDate(s: string): (r: Option<string>)
    requires DateAt(s, 0)
    ensures r.Some? ==> exists p ::
      (10 < p && p + 8 <= |s| && TimeAt(s, p) && r.value == s[p..p + 8] && forall k :: 10 <= k < p ==> IsSpace(s[k]))
  {
    var p := 10 + SpaceRun(s[10..]);
    if p > 10 && TimeAt(s, p) then Some(s[p..p + 8]) else None
  }

  /** The time after a date is found wherever the whitespace after the date ends. */
  lemma TimeAfterDateComplete(s: string, p: nat)
    requires DateAt(s, 0) && 10 < p && TimeAt(s, p)
    requires forall k :: 10 <= k < p ==> IsSpace(s[k])
    ensures TimeAfterDate(s) == Some(s[p..p + 8])
  {
    var n := SpaceRun(s[10..]);
    assert s[10..][p - 10] == s[p];
  }

  // ---------------------------------------------------------------------------
  // Words

  /** Is there a word character at position `i` (outside the string there is none)? */
  predicate IsWordAt(s: string, i: int) {
    0 <= i < |s| && IsWordChar(s[i])
  }

  /** `\b` at position `i`. */
  predicate Boundary(s: string, i: nat) {
    IsWordAt(s, i - 1) != IsWordAt(s, i)
  }

  /** `\bw\b` at position `i`, for a word `w` of word characters. */
  predicate BoundedWordAt(s: string, i: nat, w: string) {
    LiteralAt(s, i, w) && Boundary(s, i) && Boundary(s, i + |w|)
  }

  /** `history\sregistration\sfinished` at position `q`, ignoring case. */
  predicate PhraseAt(s: string, q: nat) {
    q + 29 <= |s|
    && WordAtIgnoringCase(s, q, "history") && IsSpace(s[q + 7])
    && WordAtIgnoringCase(s, q + 8, "registration") && IsSpace(s[q + 20])
    && WordAtIgnoringCase(s, q + 21, "finished")
  }

  /** `\safter\s` at position `e`, ignoring case. */
  predicate AfterAt(s: string, e: nat) {
    e + 7 <= |s| && IsSpace(s[e]) && WordAtIgnoringCase(s, e + 1, "after") && IsSpace(s[e + 6])
  }

  // ---------------------------------------------------------------------------
  // host_app_user_pattern

  predicate IsSep(c: char) { c == '/' || c == '\\' }

  predicate SepFree(s: string) { forall k :: 0 <= k < |s| ==> !IsSep(s[k]) }

  /** The first separator at or after `lo`, or `|s|` when there is none. */
  function NextSep(s: string, lo: nat): (r: nat)
    requires lo <= |s|
    ensures lo <= r <= |s|
    ensures forall k :: lo <= k < r ==> !IsSep(s[k])
    ensures r < |s| ==> IsSep(s[r])
    decreases |s| - lo
  {
    if lo == |s| || IsSep(s[lo]) then lo else NextSep(s, lo + 1)
  }

  /** The pieces of `s` between separators (at least one, possibly empty). */
  function Split(s: string): (r: seq<string>)
    ensures |r| >= 1
    ensures forall i :: 0 <= i < |r| ==> SepFree(r[i])
    decreases |s|
  {
    var i := NextSep(s, 0);
    if i == |s| then [s] else [s[..i]] + Split(s[i + 1..])
  }

  /** The separators of `s`, in order. */
  function Seps(s: string): (r: seq<char>)
    ensures |r| + 1 == |Split(s)|
    ensures forall i :: 0 <= i < |r| ==> IsSep(r[i])
    decreases |s|
  {
    var i := NextSep(s, 0);
    if i == |s| then [] else [s[i]] + Seps(s[i + 1..])
  }

  /** The pieces put back together with the separators between them. */
  function Unsplit(segs: seq<string>, seps: seq<char>): string
    requires |segs| == |seps| + 1
    decreases |seps|
  {
    if seps == [] then segs[0] else segs[0] + [seps[0]] + Unsplit(segs[1..], seps[1..])
  }

  lemma {:induction false} SplitUnsplit(s: string)
    ensures Unsplit(Split(s), Seps(s)) == s
    decreases |s|
  {
    var i := NextSep(s, 0);
    if i < |s| {
      var t := s[i + 1..];
      SplitUnsplit(t);
      var segs, seps := Split(s), Seps(s);
      assert segs == [s[..i]] + Split(t) && seps == [s[i]] + Seps(t);
      assert segs[1..] == Split(t) && seps[1..] == Seps(t);
      calc {
        Unsplit(segs, seps);
        segs[0] + [seps[0]] + Unsplit(segs[1..], seps[1..]);
        s[..i] + [s[i]] + t;
        { SplitAround(s, i); }
        s;
      }
    } else {
      assert Split(s) == [s] && Seps(s) == [];
    }
  }

  /** The first separator of a joined path is the one after its first piece. */
  lemma UnsplitStep(segs: seq<string>, seps: seq<char>)
    requires |segs| == |seps| + 1 && seps != []
    requires SepFree(segs[0]) && IsSep(seps[0])
    ensures var s, rest := Unsplit(segs, seps), Unsplit(segs[1..], seps[1..]);
      Split(s) == [segs[0]] + Split(rest) && Seps(s) == [seps[0]] + Seps(rest)
  {
    var s, rest := Unsplit(segs, seps), Unsplit(segs[1..], seps[1..]);
    var i := |segs[0]|;
    assert s == segs[0] + [seps[0]] + rest;
    FirstSegment(s, segs[0], seps[0], rest);
    assert s[i + 1..] == rest && s[..i] == segs[0] && s[i] == seps[0];
  }

  lemma {:induction false} UnsplitSplit(segs: seq<string>, seps: seq<char>)
    requires |segs| == |seps| + 1
    requires forall i :: 0 <= i < |segs| ==> SepFree(segs[i])
    requires forall i :: 0 <= i < |seps| ==> IsSep(seps[i])
    ensures Split(Unsplit(segs, seps)) == segs && Seps(Unsplit(segs, seps)) == seps
    decreases |seps|
  {
    if seps == [] {
      var s := Unsplit(segs, seps);
      assert NextSep(s, 0) == |s|;
    } else {
      UnsplitStep(segs, seps);
      UnsplitSplit(segs[1..], seps[1..]);
      assert segs == [segs[0]] + segs[1..];
      assert seps == [seps[0]] + seps[1..];
    }
  }

  lemma FirstSegment(s: string, seg: string, c: char, rest: string)
    requires s == seg + [c] + rest && SepFree(seg) && IsSep(c)
    ensures NextSep(s, 0) == |seg|
  {
    assert s[|seg|] == c;
    assert forall k :: 0 <= k < |seg| ==> s[k] == seg[k];
  }

  /** The named groups of `host_app_user_pattern`. */
  datatype Location = Location(host: string, app: string, user: string, file: string)

  /**
   * `host_app_user_pattern.search(path)` (manage_history_files.py:7-15,
   * find_history_files.py:5-13): `.` and a separator, then exactly four
   * non-empty segments without separators, divided by separators.
   */
  function HostAppUser(path: string): Option<Location> {
    if |path| < 2 || path[0] != '.' || !IsSep(path[1]) then None
    else
      var segs := Split(path[2..]);
      if |segs| == 4 && segs[0] != [] && segs[1] != [] && segs[2] != [] && segs[3] != []
      then Some(Location(segs[0], segs[1], segs[2], segs[3]))
      else None
  }

  /** A path `./host/app/user/file`, with either separator at each place. */
  ghost predicate LocationShape(path: string, loc: Location) {
    && loc.host != [] && loc.app != [] && loc.user != [] && loc.file != []
    && SepFree(loc.host) && SepFree(loc.app) && SepFree(loc.user) && SepFree(loc.file)
    && exists c: char, seps: seq<char> ::
      (IsSep(c) && |seps| == 3 && IsSep(seps[0]) && IsSep(seps[1]) && IsSep(seps[2])
       && path == ['.', c] + Unsplit([loc.host, loc.app, loc.user, loc.file], seps))
  }

  lemma HostAppUserSound(path: string)
    requires HostAppUser(path).Some?
    ensures LocationShape(path, HostAppUser(path).value)
  {
    var loc := HostAppUser(path).value;
    SplitUnsplit(path[2..]);
    var segs, seps := Split(path[2..]), Seps(path[2..]);
    assert segs == [loc.host, loc.app, loc.user, loc.file];
    assert path == ['.', path[1]] + path[2..];
  }

  lemma HostAppUserComplete(path: string, loc: Location)
    requires LocationShape(path, loc)
    ensures HostAppUser(path) == Some(loc)
  {
    var c: char, seps: seq<char> :| IsSep(c) && |seps| == 3 && IsSep(seps[0]) && IsSep(seps[1]) && IsSep(seps[2])
      && path == ['.', c] + Unsplit([loc.host, loc.app, loc.user, loc.file], seps);
    var segs := [loc.host, loc.app, loc.user, loc.file];
    assert path[2..] == Unsplit(segs, seps);
    UnsplitSplit(segs, seps);
  }

  /** The pattern accepts exactly the paths `./host/app/user/file` and returns their four segments. */
  lemma HostAppUserIff(path: string, loc: Location)
    ensures HostAppUser(path) == Some(loc) <==> LocationShape(path, loc)
  {
    if HostAppUser(path) == Some(loc) {
      HostAppUserSound(path);
    }
    if LocationShape(path, loc) {
      HostAppUserComplete(path, loc);
    }
  }
}

=== FILE: renumber.dfy ===
/**
 * `rename_files_sequentially` and `fill_gaps` of utils.py: the rotations
 * `prefix.N` named in a file list are renamed, in increasing order of `N`, to
 * `prefix.1`, `prefix.2`, ... A rename is skipped when the name would not
 * change or when the new name already exists; renaming a file that does not
 * exist raises and ends the run.
 *
 * The file system is the map from path to content; `os.path.exists` is
 * membership and `os.rename` moves a content to a new key.
 */
module Renumber {
  import opened Wrappers
  import opened Text
  import opened Sorting
  import opened Directory
  import opened Locator

  /**
   * `f` begins with a match of `prefix` read as a regular expression: the
   * prefix is interpolated unescaped, so each `.` in it matches any character
   * but a newline; every other character matches itself.
   */
  predicate PrefixMatches(prefix: string, f: string) {
    |prefix| <= |f| && forall k :: 0 <= k < |prefix| ==> if prefix[k] == '.' then f[k] != '\n' else f[k] == prefix[k]
  }

  /** The `int(m.group(1))` of `re.match(rf"{prefix}\.(\d+)$", f)`, when it matches. */
  function IndexOf(prefix: string, f: string): Option<nat> {
    if |f| > |prefix| + 1 && PrefixMatches(prefix, f) && f[|prefix|] == '.' && AllDigits(f[|prefix| + 1..])
    then Some(Value(f[|prefix| + 1..]))
    else None
  }

  /** `f"{prefix}.{n}"` is read back as `n`. */
  lemma IndexOfNumbered(prefix: string, n: nat)
    ensures IndexOf(prefix, Numbered(prefix, n)) == Some(n)
  {
    var f := Numbered(prefix, n);
    assert forall k :: 0 <= k < |prefix| ==> f[k] == prefix[k];
    assert f[|prefix| + 1..] == NatToString(n);
  }

  /** Different numbers give different names. */
  lemma NumberedInjective(prefix: string, m: nat, n: nat)
    requires Numbered(prefix, m) == Numbered(prefix, n)
    ensures m == n
  {
    IndexOfNumbered(prefix, m);
    IndexOfNumbered(prefix, n);
  }

  ghost predicate IsNumbered(prefix: string, x: string) {
    exists n :: x == Numbered(prefix, n)
  }

  /** The bare `prefix` file is never a numbered name. */
  lemma BareIsNotNumbered(prefix: string)
    ensures !IsNumbered(prefix, prefix)
  {
    forall n: nat ensures prefix != Numbered(prefix, n) {
      assert |Numbered(prefix, n)| > |prefix|;
    }
  }

  /** The indices found in `file_list`, in list order (utils.py:63-68). */
  function IndicesOf(fileList: seq<string>, prefix: string): seq<nat> {
    if fileList == [] then []
    else
      var last := fileList[|fileList| - 1];
      IndicesOf(fileList[..|fileList| - 1], prefix) + (match IndexOf(prefix, last) case Some(n) => [n] case None => [])
  }

  lemma {:induction false} IndicesOfIff(fileList: seq<string>, prefix: string, n: nat)
    ensures n in IndicesOf(fileList, prefix) <==> exists i :: 0 <= i < |fileList| && IndexOf(prefix, fileList[i]) == Some(n)
  {
    if fileList != [] {
      var init := fileList[..|fileList| - 1];
      IndicesOfIff(init, prefix, n);
      assert forall i :: 0 <= i < |init| ==> init[i] == fileList[i];
    }
  }

  /** How a run ends: `ok` is false when `os.rename` raised because the old name was missing. */
  datatype Outcome = Outcome(fs: Dir, ok: bool)

  /** `os.rename(oldName, newName)` onto a name that does not exist. */
  function Rename(fs: Dir, oldName: string, newName: string): (r: Dir)
    requires oldName in fs && newName !in fs
    ensures r.Keys == fs.Keys - {oldName} + {newName}
    ensures r[newName] == fs[oldName]
    ensures forall x :: x in r && x != newName ==> r[x] == fs[x]
  {
    (fs - {oldName})[newName := fs[oldName]]
  }

  /**
   * The renaming loop (utils.py:73-80) from position `i` of the sorted indices
   * `a` on: `a[i]` is renamed to `i + 1`.
   */
  function Run(fs: Dir, prefix: string, a: seq<nat>, i: nat): Outcome
    decreases |a| - i
  {
    if i >= |a| then Outcome(fs, true)
    else
      var oldName, newName := Numbered(prefix, a[i]), Numbered(prefix, i + 1);
      if oldName == newName || newName in fs then Run(fs, prefix, a, i + 1)
      else if oldName !in fs then Outcome(fs, false)
      else Run(Rename(fs, oldName, newName), prefix, a, i + 1)
  }

  /** Names that are not `prefix.N`, the bare `prefix` among them, are never touched. */
  lemma {:induction false} RunFrame(fs: Dir, prefix: string, a: seq<nat>, i: nat, x: string)
    requires !IsNumbered(prefix, x)
    ensures x in Run(fs, prefix, a, i).fs <==> x in fs
    ensures x in fs ==> Run(fs, prefix, a, i).fs[x] == fs[x]
    decreases |a| - i
  {
    if i < |a| {
      var oldName, newName := Numbered(prefix, a[i]), Numbered(prefix, i + 1);
      if oldName == newName || newName in fs {
        RunFrame(fs, prefix, a, i + 1, x);
      } else if oldName in fs {
        RunFrame(Rename(fs, oldName, newName), prefix, a, i + 1, x);
      }
    }
  }

  /** No rename overwrites a file: the number of files never changes. */
  lemma {:induction false} RunKeepsCount(fs: Dir, prefix: string, a: seq<nat>, i: nat)
    ensures |Run(fs, prefix, a, i).fs.Keys| == |fs.Keys|
    decreases |a| - i
  {
    if i < |a| {
      var oldName, newName := Numbered(prefix, a[i]), Numbered(prefix, i + 1);
      if oldName == newName || newName in fs {
        RunKeepsCount(fs, prefix, a, i + 1);
      } else if oldName in fs {
        var next := Rename(fs, oldName, newName);
        assert |next.Keys| == |fs.Keys| by {
          assert next.Keys - {newName} == fs.Keys - {oldName};
        }
        RunKeepsCount(next, prefix, a, i + 1);
      }
    }
  }

  /** Same names, same numbers. */
  lemma NumberedEq(prefix: string, m: nat, n: nat)
    ensures Numbered(prefix, m) == Numbered(prefix, n) <==> m == n
  {
    if Numbered(prefix, m) == Numbered(prefix, n) {
      NumberedInjective(prefix, m, n);
    }
  }

  ghost predicate Increasing(a: seq<nat>) {
    forall j, k :: 0 <= j < k < |a| ==> a[j] < a[k]
  }

  /**
   * Before position `i`: the numbered files are `prefix.1 .. prefix.i` and the
   * not yet renamed `prefix.a[j]` for `j >= i`.
   */
  ghost predicate NumberedAt(fs: Dir, prefix: string, a: seq<nat>, i: nat)
    requires i <= |a|
  {
    forall n: nat {:trigger Numbered(prefix, n)} :: Numbered(prefix, n) in fs <==> (1 <= n <= i || n in a[i..])
  }

  /** `prefix.a[i]` already is `prefix.(i + 1)`: nothing is renamed. */
  lemma DenseStay(fs: Dir, prefix: string, a: seq<nat>, i: nat)
    requires i < |a| && a[i] == i + 1
    requires NumberedAt(fs, prefix, a, i)
    ensures NumberedAt(fs, prefix, a, i + 1)
  {
    assert a[i..] == [a[i]] + a[i + 1..];
  }

  /** `prefix.a[i]` is renamed to the free name `prefix.(i + 1)`. */
  lemma DenseMove(fs: Dir, prefix: string, a: seq<nat>, i: nat)
    requires Increasing(a) && i < |a| && a[i] > i + 1
    requires NumberedAt(fs, prefix, a, i)
    ensures Numbered(prefix, a[i]) in fs && Numbered(prefix, i + 1) !in fs
    ensures NumberedAt(Rename(fs, Numbered(prefix, a[i]), Numbered(prefix, i + 1)), prefix, a, i + 1)
  {
    var oldName, newName := Numbered(prefix, a[i]), Numbered(prefix, i + 1);
    assert a[i..] == [a[i]] + a[i + 1..];
    assert i + 1 !in a[i..] by {
      assert forall j :: i < j < |a| ==> a[i] < a[j];
    }
    assert a[i] !in a[i + 1..] by {
      assert forall j :: i + 1 <= j < |a| ==> a[i] < a[j];
    }
    var next := Rename(fs, oldName, newName);
    forall n: nat ensures Numbered(prefix, n) in next <==> (1 <= n <= i + 1 || n in a[i + 1..]) {
      NumberedEq(prefix, n, a[i]);
      NumberedEq(prefix, n, i + 1);
    }
  }

  lemma {:induction false} IncreasingFromOne(a: seq<nat>, i: nat)
    requires Increasing(a) && |a| > 0 && a[0] >= 1 && i < |a|
    ensures a[i] >= i + 1
  {
    if i > 0 {
      IncreasingFromOne(a, i - 1);
    }
  }

  /**
   * After the run, `prefix.n` holds the content `prefix.a[n - 1]` had before
   * it, for every `n` in `lo + 1 .. hi`.
   */
  ghost predicate Moved(r: Dir, fs: Dir, prefix: string, a: seq<nat>, lo: nat, hi: nat)
    requires lo <= hi <= |a|
  {
    forall n: nat {:trigger Numbered(prefix, n)} :: lo < n <= hi ==>
      (Numbered(prefix, n) in r && Numbered(prefix, a[n - 1]) in fs && r[Numbered(prefix, n)] == fs[Numbered(prefix, a[n - 1])])
  }

  /** The files already renamed, `prefix.1 .. prefix.hi`, stay where they are. */
  ghost predicate Kept(r: Dir, fs: Dir, prefix: string, hi: nat) {
    forall n: nat {:trigger Numbered(prefix, n)} :: 1 <= n <= hi ==>
      (Numbered(prefix, n) in r && Numbered(prefix, n) in fs && r[Numbered(prefix, n)] == fs[Numbered(prefix, n)])
  }

  /**
   * The dense case from position `i` on: the run succeeds, the numbered files
   * become exactly `prefix.1 .. prefix.|a|`, the file `prefix.a[j]` becomes
   * `prefix.(j + 1)` and the files renamed before `i` stay where they are.
   */
  lemma {:induction false} RunDense(fs: Dir, prefix: string, a: seq<nat>, i: nat)
    requires Increasing(a) && (|a| > 0 ==> a[0] >= 1) && i <= |a|
    requires NumberedAt(fs, prefix, a, i)
    ensures Run(fs, prefix, a, i).ok
    ensures NumberedAt(Run(fs, prefix, a, i).fs, prefix, a, |a|)
    ensures Moved(Run(fs, prefix, a, i).fs, fs, prefix, a, i, |a|)
    ensures Kept(Run(fs, prefix, a, i).fs, fs, prefix, i)
    decreases |a| - i
  {
    if i == |a| {
      assert forall n: nat {:trigger Numbered(prefix, n)} :: 1 <= n <= i ==> Numbered(prefix, n) in fs;
    } else {
      IncreasingFromOne(a, i);
      var oldName, newName := Numbered(prefix, a[i]), Numbered(prefix, i + 1);
      var next;
      if a[i] == i + 1 {
        DenseStay(fs, prefix, a, i);
        next := fs;
      } else {
        DenseMove(fs, prefix, a, i);
        NumberedEq(prefix, a[i], i + 1);
        next := Rename(fs, oldName, newName);
      }
      assert Run(fs, prefix, a, i) == Run(next, prefix, a, i + 1);
      RunDense(next, prefix, a, i + 1);
      DenseContents(fs, next, Run(next, prefix, a, i + 1).fs, prefix, a, i);
    }
  }

  /** The contents part of one step of `RunDense`. */
  lemma DenseContents(fs: Dir, next: Dir, r: Dir, prefix: string, a: seq<nat>, i: nat)
    requires Increasing(a) && i < |a| && a[i] >= i + 1
    requires NumberedAt(fs, prefix, a, i)
    requires Step(fs, next, prefix, a, i)
    requires Moved(r, next, prefix, a, i + 1, |a|)
    requires Kept(r, next, prefix, i + 1)
    ensures Moved(r, fs, prefix, a, i, |a|)
    ensures Kept(r, fs, prefix, i)
  {
    LaterUntouched(fs, next, prefix, a, i);
    EarlierUntouched(fs, next, prefix, a, i);
    assert Numbered(prefix, a[i]) in fs by {
      assert a[i..][0] == a[i];
    }
    assert next[Numbered(prefix, i + 1)] == fs[Numbered(prefix, a[i])];
    forall n: nat {:trigger Numbered(prefix, n)} | i < n <= |a|
      ensures Numbered(prefix, n) in r && Numbered(prefix, a[n - 1]) in fs && r[Numbered(prefix, n)] == fs[Numbered(prefix, a[n - 1])]
    {
      if n == i + 1 {
        assert Numbered(prefix, i + 1) in r && r[Numbered(prefix, i + 1)] == next[Numbered(prefix, i + 1)];
      } else {
        assert Numbered(prefix, n) in r && r[Numbered(prefix, n)] == next[Numbered(prefix, a[n - 1])];
      }
    }
  }

  /** `next` is `fs` after the step at position `i` of the dense case. */
  ghost predicate Step(fs: Dir, next: Dir, prefix: string, a: seq<nat>, i: nat)
    requires i < |a|
  {
    && (a[i] == i + 1 ==> next == fs)
    && (a[i] != i + 1 ==>
      (Numbered(prefix, a[i]) in fs && Numbered(prefix, i + 1) !in fs && next == Rename(fs, Numbered(prefix, a[i]), Numbered(prefix, i + 1))))
  }

  /** The step leaves the files still to be renamed alone. */
  lemma LaterUntouched(fs: Dir, next: Dir, prefix: string, a: seq<nat>, i: nat)
    requires Increasing(a) && i < |a| && a[i] >= i + 1
    requires NumberedAt(fs, prefix, a, i)
    requires Step(fs, next, prefix, a, i)
    ensures forall j :: i < j < |a| ==>
      (Numbered(prefix, a[j]) in fs && Numbered(prefix, a[j]) in next && next[Numbered(prefix, a[j])] == fs[Numbered(prefix, a[j])])
  {
    forall j | i < j < |a| ensures Numbered(prefix, a[j]) in fs && Numbered(prefix, a[j]) in next && next[Numbered(prefix, a[j])] == fs[Numbered(prefix, a[j])] {
      assert a[j] in a[i..] by {
        assert a[i..][j - i] == a[j];
      }
      NumberedEq(prefix, a[j], i + 1);
      NumberedEq(prefix, a[j], a[i]);
    }
  }

  /** The step leaves the files already renamed alone. */
  lemma EarlierUntouched(fs: Dir, next: Dir, prefix: string, a: seq<nat>, i: nat)
    requires Increasing(a) && i < |a| && a[i] >= i + 1
    requires NumberedAt(fs, prefix, a, i)
    requires Step(fs, next, prefix, a, i)
    ensures forall n: nat {:trigger Numbered(prefix, n)} :: 1 <= n <= i ==>
      (Numbered(prefix, n) in fs && Numbered(prefix, n) in next && next[Numbered(prefix, n)] == fs[Numbered(prefix, n)])
  {
    forall n: nat | 1 <= n <= i ensures Numbered(prefix, n) in fs && Numbered(prefix, n) in next && next[Numbered(prefix, n)] == fs[Numbered(prefix, n)] {
      NumberedEq(prefix, n, i + 1);
      NumberedEq(prefix, n, a[i]);
    }
  }

  /**
   * `rename_files_sequentially(file_list, prefix)` (utils.py:58-80). The new
   * state and the outcome are those of `Run` on the sorted indices.
   */
  method RenameFilesSequentially(fs: Dir, fileList: seq<string>, prefix: string) returns (result: Dir, ok: bool)
    ensures Outcome(result, ok) == Run(fs, prefix, SortBy(IndicesOf(fileList, prefix), AsKey), 0)
  {
    var indices := CollectIndices(fileList, prefix);
    indices := SortBy(indices, AsKey);
    result, ok := RenameInOrder(fs, prefix, indices);
  }

  /** The first loop of utils.py:64-68: the index of every name of the list that has one, in list order. */
  method CollectIndices(fileList: seq<string>, prefix: string) returns (indices: seq<nat>)
    ensures indices == IndicesOf(fileList, prefix)
  {
    indices := [];
    var k := 0;
    while k < |fileList|
      invariant 0 <= k <= |fileList|
      invariant indices == IndicesOf(fileList[..k], prefix)
    {
      var f := fileList[k];
      assert fileList[..k + 1][..k] == fileList[..k];
      var m := IndexOf(prefix, f);
      if m.Some? {
        indices := indices + [m.value];
      }
      k := k + 1;
    }
    assert fileList[..k] == fileList;
  }

  /**
   * The second loop of utils.py:74-80: index `indices[i]` becomes `i + 1`,
   * unless the two names agree or the new name exists; a missing old name
   * stops the run with the `FileNotFoundError` of `os.rename`.
   */
  method RenameInOrder(fs: Dir, prefix: string, indices: seq<nat>) returns (result: Dir, ok: bool)
    ensures Outcome(result, ok) == Run(fs, prefix, indices, 0)
  {
    result, ok := fs, true;
    var i := 0;
    while i < |indices|
      invariant 0 <= i <= |indices|
      invariant Run(fs, prefix, indices, 0) == Run(result, prefix, indices, i)
    {
      var newIdx, oldIdx := i + 1, indices[i];
      var oldName, newName := Numbered(prefix, oldIdx), Numbered(prefix, newIdx);
      if oldName != newName {
        if newName !in result {
          if oldName !in result {
            ok := false;
            return;
          }
          result := Rename(result, oldName, newName);
        }
      }
      i := i + 1;
    }
  }

  /**
   * The guarantee of utils.py:58-80 for a directory whose numbered files are
   * exactly the distinct positive indices named in `fileList`: afterwards the
   * numbered files are `prefix.1 .. prefix.k`, the i-th smallest old index now
   * holds number i, no file is lost and no other file is touched.
   */
  lemma RenumberDense(fs: Dir, idx: seq<nat>, prefix: string)
    requires forall i, j :: 0 <= i < j < |idx| ==> idx[i] != idx[j]
    requires forall n :: n in idx ==> n >= 1
    requires forall n: nat :: Numbered(prefix, n) in fs <==> n in idx
    ensures Run(fs, prefix, SortBy(idx, AsKey), 0).ok
    ensures forall n: nat :: Numbered(prefix, n) in Run(fs, prefix, SortBy(idx, AsKey), 0).fs <==> 1 <= n <= |idx|
    ensures Moved(Run(fs, prefix, SortBy(idx, AsKey), 0).fs, fs, prefix, SortBy(idx, AsKey), 0, |idx|)
    ensures |Run(fs, prefix, SortBy(idx, AsKey), 0).fs.Keys| == |fs.Keys|
    ensures forall x :: !IsNumbered(prefix, x) ==>
      (x in Run(fs, prefix, SortBy(idx, AsKey), 0).fs <==> x in fs)
      && (x in fs ==> Run(fs, prefix, SortBy(idx, AsKey), 0).fs[x] == fs[x])
  {
    var a := SortBy(idx, AsKey);
    SortedIndices(idx);
    assert NumberedAt(fs, prefix, a, 0) by {
      assert a[0..] == a;
    }
    RunDense(fs, prefix, a, 0);
    var r := Run(fs, prefix, a, 0).fs;
    assert a[|a|..] == [];
    RunKeepsCount(fs, prefix, a, 0);
    forall x | !IsNumbered(prefix, x) ensures (x in r <==> x in fs) && (x in fs ==> r[x] == fs[x]) {
      RunFrame(fs, prefix, a, 0, x);
    }
  }

  /** Sorting distinct positive indices gives an increasing sequence of the same indices. */
  lemma SortedIndices(idx: seq<nat>)
    requires forall i, j :: 0 <= i < j < |idx| ==> idx[i] != idx[j]
    requires forall n :: n in idx ==> n >= 1
    ensures Increasing(SortBy(idx, AsKey))
    ensures |idx| > 0 ==> SortBy(idx, AsKey)[0] >= 1
    ensures forall n :: n in SortBy(idx, AsKey) <==> n in idx
  {
    var a := SortBy(idx, AsKey);
    SortedDistinct(idx);
    forall n ensures n in a <==> n in idx {
      assert n in multiset(a) <==> n in multiset(idx);
    }
    if |a| > 0 {
      assert a[0] in idx;
    }
  }

  /** `"history.old" in file_path` (utils.py:91). */
  predicate IsOldPath(p: string) {
    Contains("history.old", p)
  }

  /** `history_files_old`: the old paths, in list order. */
  function Olds(files: seq<string>): (r: seq<string>)
    ensures forall p :: p in r <==> p in files && IsOldPath(p)
  {
    if files == [] then []
    else
      var init, last := files[..|files| - 1], files[|files| - 1];
      assert files == init + [last];
      Olds(init) + (if IsOldPath(last) then [last] else [])
  }

  /** `to_be_removed`. */
  function OldSet(files: seq<string>): (r: set<string>)
    ensures forall p :: p in r <==> p in files && IsOldPath(p)
  {
    if files == [] then {}
    else
      var init, last := files[..|files| - 1], files[|files| - 1];
      assert files == init + [last];
      OldSet(init) + (if IsOldPath(last) then {last} else {})
  }

  /** The paths that do not contain `history.old`, in list order. */
  function Others(files: seq<string>): (r: seq<string>)
    ensures forall p :: p in r <==> p in files && !IsOldPath(p)
  {
    if files == [] then []
    else (if IsOldPath(files[0]) then [] else [files[0]]) + Others(files[1..])
  }

  /** `s.remove(x)`: the first occurrence of `x` goes. */
  function RemoveFirst(s: seq<string>, x: string): seq<string>
    requires x in s
  {
    if s[0] == x then s[1..] else [s[0]] + RemoveFirst(s[1..], x)
  }

  /** The first occurrence of each member of `R` removed from `s`. */
  function RemoveFirsts(s: seq<string>, R: set<string>): seq<string> {
    if s == [] then []
    else if s[0] in R then RemoveFirsts(s[1..], R - {s[0]})
    else [s[0]] + RemoveFirsts(s[1..], R)
  }

  lemma {:induction false} RemoveFirstsNone(s: seq<string>)
    ensures RemoveFirsts(s, {}) == s
  {
    if s != [] {
      RemoveFirstsNone(s[1..]);
    }
  }

  lemma {:induction false} RemoveFirstsSubset(s: seq<string>, R: set<string>, p: string)
    requires p in RemoveFirsts(s, R)
    ensures p in s
  {
    if s[0] in R {
      RemoveFirstsSubset(s[1..], R - {s[0]}, p);
    } else if p != s[0] {
      RemoveFirstsSubset(s[1..], R, p);
    }
  }

  /** A path not yet removed is still in the list, so `list.remove` cannot raise. */
  lemma {:induction false} StillThere(s: seq<string>, D: set<string>, x: string)
    requires x in s && x !in D
    ensures x in RemoveFirsts(s, D)
  {
    if s[0] != x {
      if s[0] in D {
        StillThere(s[1..], D - {s[0]}, x);
      } else {
        StillThere(s[1..], D, x);
      }
    }
  }

  /** Removing one more path, whatever the order of the set iteration. */
  lemma {:induction false} RemoveFirstStep(s: seq<string>, D: set<string>, x: string)
    requires x in s && x !in D
    ensures x in RemoveFirsts(s, D)
    ensures RemoveFirst(RemoveFirsts(s, D), x) == RemoveFirsts(s, D + {x})
  {
    StillThere(s, D, x);
    if s[0] == x {
      assert D + {x} - {x} == D;
    } else if s[0] in D {
      RemoveFirstStep(s[1..], D - {s[0]}, x);
      assert D - {s[0]} + {x} == D + {x} - {s[0]};
    } else {
      RemoveFirstStep(s[1..], D, x);
    }
  }

  /** On a list without repeats, removing the old paths leaves exactly the others. */
  lemma {:induction false} RemoveOldsDistinct(s: seq<string>, R: set<string>)
    requires Distinct(s)
    requires forall p :: p in s ==> (p in R <==> IsOldPath(p))
    ensures RemoveFirsts(s, R) == Others(s)
  {
    if s != [] {
      assert Distinct(s[1..]);
      if s[0] in R {
        forall p | p in s[1..] ensures p in R - {s[0]} <==> IsOldPath(p) {
          var k :| 0 <= k < |s[1..]| && s[1..][k] == p;
          assert s[k + 1] == p;
        }
        RemoveOldsDistinct(s[1..], R - {s[0]});
      } else {
        RemoveOldsDistinct(s[1..], R);
      }
    }
  }

  /**
   * The two loops of utils.py:90-96: the paths containing `history.old` are
   * collected, then removed from the list one by one.
   */
  method SplitOld(historyFiles: seq<string>) returns (others: seq<string>, olds: seq<string>)
    ensures olds == Olds(historyFiles)
    ensures others == RemoveFirsts(historyFiles, OldSet(historyFiles))
    ensures Distinct(historyFiles) ==> others == Others(historyFiles)
  {
    var toBeRemoved;
    olds, toBeRemoved := CollectOlds(historyFiles);
    others := RemoveAll(historyFiles, toBeRemoved);
    if Distinct(historyFiles) {
      RemoveOldsDistinct(historyFiles, toBeRemoved);
    }
  }

  /** The first loop of utils.py:90-93: every path containing `history.old` goes to the list and to the set. */
  method CollectOlds(historyFiles: seq<string>) returns (olds: seq<string>, toBeRemoved: set<string>)
    ensures olds == Olds(historyFiles) && toBeRemoved == OldSet(historyFiles)
  {
    olds, toBeRemoved := [], {};
    var i := 0;
    while i < |historyFiles|
      invariant 0 <= i <= |historyFiles|
      invariant olds == Olds(historyFiles[..i])
      invariant toBeRemoved == OldSet(historyFiles[..i])
    {
      var filePath := historyFiles[i];
      assert historyFiles[..i + 1] == historyFiles[..i] + [filePath];
      if IsOldPath(filePath) {
        olds := olds + [filePath];
        toBeRemoved := toBeRemoved + {filePath};
      }
      i := i + 1;
    }
    assert historyFiles[..i] == historyFiles;
  }

  /** The second loop of utils.py:95-96: each path of the set is removed from the list, at its first occurrence. */
  method RemoveAll(historyFiles: seq<string>, toBeRemoved: set<string>) returns (others: seq<string>)
    requires toBeRemoved <= set p | p in historyFiles
    ensures others == RemoveFirsts(historyFiles, toBeRemoved)
  {
    others := historyFiles;
    RemoveFirstsNone(historyFiles);
    var pending := toBeRemoved;
    assert toBeRemoved - pending == {};
    while pending != {}
      invariant pending <= toBeRemoved
      invariant others == RemoveFirsts(historyFiles, toBeRemoved - pending)
      decreases pending
    {
      var filePath :| filePath in pending;
      RemoveFirstStep(historyFiles, toBeRemoved - pending, filePath);
      others := RemoveFirst(others, filePath);
      assert toBeRemoved - pending + {filePath} == toBeRemoved - (pending - {filePath});
      pending := pending - {filePath};
    }
    assert toBeRemoved - pending == toBeRemoved;
  }

  /**
   * `str(Path(d) / name)`, for a directory `d` written in the normal form of
   * `str(Path(d))`, where the current directory is `.`: pathlib drops it.
   */
  function PathJoin(d: string, name: string): (p: string)
    ensures d != "." ==> p == Join(d, name)
  {
    if d == "." then name else Join(d, name)
  }

  /** The two renumberings of utils.py:98-99; the second is not reached when the first raised. */
  function FillGapsWith(fs: Dir, historyFiles: seq<string>, historyPrefix: string, oldPrefix: string): Outcome {
    var others := RemoveFirsts(historyFiles, OldSet(historyFiles));
    var first := Run(fs, historyPrefix, SortBy(IndicesOf(others, historyPrefix), AsKey), 0);
    if !first.ok then first
    else Run(first.fs, oldPrefix, SortBy(IndicesOf(Olds(historyFiles), oldPrefix), AsKey), 0)
  }

  /**
   * `fill_gaps(dir_path)` (utils.py:82-99), with `d` the text of
   * `str(Path(dir_path))` and the walk of `d` given as `walk`; the prefixes
   * are `str(Path(d) / name)`, which differs from the joined path only for
   * `d == "."`.
   */
  method FillGaps(fs: Dir, d: string, walk: seq<WalkStep>) returns (result: Dir, ok: bool)
    ensures Outcome(result, ok) == FillGapsWith(fs, Matches(walk, IsHistoryName), PathJoin(d, "history"), PathJoin(d, "history.old"))
  {
    result, ok := RenumberFamilies(fs, walk, PathJoin(d, "history"), PathJoin(d, "history.old"));
  }

  /**
   * `fill_gaps` with the prefixes joined to `dir_path` as the walk joins the
   * paths it reports, so that `.` is kept in front.
   */
  method FillGapsJoined(fs: Dir, d: string, walk: seq<WalkStep>) returns (result: Dir, ok: bool)
    ensures Outcome(result, ok) == FillGapsWith(fs, Matches(walk, IsHistoryName), Join(d, "history"), Join(d, "history.old"))
  {
    result, ok := RenumberFamilies(fs, walk, Join(d, "history"), Join(d, "history.old"));
  }

  /** The body of `fill_gaps` once the two prefixes are known (utils.py:87-99). */
  method RenumberFamilies(fs: Dir, walk: seq<WalkStep>, historyPrefix: string, oldPrefix: string) returns (result: Dir, ok: bool)
    ensures Outcome(result, ok) == FillGapsWith(fs, Matches(walk, IsHistoryName), historyPrefix, oldPrefix)
  {
    var historyFiles := FindHistoryFiles(walk);
    var others, olds := SplitOld(historyFiles);
    result, ok := RenameFilesSequentially(fs, others, historyPrefix);
    if ok {
      result, ok := RenameFilesSequentially(result, olds, oldPrefix);
    }
  }

  /** The old family's prefix is the history prefix with `.old` added, however the directory is written. */
  lemma OldPrefixExtends(d: string)
    ensures Join(d, "history.old") == Join(d, "history") + ".old"
    ensures PathJoin(d, "history.old") == PathJoin(d, "history") + ".old"
  {
    var pre := if d == [] || d[|d| - 1] == '/' then d else d + "/";
    assert Join(d, "history.old") == pre + "history.old" && Join(d, "history") == pre + "history";
  }

  /** `prefix.n` and `prefix.old.m` are different names: after the `.` one has a digit, the other an `o`. */
  lemma FamiliesApart(prefix: string)
    ensures forall n: nat :: !IsNumbered(prefix + ".old", Numbered(prefix, n))
    ensures forall m: nat :: !IsNumbered(prefix, Numbered(prefix + ".old", m))
  {
    forall n: nat, m: nat ensures Numbered(prefix, n) != Numbered(prefix + ".old", m) {
      var x, y := Numbered(prefix, n), Numbered(prefix + ".old", m);
      assert x[|prefix| + 1] == NatToString(n)[0];
      assert y[|prefix| + 1] == 'o';
    }
  }

  /** The numbered files of `prefix` are exactly `prefix.n` for the distinct positive indices `idx`. */
  ghost predicate DenseFamily(fs: Dir, idx: seq<nat>, prefix: string) {
    && (forall i, j :: 0 <= i < j < |idx| ==> idx[i] != idx[j])
    && (forall n :: n in idx ==> n >= 1)
    && (forall n: nat :: Numbered(prefix, n) in fs <==> n in idx)
  }

  /**
   * The guarantee of `fill_gaps` (utils.py:82-99) when each family is dense:
   * both renumberings succeed, the history rotations become `prefix.1 ..
   * prefix.k` and the old ones `prefix.old.1 .. prefix.old.m`, each in the
   * order of its old indices and with its content, no file is lost and no
   * other file is touched.
   */
  lemma RenumberBothFamilies(fs: Dir, files: seq<string>, prefix: string)
    requires Distinct(files)
    requires DenseFamily(fs, IndicesOf(Others(files), prefix), prefix)
    requires DenseFamily(fs, IndicesOf(Olds(files), prefix + ".old"), prefix + ".old")
    ensures var r, hi, oi := FillGapsWith(fs, files, prefix, prefix + ".old"), IndicesOf(Others(files), prefix), IndicesOf(Olds(files), prefix + ".old");
      && r.ok
      && (forall n: nat :: Numbered(prefix, n) in r.fs <==> 1 <= n <= |hi|)
      && (forall n: nat :: Numbered(prefix + ".old", n) in r.fs <==> 1 <= n <= |oi|)
      && Moved(r.fs, fs, prefix, SortBy(hi, AsKey), 0, |hi|)
      && Moved(r.fs, fs, prefix + ".old", SortBy(oi, AsKey), 0, |oi|)
      && |r.fs.Keys| == |fs.Keys|
      && (forall x :: !IsNumbered(prefix, x) && !IsNumbered(prefix + ".old", x) ==>
            (x in r.fs <==> x in fs) && (x in fs ==> r.fs[x] == fs[x]))
  {
    var old_ := prefix + ".old";
    var hi, oi := IndicesOf(Others(files), prefix), IndicesOf(Olds(files), old_);
    var a, b := SortBy(hi, AsKey), SortBy(oi, AsKey);
    RemoveOldsDistinct(files, OldSet(files));
    FamiliesApart(prefix);
    RenumberDense(fs, hi, prefix);
    var first := Run(fs, prefix, a, 0);
    assert DenseFamily(first.fs, oi, old_) by {
      forall n: nat ensures Numbered(old_, n) in first.fs <==> n in oi {
        RunFrame(fs, prefix, a, 0, Numbered(old_, n));
      }
    }
    RenumberDense(first.fs, oi, old_);
    var r := Run(first.fs, old_, b, 0);
    assert FillGapsWith(fs, files, prefix, old_) == Outcome(r.fs, r.ok);
    SecondKeepsFirst(fs, first.fs, r.fs, prefix, a, |hi|);
    SecondMovesOld(fs, first.fs, r.fs, prefix, old_, b, |oi|);
  }

  /**
   * `fill_gaps` with joined prefixes on a directory whose two families are
   * dense: both renumberings succeed and close every gap.
   */
  lemma FillGapsJoinedCloses(fs: Dir, d: string, walk: seq<WalkStep>)
    requires Distinct(Matches(walk, IsHistoryName))
    requires DenseFamily(fs, IndicesOf(Others(Matches(walk, IsHistoryName)), Join(d, "history")), Join(d, "history"))
    requires DenseFamily(fs, IndicesOf(Olds(Matches(walk, IsHistoryName)), Join(d, "history.old")), Join(d, "history.old"))
    ensures var files := Matches(walk, IsHistoryName);
      var r := FillGapsWith(fs, files, Join(d, "history"), Join(d, "history.old"));
      && r.ok
      && (forall n: nat :: Numbered(Join(d, "history"), n) in r.fs <==> 1 <= n <= |IndicesOf(Others(files), Join(d, "history"))|)
      && (forall n: nat :: Numbered(Join(d, "history.old"), n) in r.fs <==> 1 <= n <= |IndicesOf(Olds(files), Join(d, "history.old"))|)
  {
    OldPrefixExtends(d);
    RenumberBothFamilies(fs, Matches(walk, IsHistoryName), Join(d, "history"));
  }

  /** The second renumbering leaves the files the first one placed alone. */
  lemma SecondKeepsFirst(fs: Dir, mid: Dir, r: Dir, prefix: string, a: seq<nat>, k: nat)
    requires k <= |a|
    requires Moved(mid, fs, prefix, a, 0, k)
    requires forall x :: x in mid && IsNumbered(prefix, x) ==> x in r && r[x] == mid[x]
    ensures Moved(r, fs, prefix, a, 0, k)
  {
    forall n: nat {:trigger Numbered(prefix, n)} | 0 < n <= k
      ensures Numbered(prefix, n) in r && Numbered(prefix, a[n - 1]) in fs && r[Numbered(prefix, n)] == fs[Numbered(prefix, a[n - 1])]
    {
      var x := Numbered(prefix, n);
      assert x in mid;
      assert IsNumbered(prefix, x);
    }
    forall j | 0 <= j < k ensures Numbered(prefix, a[j]) in fs {
      assert Numbered(prefix, j + 1) in mid;
    }
  }

  /** The first renumbering leaves the old family alone, so the second one moves the original old files. */
  lemma SecondMovesOld(fs: Dir, mid: Dir, r: Dir, prefix: string, old_: string, b: seq<nat>, k: nat)
    requires k <= |b|
    requires Moved(r, mid, old_, b, 0, k)
    requires forall x :: !IsNumbered(prefix, x) ==> (x in mid <==> x in fs) && (x in fs ==> mid[x] == fs[x])
    requires forall m: nat :: !IsNumbered(prefix, Numbered(old_, m))
    ensures Moved(r, fs, old_, b, 0, k)
  {
    forall n: nat {:trigger Numbered(old_, n)} | 0 < n <= k
      ensures Numbered(old_, n) in r && Numbered(old_, b[n - 1]) in fs && r[Numbered(old_, n)] == fs[Numbered(old_, b[n - 1])]
    {
      assert Numbered(old_, n) in r;
      var m := b[n - 1];
      assert Numbered(old_, m) in mid;
      assert !IsNumbered(prefix, Numbered(old_, m));
    }
    forall j | 0 <= j < k ensures Numbered(old_, b[j]) in fs {
      assert Numbered(old_, j + 1) in r;
      assert !IsNumbered(prefix, Numbered(old_, b[j]));
    }
  }

  /** No index is found in a list none of whose paths matches. */
  lemma {:induction false} IndicesNone(files: seq<string>, prefix: string)
    requires forall p :: p in files ==> IndexOf(prefix, p) == None
    ensures IndicesOf(files, prefix) == []
  {
    if files != [] {
      IndicesNone(files[..|files| - 1], prefix);
    }
  }

  /**
   * As written, `fill_gaps(".")` renames nothing: the walk of `.` yields paths
   * such as `./history.3`, while the prefix `str(Path(".") / "history")` is
   * `history`, which no such path begins with.
   */
  lemma DotFillGapsRenamesNothing(fs: Dir, walk: seq<WalkStep>)
    requires forall i :: 0 <= i < |walk| ==> |walk[i].root| > 0 && walk[i].root[0] == '.'
    ensures FillGapsWith(fs, Matches(walk, IsHistoryName), PathJoin(".", "history"), PathJoin(".", "history.old")) == Outcome(fs, true)
  {
    var files := Matches(walk, IsHistoryName);
    forall p | p in files ensures |p| > 0 && p[0] == '.' && IndexOf("history", p) == None && IndexOf("history.old", p) == None {
      MatchesIff(walk, IsHistoryName, p);
      var i, j :| Found(walk, IsHistoryName, p, i, j);
      assert p[0] == walk[i].root[0];
    }
    var others := RemoveFirsts(files, OldSet(files));
    forall p | p in others ensures IndexOf("history", p) == None {
      RemoveFirstsSubset(files, OldSet(files), p);
    }
    IndicesNone(others, "history");
    IndicesNone(Olds(files), "history.old");
  }

  /** Every name of `names` joined to the directory `d`. */
  function JoinAll(d: string, names: seq<string>): (r: seq<string>)
    ensures |r| == |names|
  {
    if names == [] then [] else JoinAll(d, names[..|names| - 1]) + [Join(d, names[|names| - 1])]
  }

  /** With the prefix joined as the walk joins its paths, a path under `d` is numbered as its name is. */
  lemma JoinedIndex(d: string, stem: string, f: string)
    ensures IndexOf(Join(d, stem), Join(d, f)) == IndexOf(stem, f)
  {
    var pre := if d == [] || d[|d| - 1] == '/' then d else d + "/";
    assert Join(d, stem) == pre + stem && Join(d, f) == pre + f;
    SharedLeadIndex(pre, stem, f);
  }

  lemma SharedLeadIndex(pre: string, stem: string, f: string)
    ensures IndexOf(pre + stem, pre + f) == IndexOf(stem, f)
  {
    PrefixMatchesShared(pre, stem, f);
    var P, F := pre + stem, pre + f;
    if |F| > |P| + 1 {
      assert F[|P|] == f[|stem|];
      assert F[|P| + 1..] == f[|stem| + 1..];
    }
  }

  /** A common lead matches itself, so it does not change whether the rest matches. */
  lemma PrefixMatchesShared(pre: string, stem: string, f: string)
    ensures PrefixMatches(pre + stem, pre + f) <==> PrefixMatches(stem, f)
  {
    var P, F := pre + stem, pre + f;
    if PrefixMatches(stem, f) {
      forall k | 0 <= k < |P| ensures if P[k] == '.' then F[k] != '\n' else F[k] == P[k] {
        if k >= |pre| {
          assert P[k] == stem[k - |pre|] && F[k] == f[k - |pre|];
        }
      }
    }
    if PrefixMatches(P, F) {
      forall k | 0 <= k < |stem| ensures if stem[k] == '.' then f[k] != '\n' else f[k] == stem[k] {
        assert P[|pre| + k] == stem[k] && F[|pre| + k] == f[k];
      }
    }
  }

  /**
   * With the prefix built by `os.path.join(dir_path, "history")`, the rotations
   * directly under `d` are found exactly as they are by their bare names, `.`
   * included.
   */
  lemma {:induction false} CorrectedPrefixSeesTopLevel(d: string, stem: string, names: seq<string>)
    ensures IndicesOf(JoinAll(d, names), Join(d, stem)) == IndicesOf(names, stem)
  {
    if names != [] {
      var init := names[..|names| - 1];
      CorrectedPrefixSeesTopLevel(d, stem, init);
      JoinedIndex(d, stem, names[|names| - 1]);
      assert JoinAll(d, names)[..|names| - 1] == JoinAll(d, init);
    }
  }
}

=== FILE: rotation.dfy ===
/**
 * `max_index` of utils.py: the highest rotation number among the names
 * `filename.N` and `filename.N.gz` of a directory.
 */
module Rotation {
  import opened Wrappers
  import opened Text

  /**
   * The `number` group of `re.search(r"\.(?P<number>\d+)(?:\.gz)?$", name)`,
   * as `int`: the digits between the last `.` and the end of the name, or
   * before a final `.gz`.
   */
  function SuffixNumber(name: string): Option<nat> {
    var core := StripGz(name);
    var k := TrailingDigits(core);
    if 0 < k < |core| && core[|core| - k - 1] == '.' then Some(Value(core[|core| - k..])) else None
  }

  /** `name` ends in `.gz`. */
  predicate GzSuffix(name: string) {
    |name| >= 3 && name[|name| - 3] == '.' && name[|name| - 2] == 'g' && name[|name| - 1] == 'z'
  }

  /** `name` without a final `.gz`. */
  function StripGz(name: string): (core: string)
    ensures GzSuffix(name) ==> name == core + ".gz"
    ensures !GzSuffix(name) ==> core == name
  {
    if GzSuffix(name) then
      assert name[|name| - 3..] == ".gz";
      assert name == name[..|name| - 3] + name[|name| - 3..];
      name[..|name| - 3]
    else name
  }

  /** `name` ends in `.D` or `.D.gz` for a non-empty run of digits `D`. */
  predicate RotationSuffix(name: string, digits: string) {
    |digits| > 0 && AllDigits(digits) && (EndsWith(name, "." + digits) || EndsWith(name, "." + digits + ".gz"))
  }

  /** `name` is a rotation with number `n`. */
  ghost predicate IsRotation(name: string, n: nat) {
    exists digits :: RotationSuffix(name, digits) && Value(digits) == n
  }

  /** The run of digits after a dot at the end of `core` is a rotation suffix. */
  lemma DotRun(core: string, k: nat)
    requires 0 < k < |core| && core[|core| - k - 1] == '.'
    requires forall i :: |core| - k <= i < |core| ==> IsDigit(core[i])
    ensures |core[|core| - k..]| > 0 && AllDigits(core[|core| - k..])
    ensures EndsWith(core, "." + core[|core| - k..])
  {
    assert core[|core| - k - 1..] == "." + core[|core| - k..];
  }

  lemma SuffixNumberSound(name: string)
    requires SuffixNumber(name).Some?
    ensures IsRotation(name, SuffixNumber(name).value)
  {
    var core := StripGz(name);
    var k := TrailingDigits(core);
    DotRun(core, k);
    var digits := core[|core| - k..];
    if GzSuffix(name) {
      EndsWithAppend(core, "." + digits, ".gz");
    }
    assert RotationSuffix(name, digits);
  }

  lemma DotDigitsAtEnd(core: string, digits: string)
    requires |digits| > 0 && AllDigits(digits) && EndsWith(core, "." + digits)
    ensures TrailingDigits(core) == |digits|
    ensures core[|core| - |digits|..] == digits && core[|core| - |digits| - 1] == '.'
  {
    var tail := core[|core| - |digits| - 1..];
    assert tail == "." + digits;
    assert core[|core| - |digits|..] == tail[1..];
    assert core[|core| - |digits| - 1] == tail[0];
  }

  lemma GzTail(name: string, digits: string)
    requires EndsWith(name, "." + digits + ".gz")
    ensures GzSuffix(name) && EndsWith(StripGz(name), "." + digits)
  {
    var t := "." + digits + ".gz";
    var tail := name[|name| - |t|..];
    assert name[|name| - 3] == tail[|t| - 3];
    assert name[|name| - 2] == tail[|t| - 2];
    assert name[|name| - 1] == tail[|t| - 1];
    var core := StripGz(name);
    assert core[|core| - |digits| - 1..] == tail[..|digits| + 1];
  }

  lemma DigitTail(name: string, digits: string)
    requires |digits| > 0 && AllDigits(digits) && EndsWith(name, "." + digits)
    ensures !GzSuffix(name) && EndsWith(StripGz(name), "." + digits)
  {
    var t := "." + digits;
    assert name[|name| - 1] == name[|name| - |t|..][|t| - 1];
  }

  lemma CoreEndsWith(name: string, digits: string)
    requires RotationSuffix(name, digits)
    ensures EndsWith(StripGz(name), "." + digits)
  {
    if EndsWith(name, "." + digits + ".gz") {
      GzTail(name, digits);
    } else {
      DigitTail(name, digits);
    }
  }

  lemma SuffixNumberComplete(name: string, digits: string)
    requires RotationSuffix(name, digits)
    ensures SuffixNumber(name) == Some(Value(digits))
  {
    CoreEndsWith(name, digits);
    DotDigitsAtEnd(StripGz(name), digits);
  }

  /** `SuffixNumber` finds exactly the rotation numbers. */
  lemma SuffixNumberIff(name: string, n: nat)
    ensures SuffixNumber(name) == Some(n) <==> IsRotation(name, n)
  {
    if SuffixNumber(name) == Some(n) {
      SuffixNumberSound(name);
    }
    if IsRotation(name, n) {
      var digits :| RotationSuffix(name, digits) && Value(digits) == n;
      SuffixNumberComplete(name, digits);
    }
  }

  /** A name that `dest_dir.glob(f"{filename}*")` yields and that carries a rotation number. */
  predicate Candidate(filename: string, name: string) {
    StartsWith(name, filename) && SuffixNumber(name).Some?
  }

  /** The rotation number `name` contributes to the search: its own when it is a candidate, else 0. */
  function Contribution(filename: string, name: string): nat {
    if Candidate(filename, name) then SuffixNumber(name).value else 0
  }

  /** The largest rotation number among the candidates of `names`, or 0. */
  function LargestRotation(filename: string, names: seq<string>): nat {
    if names == [] then 0
    else
      var m, c := LargestRotation(filename, names[..|names| - 1]), Contribution(filename, names[|names| - 1]);
      if c > m then c else m
  }

  /** One more name raises the largest number to its own contribution, or leaves it. */
  lemma LargestRotationStep(filename: string, names: seq<string>)
    requires names != []
    ensures var r, m, c := LargestRotation(filename, names), LargestRotation(filename, names[..|names| - 1]), Contribution(filename, names[|names| - 1]);
      m <= r && c <= r && (r == m || r == c)
  {
  }

  /** Reading one more name of the listing. */
  lemma LargestRotationPrefix(filename: string, names: seq<string>, i: nat)
    requires i < |names|
    ensures var m, c := LargestRotation(filename, names[..i]), Contribution(filename, names[i]);
      LargestRotation(filename, names[..i + 1]) == if c > m then c else m
  {
    assert names[..i + 1][..i] == names[..i];
  }

  /**
   * No candidate carries a larger number than `LargestRotation`, and the
   * value is 0 or the number of one of them.
   */
  lemma {:induction false} LargestRotationIsMax(filename: string, names: seq<string>)
    ensures var r := LargestRotation(filename, names);
      (forall i :: 0 <= i < |names| && Candidate(filename, names[i]) ==> SuffixNumber(names[i]).value <= r)
      && (r == 0 || exists i :: 0 <= i < |names| && Candidate(filename, names[i]) && SuffixNumber(names[i]).value == r)
  {
    if names != [] {
      var init, last := names[..|names| - 1], names[|names| - 1];
      LargestRotationIsMax(filename, init);
      LargestRotationStep(filename, names);
      var m, r := LargestRotation(filename, init), LargestRotation(filename, names);
      forall i | 0 <= i < |names| && Candidate(filename, names[i])
        ensures SuffixNumber(names[i]).value <= r
      {
        if i < |init| {
          assert names[i] == init[i];
        } else {
          assert names[i] == last;
          assert Contribution(filename, last) == SuffixNumber(last).value;
        }
      }
      if r != 0 {
        if r == Contribution(filename, last) {
          assert Candidate(filename, names[|names| - 1]);
        } else {
          var i :| 0 <= i < |init| && Candidate(filename, init[i]) && SuffixNumber(init[i]).value == m;
          assert names[i] == init[i];
        }
      }
    }
  }

  /**
   * `max_index` (utils.py:7-24) over the names of `dest_dir` in listing order:
   * the largest rotation number of a name starting with `filename`, or 0.
   */
  method MaxIndex(filename: string, names: seq<string>) returns (maxN: nat)
    ensures maxN == LargestRotation(filename, names)
  {
    maxN := 0;
    var i := 0;
    while i < |names|
      invariant 0 <= i <= |names|
      invariant maxN == LargestRotation(filename, names[..i])
    {
      var p := names[i];
      LargestRotationPrefix(filename, names, i);
      if StartsWith(p, filename) {
        var m := SuffixNumber(p);
        if m.Some? {
          var n := m.value;
          if n > maxN {
            maxN := n;
          }
        }
      }
      i := i + 1;
    }
    assert names[..i] == names;
  }
}

=== FILE: session.dfy ===
/**
 * `calculate_duration` and `extract_data` of manage_history_files.py:54-131:
 * one session buffer is split into lines, its header gives the date and the
 * start clock, its trailer (or, failing that, the last line with a leading
 * clock) the end clock, and the duration is either stated by the trailer or
 * computed from the two clocks.
 */
module Session {
  import opened Wrappers
  import opened Text
  import opened Patterns
  import opened ManagePatterns
  import opened Calendar
  import opened Lines

  // ---------------------------------------------------------------------------
  // calculate_duration

  /** The line matches `date_time_start_pattern` once stripped. */
  predicate IsHeaderText(line: string) {
    DateTimeStart(RStrip(line)).Some?
  }

  /**
   * The date the session ends on: the date of the last header line of the
   * buffer, or `date` when the buffer has none (the loop keeps `new_date`
   * only when it differs from `date`, which comes to the same).
   */
  function EndDate(lines: seq<string>, date: string): (d: string)
    requires IsDate(date)
    ensures IsDate(d)
    ensures (forall k :: 0 <= k < |lines| ==> !IsHeaderText(lines[k])) ==> d == date
  {
    match LastWhere(lines, |lines|, IsHeaderText)
    case None => date
    case Some(k) =>
      var newDate := DateTimeStart(RStrip(lines[k])).value.date;
      DateTimeStartCaptures(RStrip(lines[k]));
      if newDate != date then newDate else date
  }

  /** Otherwise the session ends on the date of the last header line. */
  lemma EndDateLastHeader(lines: seq<string>, date: string, k: nat)
    requires IsDate(date) && k < |lines| && IsHeaderText(lines[k])
    requires forall j :: k < j < |lines| ==> !IsHeaderText(lines[j])
    ensures EndDate(lines, date) == DateTimeStart(RStrip(lines[k])).value.date
  {
    var r := LastWhere(lines, |lines|, IsHeaderText);
    assert r == Some(k) by {
      assert r.Some?;
      assert r.value <= k;
    }
  }

  /**
   * `calculate_duration(lines, date, start, end)`: the time from `date` at
   * `start` to the end date at `end` as `HH:MM:SS h`, or `Error` when either
   * instant is not a valid datetime (a missing start among them).
   */
  function CalculateDuration(lines: seq<string>, date: string, start: Option<string>, end: string): string
    requires IsDate(date) && (start.Some? ==> IsClock(start.value)) && IsClock(end)
  {
    DurationText(Elapsed(lines, date, start, end))
  }

  /** The seconds from `date` at `start` to the end date at `end`, when both are datetimes. */
  function Elapsed(lines: seq<string>, date: string, start: Option<string>, end: string): (r: Option<int>)
    requires IsDate(date) && (start.Some? ==> IsClock(start.value)) && IsClock(end)
    ensures r.Some? <==> ParseStamp(date, start).Some? && ParseStamp(EndDate(lines, date), Some(end)).Some?
  {
    var a, b := ParseStamp(date, start), ParseStamp(EndDate(lines, date), Some(end));
    if a.Some? && b.Some? then Some(Seconds(b.value) - Seconds(a.value)) else None
  }

  /**
   * The result is `Error` exactly when an instant does not parse; otherwise
   * it reads back as the seconds between the two instants.
   */
  lemma CalculateDurationMeaning(lines: seq<string>, date: string, start: Option<string>, end: string)
    requires IsDate(date) && (start.Some? ==> IsClock(start.value)) && IsClock(end)
    ensures var r := CalculateDuration(lines, date, start, end);
      ParseDuration(r) == Elapsed(lines, date, start, end)
      && (r == "Error" <==> Elapsed(lines, date, start, end).None?)
  {
    DurationTextRoundTrip(Elapsed(lines, date, start, end));
  }

  // ---------------------------------------------------------------------------
  // extract_data

  /** The 4-tuple `extract_data` returns, or the bare `None` it falls through to. */
  datatype Extracted =
    | Extracted(date: Option<string>, start: Option<string>, end: Option<string>, duration: Option<string>)
    | NoTuple

  /** `(None, None, None, None)`. */
  const Nothing := Extracted(None, None, None, None)

  /** The line starts with a clock (`end_pattern`, once stripped). */
  predicate HasLeadTime(line: string) {
    LeadTime(RStrip(line)).Some?
  }

  /** The stated duration of a trailer, or the computed one. */
  function TrailerDuration(lines: seq<string>, date: string, start: Option<string>, m: Ending): (r: string)
    requires IsDate(date) && (start.Some? ==> IsClock(start.value)) && IsClock(m.end)
    ensures m.durationH.Some? ==> r == m.durationH.value + " h"
    ensures m.durationH.None? && m.durationS.Some? ==> r == m.durationS.value + " s"
    ensures m.durationH.None? && m.durationS.None? ==> r == CalculateDuration(lines, date, start, m.end)
  {
    if m.durationH.Some? then m.durationH.value + " h"
    else if m.durationS.Some? then m.durationS.value + " s"
    else CalculateDuration(lines, date, start, m.end)
  }

  /** The start clock: the header's, or else that of the third line (`start_pattern`). */
  function StartOf(lines: seq<string>, h: Header): (r: Option<string>)
    requires h.start.Some? || |lines| >= 3
    requires h.start.Some? ==> IsClock(h.start.value)
    ensures r.Some? ==> IsClock(r.value)
    ensures h.start.Some? ==> r == h.start
    ensures h.start.None? ==> r == LeadTime(RStrip(lines[2]))
  {
    if h.start.Some? then h.start
    else
      LeadTimeCaptures(RStrip(lines[2]));
      LeadTime(RStrip(lines[2]))
  }

  /**
   * The record of a buffer whose header gave `date` and `start`: the trailer
   * of the last line, or else the last line with a leading clock, gives the
   * end; with neither, `extract_data` falls off its end and returns `None`.
   */
  function Ended(lines: seq<string>, date: string, start: Option<string>): (r: Extracted)
    requires lines != [] && IsDate(date) && (start.Some? ==> IsClock(start.value))
    ensures r == NoTuple <==> EndDuration(RStrip(lines[|lines| - 1])).None? && forall k :: 0 <= k < |lines| ==> !HasLeadTime(lines[k])
    ensures r.Extracted? ==> r.date == Some(date) && r.start == start && r.end.Some? && IsClock(r.end.value) && r.duration.Some?
    ensures var m := EndDuration(RStrip(lines[|lines| - 1]));
      m.Some? ==> IsClock(m.value.end) && r == Extracted(Some(date), start, Some(m.value.end), Some(TrailerDuration(lines, date, start, m.value)))
    ensures EndDuration(RStrip(lines[|lines| - 1])).None? && r.Extracted? ==>
      exists k :: 0 <= k < |lines| && HasLeadTime(lines[k]) && (forall j :: k < j < |lines| ==> !HasLeadTime(lines[j]))
        && r.end == LeadTime(RStrip(lines[k])) && r.duration == Some(CalculateDuration(lines, date, start, r.end.value))
  {
    var last := RStrip(lines[|lines| - 1]);
    match EndDuration(last)
    case Some(m) =>
      EndDurationCaptures(last);
      Extracted(Some(date), start, Some(m.end), Some(TrailerDuration(lines, date, start, m)))
    case None =>
      match LastWhere(lines, |lines|, HasLeadTime)
      case None => NoTuple
      case Some(k) =>
        var end := LeadTime(RStrip(lines[k])).value;
        LeadTimeCaptures(RStrip(lines[k]));
        Extracted(Some(date), start, Some(end), Some(CalculateDuration(lines, date, start, end)))
  }

  /** `extract_data` on the lines of the buffer. */
  function ExtractLines(lines: seq<string>): (r: Extracted)
    ensures r == Nothing <==>
      lines == [] || DateTimeStart(RStrip(lines[0])).None?
      || (DateTimeStart(RStrip(lines[0])).value.start.None? && |lines| < 3)
  {
    if lines == [] then Nothing
    else
      match DateTimeStart(RStrip(lines[0]))
      case None => Nothing
      case Some(h) =>
        if h.start.None? && |lines| < 3 then Nothing
        else
          DateTimeStartCaptures(RStrip(lines[0]));
          Ended(lines, h.date, StartOf(lines, h))
  }

  /**
   * `extract_data(buffer)` (manage_history_files.py:88-131). The
   * `IndexError` of reading the third line of a buffer of fewer than three
   * lines is caught and gives `Nothing`.
   */
  function ExtractData(buffer: string): Extracted {
    ExtractLines(SplitLines(buffer))
  }

  /** The program stops on a buffer whose header is followed by no clock at all. */
  lemma ExtractDataNoTuple(buffer: string)
    ensures var lines := SplitLines(buffer);
      ExtractData(buffer) == NoTuple <==>
        lines != [] && DateTimeStart(RStrip(lines[0])).Some?
        && !(DateTimeStart(RStrip(lines[0])).value.start.None? && |lines| < 3)
        && EndDuration(RStrip(lines[|lines| - 1])).None?
        && forall k :: 0 <= k < |lines| ==> !HasLeadTime(lines[k])
  {
    var lines := SplitLines(buffer);
    if lines != [] && DateTimeStart(RStrip(lines[0])).Some? {
      var h := DateTimeStart(RStrip(lines[0])).value;
      if !(h.start.None? && |lines| < 3) {
        DateTimeStartCaptures(RStrip(lines[0]));
        assert ExtractData(buffer) == Ended(lines, h.date, StartOf(lines, h));
      }
    }
  }

  /**
   * A record is never half filled: once the header gives a date, the end and
   * the duration are there too; the date and the start are the header's.
   */
  lemma ExtractDataComplete(buffer: string)
    requires ExtractData(buffer).Extracted? && ExtractData(buffer).date.Some?
    ensures var lines, r := SplitLines(buffer), ExtractData(buffer);
      var h := DateTimeStart(RStrip(lines[0])).value;
      lines != [] && DateTimeStart(RStrip(lines[0])).Some?
      && r.date == Some(h.date) && (h.start.Some? ==> r.start == h.start)
      && r.end.Some? && IsClock(r.end.value) && r.duration.Some?
  {
  }

  /** A buffer that opens with a started header and closes with a trailer gives their groups. */
  lemma HeaderAndTrailer(lines: seq<string>, date: string, start: string, m: Ending)
    requires lines != [] && DateTimeStart(RStrip(lines[0])) == Some(Header(date, Some(start)))
    requires EndDuration(RStrip(lines[|lines| - 1])) == Some(m)
    ensures IsDate(date) && IsClock(start) && IsClock(m.end)
    ensures ExtractLines(lines) == Extracted(Some(date), Some(start), Some(m.end), Some(TrailerDuration(lines, date, Some(start), m)))
  {
    DateTimeStartCaptures(RStrip(lines[0]));
    EndDurationCaptures(RStrip(lines[|lines| - 1]));
  }

  /**
   * A session whose only header is its first line, carrying a start clock,
   * and whose last line is a trailer without a stated duration: the record
   * holds the header's date and start, the trailer's end, and the duration
   * computed from start to end on the header's day.
   */
  lemma SessionRecord(lines: seq<string>, date: string, start: string, end: string)
    requires lines != [] && DateTimeStart(RStrip(lines[0])) == Some(Header(date, Some(start)))
    requires EndDuration(RStrip(lines[|lines| - 1])) == Some(Ending(end, None, None))
    requires forall i :: 1 <= i < |lines| ==> !IsHeaderText(lines[i])
    ensures IsDate(date) && IsClock(start) && IsClock(end) && EndDate(lines, date) == date
    ensures ExtractLines(lines) == Extracted(Some(date), Some(start), Some(end), Some(CalculateDuration(lines, date, Some(start), end)))
  {
    HeaderAndTrailer(lines, date, start, Ending(end, None, None));
    EndDateLastHeader(lines, date, 0);
  }
}

=== FILE: sorting.dfy ===
/**
 * Python's `sorted(xs, key=k)` and `list.sort()`: a stable sort. With
 * `reverse=True` Python still keeps equal keys in their original order, which is
 * the same as a stable ascending sort on the negated key; callers do that.
 */
module Sorting {

  predicate SortedBy<T>(s: seq<T>, key: T -> int) {
    forall i, j :: 0 <= i < j < |s| ==> key(s[i]) <= key(s[j])
  }

  /** The elements of `s` whose key is `k`, in their order in `s`. */
  function WithKey<T>(s: seq<T>, key: T -> int, k: int): seq<T> {
    if s == [] then []
    else (if key(s[0]) == k then [s[0]] else []) + WithKey(s[1..], key, k)
  }

  /** Puts `x` in front of the first element whose key is not smaller than its own. */
  function Insert<T>(x: T, s: seq<T>, key: T -> int): (r: seq<T>)
    ensures multiset(r) == multiset(s) + multiset{x}
  {
    if s == [] || key(x) <= key(s[0]) then [x] + s
    else
      assert s == [s[0]] + s[1..];
      [s[0]] + Insert(x, s[1..], key)
  }

  lemma {:induction false} InsertSorted<T>(x: T, s: seq<T>, key: T -> int)
    requires SortedBy(s, key)
    ensures SortedBy(Insert(x, s, key), key)
  {
    if s == [] || key(x) <= key(s[0]) {
    } else {
      var rest := Insert(x, s[1..], key);
      InsertSorted(x, s[1..], key);
      assert s == [s[0]] + s[1..];
      forall j | 0 <= j < |rest| ensures key(s[0]) <= key(rest[j]) {
        assert rest[j] in multiset(rest);
        assert rest[j] == x || rest[j] in multiset(s[1..]);
      }
    }
  }

  /** Inserting never moves `x` past an element with its own key. */
  lemma {:induction false} InsertWithKey<T>(x: T, s: seq<T>, key: T -> int, k: int)
    ensures WithKey(Insert(x, s, key), key, k) == (if key(x) == k then [x] else []) + WithKey(s, key, k)
  {
    if s == [] || key(x) <= key(s[0]) {
      assert ([x] + s)[1..] == s;
    } else {
      var rest := Insert(x, s[1..], key);
      InsertWithKey(x, s[1..], key, k);
      assert ([s[0]] + rest)[1..] == rest;
    }
  }

  /** A stable insertion sort, ascending by `key`. */
  function SortBy<T>(s: seq<T>, key: T -> int): (r: seq<T>)
    ensures |r| == |s| && multiset(r) == multiset(s)
  {
    if s == [] then []
    else
      var r := Insert(s[0], SortBy(s[1..], key), key);
      assert s == [s[0]] + s[1..];
      assert |r| == |multiset(r)|;
      r
  }

  lemma {:induction false} SortBySorted<T>(s: seq<T>, key: T -> int)
    ensures SortedBy(SortBy(s, key), key)
  {
    if s != [] {
      SortBySorted(s[1..], key);
      InsertSorted(s[0], SortBy(s[1..], key), key);
    }
  }

  /** Stability: the elements with any one key keep their relative order. */
  lemma {:induction false} SortByStable<T>(s: seq<T>, key: T -> int, k: int)
    ensures WithKey(SortBy(s, key), key, k) == WithKey(s, key, k)
  {
    if s != [] {
      SortByStable(s[1..], key, k);
      InsertWithKey(s[0], SortBy(s[1..], key), key, k);
    }
  }

  /** A sequence without repeated elements holds each value at most once. */
  lemma {:induction false} DistinctCount<T>(s: seq<T>, e: T)
    requires forall i, j :: 0 <= i < j < |s| ==> s[i] != s[j]
    ensures multiset(s)[e] <= 1
  {
    if s != [] {
      var init := s[..|s| - 1];
      assert s == init + [s[|s| - 1]];
      DistinctCount(init, e);
      if s[|s| - 1] == e {
        assert e !in init by {
          forall k | 0 <= k < |init| ensures init[k] != e {
            assert init[k] == s[k];
          }
        }
      }
    }
  }

  lemma TwiceCount<T>(s: seq<T>, i: int, j: int)
    requires 0 <= i < j < |s| && s[i] == s[j]
    ensures multiset(s)[s[i]] >= 2
  {
    assert s == s[..i] + [s[i]] + s[i + 1..j] + [s[j]] + s[j + 1..];
  }

  /** The key of `list.sort()` on integers. */
  function AsKey(n: nat): int { n }

  /** Sorting numbers without repetitions yields a strictly increasing sequence. */
  lemma SortedDistinct(s: seq<nat>)
    requires forall i, j :: 0 <= i < j < |s| ==> s[i] != s[j]
    ensures forall i, j :: 0 <= i < j < |SortBy(s, AsKey)| ==> SortBy(s, AsKey)[i] < SortBy(s, AsKey)[j]
  {
    var r := SortBy(s, AsKey);
    SortBySorted(s, AsKey);
    forall i, j | 0 <= i < j < |r| ensures r[i] < r[j] {
      assert AsKey(r[i]) <= AsKey(r[j]);
      if r[i] == r[j] {
        TwiceCount(r, i, j);
        DistinctCount(s, r[i]);
      }
    }
  }
}

=== FILE: splitter.dfy ===
/**
 * The main loop of manage_history_files.py:149-173: the lines of one history
 * file are cut into session buffers at header lines; each buffer is handed to
 * `extract_data` when the next one starts, and the last line of the file
 * closes the buffer being filled.
 */
module Splitter {
  import opened Wrappers
  import opened Text
  import opened ManagePatterns
  import opened Lines
  import opened Session

  /** `date_time_start_pattern.match(line.lstrip())`: the line opens a new session. */
  predicate OpensSession(line: string) {
    DateTimeStart(LStrip(line)).Some?
  }

  /** The buffers cut so far, as lines: those handed on, and the one being filled. */
  datatype Blocks = Blocks(closed: seq<seq<string>>, open: seq<string>)

  /**
   * One turn of the loop on `line`, the raw line stripped of its line feeds;
   * `atEnd` is the test that makes a line close the buffer as the last one,
   * `opens` the header test. A blank line is skipped; a line that opens a
   * session, or one at the end, closes a non-empty buffer (the line at the
   * end is added to it first) and starts the next with itself; any other line
   * is added to the buffer.
   */
  function Step(b: Blocks, line: string, atEnd: bool, opens: string -> bool): Blocks {
    if line == [] then b
    else if (opens(line) || atEnd) && b.open != [] then
      Blocks(b.closed + [if atEnd then b.open + [line] else b.open], [line])
    else Blocks(b.closed, b.open + [line])
  }

  /** The loop over the first `n` stripped lines, `marks[i]` being the end test of line `i`. */
  function Cut(lines: seq<string>, marks: seq<bool>, opens: string -> bool, n: nat): Blocks
    requires n <= |lines| && |marks| == |lines|
  {
    if n == 0 then Blocks([], []) else Step(Cut(lines, marks, opens, n - 1), lines[n - 1], marks[n - 1], opens)
  }

  /** `raw_line.rstrip("\n")` for every raw line. */
  function Stripped(raw: seq<string>): (r: seq<string>)
    ensures |r| == |raw| && forall i :: 0 <= i < |raw| ==> r[i] == RStripNewlines(raw[i])
  {
    seq(|raw|, i requires 0 <= i < |raw| => RStripNewlines(raw[i]))
  }

  /** The buffers the loop cuts a file's raw lines into, with the end test as written. */
  function Buffers(raw: seq<string>): Blocks {
    Cut(Stripped(raw), SameAsLast(raw), OpensSession, |raw|)
  }

  /** The end test as written, `raw_line == lines[-1]`: any line equal to the last one. */
  function SameAsLast(lines: seq<string>): (m: seq<bool>)
    ensures |m| == |lines|
    ensures forall i :: 0 <= i < |lines| ==> (m[i] <==> lines[i] == lines[|lines| - 1])
  {
    seq(|lines|, i requires 0 <= i < |lines| => lines[i] == lines[|lines| - 1])
  }

  /** The end test by position: the last line alone. */
  function AtLastIndex(lines: seq<string>): (m: seq<bool>)
    ensures |m| == |lines|
    ensures forall i :: 0 <= i < |lines| ==> (m[i] <==> i == |lines| - 1)
  {
    seq(|lines|, i => i == |lines| - 1)
  }

  // ---------------------------------------------------------------------------
  // What the buffers hold

  predicate NonBlank(block: seq<string>) {
    forall k :: 0 <= k < |block| ==> block[k] != []
  }

  /** The non-blank lines among the first `n`, in order. */
  function Kept(lines: seq<string>, n: nat): (r: seq<string>)
    requires n <= |lines|
    ensures NonBlank(r)
  {
    if n == 0 then []
    else Kept(lines, n - 1) + if lines[n - 1] == [] then [] else [lines[n - 1]]
  }

  /** The blocks one after the other. */
  function Flatten(blocks: seq<seq<string>>): seq<string> {
    if blocks == [] then [] else Flatten(blocks[..|blocks| - 1]) + blocks[|blocks| - 1]
  }

  lemma FlattenSnoc(blocks: seq<seq<string>>, block: seq<string>)
    ensures Flatten(blocks + [block]) == Flatten(blocks) + block
  {
    assert (blocks + [block])[..|blocks|] == blocks;
  }

  /**
   * The shape of the buffers once the non-blank lines `kept` have been read:
   * every buffer handed on holds at least one line, no buffer holds a blank
   * line, the buffer being filled is empty exactly while no non-blank line
   * has been read, and it is never empty once a buffer has been handed on.
   */
  predicate Shaped(b: Blocks, kept: seq<string>) {
    (b.open == [] <==> kept == [])
    && (b.closed != [] ==> b.open != [])
    && NonBlank(b.open)
    && forall j :: 0 <= j < |b.closed| ==> b.closed[j] != [] && NonBlank(b.closed[j])
  }

  /** One turn of the loop keeps the shape. */
  lemma StepShaped(b: Blocks, kept: seq<string>, line: string, atEnd: bool, opens: string -> bool)
    requires Shaped(b, kept)
    ensures Shaped(Step(b, line, atEnd, opens), kept + if line == [] then [] else [line])
  {
    var c := Step(b, line, atEnd, opens);
    if line != [] {
      if (opens(line) || atEnd) && b.open != [] {
        var last := if atEnd then b.open + [line] else b.open;
        assert c.closed == b.closed + [last] && c.open == [line];
        assert NonBlank(last);
      } else {
        assert c.closed == b.closed && c.open == b.open + [line];
      }
    }
  }

  /** Whatever the tests, the buffers keep their shape through the whole loop. */
  lemma {:induction false} CutShape(lines: seq<string>, marks: seq<bool>, opens: string -> bool, n: nat)
    requires n <= |lines| && |marks| == |lines|
    ensures Shaped(Cut(lines, marks, opens, n), Kept(lines, n))
  {
    if n > 0 {
      CutShape(lines, marks, opens, n - 1);
      StepShaped(Cut(lines, marks, opens, n - 1), Kept(lines, n - 1), lines[n - 1], marks[n - 1], opens);
    }
  }

  /**
   * Before any line passes the end test, the buffers handed on followed by
   * the one being filled are exactly the non-blank lines: none lost, none
   * repeated, in file order.
   */
  lemma {:induction false} CutKeepsLines(lines: seq<string>, marks: seq<bool>, opens: string -> bool, n: nat)
    requires n <= |lines| && |marks| == |lines|
    requires forall i :: 0 <= i < n ==> !marks[i]
    ensures var b := Cut(lines, marks, opens, n);
      Flatten(b.closed) + b.open == Kept(lines, n)
  {
    if n > 0 {
      CutKeepsLines(lines, marks, opens, n - 1);
      var b, line := Cut(lines, marks, opens, n - 1), lines[n - 1];
      if line != [] {
        if opens(line) && b.open != [] {
          assert Cut(lines, marks, opens, n) == Blocks(b.closed + [b.open], [line]);
          FlattenSnoc(b.closed, b.open);
        } else {
          assert Cut(lines, marks, opens, n) == Blocks(b.closed, b.open + [line]);
        }
      }
    }
  }

  /**
   * Before any line passes the end test, every buffer handed on after the
   * first, and the buffer being filled once one has been handed on, starts
   * with a line that opens a session.
   */
  lemma {:induction false} CutOpensWithHeader(lines: seq<string>, marks: seq<bool>, opens: string -> bool, n: nat)
    requires n <= |lines| && |marks| == |lines|
    requires forall i :: 0 <= i < n ==> !marks[i]
    ensures var b := Cut(lines, marks, opens, n);
      (forall j :: 1 <= j < |b.closed| ==> b.closed[j] != [] && opens(b.closed[j][0]))
      && (b.closed != [] ==> b.open != [] && opens(b.open[0]))
  {
    if n > 0 {
      CutOpensWithHeader(lines, marks, opens, n - 1);
      CutShape(lines, marks, opens, n - 1);
    }
  }

  /**
   * When only the last line passes the end test and it is non-blank, after
   * other non-blank lines: it is added to the buffer being filled, which is
   * handed on, and then every non-blank line has been handed on exactly once,
   * in order, every buffer after the first starts with a line that opens a
   * session, and the buffer left over holds the last line alone.
   */
  lemma CutAtEnd(lines: seq<string>, marks: seq<bool>, opens: string -> bool)
    requires lines != [] && |marks| == |lines|
    requires forall i :: 0 <= i < |lines| - 1 ==> !marks[i]
    requires marks[|lines| - 1] && lines[|lines| - 1] != [] && Kept(lines, |lines| - 1) != []
    ensures var b := Cut(lines, marks, opens, |lines|);
      Flatten(b.closed) == Kept(lines, |lines|) && b.open == [lines[|lines| - 1]]
      && forall j :: 1 <= j < |b.closed| ==> b.closed[j] != [] && opens(b.closed[j][0])
  {
    var n := |lines|;
    var b, last := Cut(lines, marks, opens, n - 1), lines[n - 1];
    CutShape(lines, marks, opens, n - 1);
    CutKeepsLines(lines, marks, opens, n - 1);
    CutOpensWithHeader(lines, marks, opens, n - 1);
    CloseWithLast(b, last, opens, Kept(lines, n - 1));
    assert Kept(lines, n) == Kept(lines, n - 1) + [last];
  }

  /** Closing a non-empty buffer with the last line keeps the order of the lines and the headers in front. */
  lemma CloseWithLast(b: Blocks, last: string, opens: string -> bool, kept: seq<string>)
    requires b.open != [] && last != [] && Flatten(b.closed) + b.open == kept
    requires forall j :: 1 <= j < |b.closed| ==> b.closed[j] != [] && opens(b.closed[j][0])
    requires b.closed != [] ==> opens(b.open[0])
    ensures var c := Step(b, last, true, opens);
      c == Blocks(b.closed + [b.open + [last]], [last])
      && Flatten(c.closed) == kept + [last]
      && forall j :: 1 <= j < |c.closed| ==> c.closed[j] != [] && opens(c.closed[j][0])
  {
    FlattenSnoc(b.closed, b.open + [last]);
  }

  /** A blank last line closes nothing: the buffer being filled is never handed on. */
  lemma BlankLastLine(lines: seq<string>, marks: seq<bool>, opens: string -> bool)
    requires lines != [] && |marks| == |lines| && lines[|lines| - 1] == []
    ensures Cut(lines, marks, opens, |lines|) == Cut(lines, marks, opens, |lines| - 1)
  {
  }

  lemma {:induction false} SameMarks(lines: seq<string>, m1: seq<bool>, m2: seq<bool>, opens: string -> bool, n: nat)
    requires n <= |lines| && |m1| == |lines| && |m2| == |lines|
    requires forall i :: 0 <= i < n ==> m1[i] == m2[i]
    ensures Cut(lines, m1, opens, n) == Cut(lines, m2, opens, n)
  {
    if n > 0 {
      SameMarks(lines, m1, m2, opens, n - 1);
    }
  }

  /** The buffers the loop would cut with the end test by position. */
  function ByPosition(raw: seq<string>): Blocks {
    Cut(Stripped(raw), AtLastIndex(raw), OpensSession, |raw|)
  }

  /**
   * With the end test by position, the loop does what it is meant to: every
   * non-blank line reaches `extract_data` once, in order, and each buffer
   * after the first starts at a session header.
   */
  lemma ByPositionAtEnd(raw: seq<string>)
    requires raw != []
    ensures var lines, b := Stripped(raw), ByPosition(raw);
      lines[|raw| - 1] != [] && Kept(lines, |raw| - 1) != [] ==>
        Flatten(b.closed) == Kept(lines, |raw|) && b.open == [lines[|raw| - 1]]
        && forall j :: 1 <= j < |b.closed| ==> b.closed[j] != [] && OpensSession(b.closed[j][0])
  {
    var lines := Stripped(raw);
    if lines[|raw| - 1] != [] && Kept(lines, |raw| - 1) != [] {
      CutAtEnd(lines, AtLastIndex(raw), OpensSession);
    }
  }

  /** The end test as written gives the same buffers when no earlier raw line equals the last one. */
  lemma AsWrittenAgrees(raw: seq<string>)
    requires raw != [] && forall i :: 0 <= i < |raw| - 1 ==> raw[i] != raw[|raw| - 1]
    ensures Buffers(raw) == ByPosition(raw)
  {
    SameMarks(Stripped(raw), SameAsLast(raw), AtLastIndex(raw), OpensSession, |raw|);
  }

  // ---------------------------------------------------------------------------
  // A line that repeats the last one

  /** A line as the loop keeps it: not blank, no line feed at its end. */
  predicate IsKeptLine(line: string) {
    line != [] && line[|line| - 1] != '\n'
  }

  lemma KeptLineFeed(line: string)
    requires IsKeptLine(line)
    ensures RStripNewlines(line + "\n") == line
  {
    assert (line + "\n")[..|line|] == line;
  }

  /** The raw lines `h`, `x`, `x`, each ended by a line feed, and their two end tests. */
  lemma RepeatedLines(h: string, x: string)
    requires IsKeptLine(h) && IsKeptLine(x) && h != x
    ensures var raw := [h + "\n", x + "\n", x + "\n"];
      Stripped(raw) == [h, x, x] && SameAsLast(raw) == [false, true, true] && AtLastIndex(raw) == [false, false, true]
  {
    var raw := [h + "\n", x + "\n", x + "\n"];
    KeptLineFeed(h);
    KeptLineFeed(x);
    assert raw[0] != raw[2] by {
      assert raw[0][..|h|] == h && raw[2][..|x|] == x;
    }
  }

  /** The loop over three lines is three steps from no buffers. */
  lemma CutThree(lines: seq<string>, marks: seq<bool>, opens: string -> bool)
    requires |lines| == 3 && |marks| == 3
    ensures Cut(lines, marks, opens, 3)
      == Step(Step(Step(Blocks([], []), lines[0], marks[0], opens), lines[1], marks[1], opens), lines[2], marks[2], opens)
  {
    assert Cut(lines, marks, opens, 1) == Step(Blocks([], []), lines[0], marks[0], opens);
    assert Cut(lines, marks, opens, 2) == Step(Cut(lines, marks, opens, 1), lines[1], marks[1], opens);
  }

  /**
   * As written, the first of two equal lines `x` after a header `h` ends
   * the session: the second `x` is handed on in a buffer of its own that
   * starts without a header, and `x` is handed on three times.
   */
  lemma RepeatedLineCut(h: string, x: string)
    requires h != [] && x != [] && !OpensSession(x)
    ensures Cut([h, x, x], [false, true, true], OpensSession, 3) == Blocks([[h, x], [x, x]], [x])
  {
    var e: seq<seq<string>> := [];
    var b1, b2 := Blocks(e, [h]), Blocks([[h, x]], [x]);
    CutThree([h, x, x], [false, true, true], OpensSession);
    assert Step(Blocks(e, []), h, false, OpensSession) == b1;
    assert Step(b1, x, true, OpensSession) == b2 by {
      assert [h] + [x] == [h, x];
      assert e + [[h, x]] == [[h, x]];
    }
    assert Step(b2, x, true, OpensSession) == Blocks([[h, x], [x, x]], [x]) by {
      assert [x] + [x] == [x, x];
      assert [[h, x]] + [[x, x]] == [[h, x], [x, x]];
    }
  }

  /** By position, the same lines stay one session. */
  lemma RepeatedLineByPositionCut(h: string, x: string)
    requires h != [] && x != [] && !OpensSession(x)
    ensures Cut([h, x, x], [false, false, true], OpensSession, 3) == Blocks([[h, x, x]], [x])
  {
    var e: seq<seq<string>> := [];
    var b1, b2 := Blocks(e, [h]), Blocks(e, [h, x]);
    CutThree([h, x, x], [false, false, true], OpensSession);
    assert Step(Blocks(e, []), h, false, OpensSession) == b1;
    assert Step(b1, x, false, OpensSession) == b2 by {
      assert [h] + [x] == [h, x];
    }
    assert Step(b2, x, true, OpensSession) == Blocks([[h, x, x]], [x]) by {
      assert [h, x] + [x] == [h, x, x];
      assert e + [[h, x, x]] == [[h, x, x]];
    }
  }

  /**
   * A file of a header `h` and two equal lines `x`: as written, the second
   * session handed on starts without a header and repeats a line, where the
   * end test by position hands on one session with the three lines.
   */
  lemma RepeatedLastLineSplitsSession(h: string, x: string)
    requires IsKeptLine(h) && OpensSession(h) && IsKeptLine(x) && !OpensSession(x)
    ensures var raw := [h + "\n", x + "\n", x + "\n"];
      Buffers(raw) == Blocks([[h, x], [x, x]], [x]) && !OpensSession(Buffers(raw).closed[1][0])
      && ByPosition(raw) == Blocks([[h, x, x]], [x])
  {
    RepeatedLines(h, x);
    RepeatedLineCut(h, x);
    RepeatedLineByPositionCut(h, x);
  }

  // ---------------------------------------------------------------------------
  // The loop

  /** The buffers as strings, `line + "\n"` after each line. */
  predicate Joined(buffers: seq<string>, blocks: seq<seq<string>>) {
    |buffers| == |blocks| && forall j :: 0 <= j < |blocks| ==> buffers[j] == JoinLines(blocks[j])
  }

  /** A buffer handed on together with its block keeps the two lists joined. */
  lemma JoinedSnoc(buffers: seq<string>, blocks: seq<seq<string>>, buffer: string, block: seq<string>)
    requires Joined(buffers, blocks) && buffer == JoinLines(block)
    ensures Joined(buffers + [buffer], blocks + [block])
  {
    assert forall j :: 0 <= j < |blocks| ==> (blocks + [block])[j] == blocks[j];
  }

  /** One line taken on the buffer string follows `Step` on the blocks. */
  lemma StepJoined(buffer: string, b: Blocks, line: string, atEnd: bool, opens: string -> bool)
    requires buffer == JoinLines(b.open)
    ensures var c := Step(b, line, atEnd, opens);
      var closing := line != [] && (opens(line) || atEnd) && buffer != [];
      (line == [] ==> c == b)
      && (closing ==>
            |c.closed| == |b.closed| + 1 && c.closed == b.closed + [c.closed[|b.closed|]]
            && (if atEnd then buffer + line + "\n" else buffer) == JoinLines(c.closed[|b.closed|])
            && line + "\n" == JoinLines(c.open))
      && (line != [] && !closing ==> c.closed == b.closed && buffer + line + "\n" == JoinLines(c.open))
  {
    var c := Step(b, line, atEnd, opens);
    assert buffer != [] <==> b.open != [];
    if line != [] {
      JoinLinesSnoc(b.open, line);
      if (opens(line) || atEnd) && buffer != [] {
        assert JoinLines([line]) == line + "\n";
        var block := if atEnd then b.open + [line] else b.open;
        assert c.closed == b.closed + [block];
      }
    }
  }

  /**
   * After one line, `rest` is the text of the buffer being filled, and
   * `closed` that of the buffer closed by the line, if any.
   */
  predicate Took(b: Blocks, line: string, atEnd: bool, closed: Option<string>, rest: string) {
    var c := Step(b, line, atEnd, OpensSession);
    rest == JoinLines(c.open)
    && (closed.None? ==> c.closed == b.closed)
    && (closed.Some? ==>
          |c.closed| == |b.closed| + 1 && c.closed == b.closed + [c.closed[|b.closed|]]
          && closed.value == JoinLines(c.closed[|b.closed|]))
  }

  /**
   * What the loop of manage_history_files.py:155-173 does with one line: a
   * blank line is skipped; a header line, or the last line, closes a
   * non-empty buffer (the last line joining it first) and starts the next
   * one with itself; any other line continues the buffer. `closed` is the
   * buffer handed to `extract_data`, `rest` the buffer after the line; they
   * follow `Step` on the blocks the buffer holds.
   */
  method TakeLine(buffer: string, line: string, atEnd: bool, ghost b: Blocks) returns (closed: Option<string>, rest: string)
    requires buffer == JoinLines(b.open)
    ensures Took(b, line, atEnd, closed, rest)
  {
    StepJoined(buffer, b, line, atEnd, OpensSession);
    closed, rest := None, buffer;
    if line != [] {
      if OpensSession(line) || atEnd {
        if buffer != [] {
          var last := buffer;
          if atEnd {
            last := last + line + "\n";
          }
          closed, rest := Some(last), line + "\n";
        } else {
          rest := buffer + line + "\n";
        }
      } else {
        rest := buffer + line + "\n";
      }
    }
  }

  /** Closing the buffers only ever adds buffers. */
  lemma {:induction false} CutGrows(lines: seq<string>, marks: seq<bool>, opens: string -> bool, i: nat, n: nat)
    requires i <= n <= |lines| && |marks| == |lines|
    ensures Cut(lines, marks, opens, i).closed <= Cut(lines, marks, opens, n).closed
  {
    if i < n {
      CutGrows(lines, marks, opens, i, n - 1);
    }
  }

  /** The buffer strings after the first `i` raw lines are the text of the blocks `Cut` gives. */
  predicate Mirrors(raw: seq<string>, i: nat, buffers: seq<string>, buffer: string)
    requires i <= |raw|
  {
    var b := Cut(Stripped(raw), SameAsLast(raw), OpensSession, i);
    Joined(buffers, b.closed) && buffer == JoinLines(b.open)
  }

  /** Taking raw line `i` keeps the buffer strings the text of the blocks. */
  lemma Advance(raw: seq<string>, i: nat, buffers: seq<string>, buffer: string, closed: Option<string>, rest: string, next: seq<string>)
    requires i < |raw| && Mirrors(raw, i, buffers, buffer)
    requires Took(Cut(Stripped(raw), SameAsLast(raw), OpensSession, i), RStripNewlines(raw[i]), raw[i] == raw[|raw| - 1], closed, rest)
    requires next == if closed.Some? then buffers + [closed.value] else buffers
    ensures Mirrors(raw, i + 1, next, rest)
  {
    var lines, marks := Stripped(raw), SameAsLast(raw);
    var b := Cut(lines, marks, OpensSession, i);
    assert Cut(lines, marks, OpensSession, i + 1) == Step(b, RStripNewlines(raw[i]), raw[i] == raw[|raw| - 1], OpensSession);
    if closed.Some? {
      var c := Step(b, RStripNewlines(raw[i]), raw[i] == raw[|raw| - 1], OpensSession);
      JoinedSnoc(buffers, b.closed, closed.value, c.closed[|b.closed|]);
    }
  }

  /**
   * Every buffer handed on is reported with the record `extract_data` makes
   * of it, and only the last record, once the program stops, is no 4-tuple.
   */
  predicate Reports(buffers: seq<string>, records: seq<Extracted>, crashed: bool) {
    |records| == |buffers|
    && (forall j :: 0 <= j < |buffers| ==> records[j] == ExtractData(buffers[j]))
    && (forall j :: 0 <= j < |records| ==> (records[j] == NoTuple <==> crashed && j == |records| - 1))
    && (crashed ==> records != [])
  }

  /** Reporting one more buffer keeps the records in step. */
  lemma ReportsSnoc(buffers: seq<string>, records: seq<Extracted>, buffer: string)
    requires Reports(buffers, records, false)
    ensures Reports(buffers + [buffer], records + [ExtractData(buffer)], ExtractData(buffer) == NoTuple)
  {
  }

  /**
   * The loop of manage_history_files.py:149-173 over the lines `readlines`
   * gave. Every buffer handed on is reported with the record `extract_data`
   * makes of it; a record that is no 4-tuple stops the program, at the
   * unpacking of the result. Without that stop, the buffers handed on are
   * those of `Buffers`, and `buffer` is the one left over; with it, they are
   * the first of those, the last giving no 4-tuple.
   */
  method SplitFile(raw: seq<string>) returns (buffers: seq<string>, records: seq<Extracted>, buffer: string, bufferNumber: nat, crashed: bool)
    ensures var b := Buffers(raw);
      |buffers| <= |b.closed| && Joined(buffers, b.closed[..|buffers|])
      && (!crashed ==> Joined(buffers, b.closed) && buffer == JoinLines(b.open))
    ensures |records| == |buffers| && forall j :: 0 <= j < |buffers| ==> records[j] == ExtractData(buffers[j])
    ensures forall j :: 0 <= j < |records| ==> (records[j] == NoTuple <==> crashed && j == |records| - 1)
    ensures crashed ==> records != []
    ensures bufferNumber == |buffers| + 1
  {
    buffers, records, buffer, bufferNumber, crashed := [], [], "", 1, false;
    var i := 0;
    while i < |raw| && !crashed
      invariant 0 <= i <= |raw|
      invariant Mirrors(raw, i, buffers, buffer)
      invariant Reports(buffers, records, crashed)
      invariant bufferNumber == |buffers| + 1
    {
      var line := RStripNewlines(raw[i]);
      var atEnd := raw[i] == raw[|raw| - 1];
      var closed, rest := TakeLine(buffer, line, atEnd, Cut(Stripped(raw), SameAsLast(raw), OpensSession, i));
      ghost var before := buffers;
      if closed.Some? {
        ReportsSnoc(buffers, records, closed.value);
        var record := ExtractData(closed.value);
        buffers, records := buffers + [closed.value], records + [record];
        crashed := record == NoTuple;
        bufferNumber := bufferNumber + 1;
      }
      Advance(raw, i, before, buffer, closed, rest, buffers);
      buffer := rest;
      i := i + 1;
    }
    CutGrows(Stripped(raw), SameAsLast(raw), OpensSession, i, |raw|);
  }
}

=== FILE: text.dfy ===
/**
 * Character classes, decimal numerals, stripping and searching on strings and
 * byte sequences: the pieces of Python's `str`, `bytes` and `re` behaviour
 * that the matchers of the other modules are built from.
 *
 * Character classes follow Python 3 on ASCII input: `\d` is `0`-`9` and a
 * word character is an ASCII letter, digit or `_`. Whitespace is the full set
 * that `str.isspace()` and the regex class `\s` accept.
 */
module Text {
  import opened Wrappers

  predicate IsDigit(c: char) { '0' <= c <= '9' }

  predicate AllDigits(s: string) { forall i :: 0 <= i < |s| ==> IsDigit(s[i]) }

  /** The characters Python treats as whitespace (`str.isspace`, regex `\s`, `strip()`). */
  predicate IsSpace(c: char) {
    c == ' ' || c == '\t' || c == '\n' || c == '\r' || c == '\U{000B}' || c == '\U{000C}'
    || ('\U{001C}' <= c <= '\U{001F}') || c == '\U{0085}' || c == '\U{00A0}' || c == '\U{1680}'
    || ('\U{2000}' <= c <= '\U{200A}') || c == '\U{2028}' || c == '\U{2029}'
    || c == '\U{202F}' || c == '\U{205F}' || c == '\U{3000}'
  }

  /** A character of the regex class `\w` (ASCII part). */
  predicate IsWordChar(c: char) {
    IsDigit(c) || ('a' <= c <= 'z') || ('A' <= c <= 'Z') || c == '_'
  }

  /**
   * Does `c` match the lower-case ASCII letter `lower` under `re.IGNORECASE`?
   * Besides the upper-case letter, Python's case-insensitive matching also
   * accepts four non-ASCII letters for `i`, `s` and `k`.
   */
  predicate MatchesLetterIgnoringCase(c: char, lower: char)
    requires 'a' <= lower <= 'z'
  {
    c == lower || c as int == lower as int - 32
    || (lower == 'i' && (c == '\U{0130}' || c == '\U{0131}'))
    || (lower == 's' && c == '\U{017F}')
    || (lower == 'k' && c == '\U{212A}')
  }

  predicate IsLowerWord(w: string) { forall i :: 0 <= i < |w| ==> 'a' <= w[i] <= 'z' }

  /** Does the lower-case word `w` occur at position `i` of `s`, ignoring case? */
  predicate WordAtIgnoringCase(s: string, i: nat, w: string)
    requires IsLowerWord(w)
  {
    i + |w| <= |s| && forall k :: 0 <= k < |w| ==> MatchesLetterIgnoringCase(s[i + k], w[k])
  }

  // ---------------------------------------------------------------------------
  // Decimal numerals

  function DigitValue(c: char): nat
    requires IsDigit(c)
  {
    c as int - '0' as int
  }

  function DigitChar(d: nat): (c: char)
    requires d < 10
    ensures IsDigit(c) && DigitValue(c) == d
  {
    ('0' as int + d) as char
  }

  /** Python's `int(s)` on a string of ASCII digits (leading zeros allowed). */
  function Value(s: string): nat
    requires AllDigits(s)
  {
    if s == [] then 0 else 10 * Value(s[..|s| - 1]) + DigitValue(s[|s| - 1])
  }

  /** A sequence is its part before `i`, its element at `i` and its part after `i`. */
  lemma SplitAround<T>(s: seq<T>, i: nat)
    requires i < |s|
    ensures s == s[..i] + [s[i]] + s[i + 1..]
  {
    assert s[..i] + [s[i]] == s[..i + 1];
  }

  /** Putting the head back in front of the tail of `p`, followed by `r`. */
  lemma HeadTail<T>(p: seq<T>, r: seq<T>)
    requires p != []
    ensures [p[0]] + (p[1..] + r) == p + r
  {
    assert p == [p[0]] + p[1..];
  }

  lemma ValueSnoc(s: string, c: char)
    requires AllDigits(s) && IsDigit(c)
    ensures AllDigits(s + [c]) && Value(s + [c]) == 10 * Value(s) + DigitValue(c)
  {
    assert (s + [c])[..|s|] == s;
  }

  /** Python's `str(n)` for a non-negative integer: the canonical numeral. */
  function NatToString(n: nat): (r: string)
    ensures |r| > 0 && AllDigits(r) && Value(r) == n
    ensures r[0] == '0' ==> n == 0 && |r| == 1
    decreases n
  {
    if n < 10 then [DigitChar(n)]
    else
      var r := NatToString(n / 10) + [DigitChar(n % 10)];
      ValueSnoc(NatToString(n / 10), DigitChar(n % 10));
      r
  }

  lemma NatToStringInjective(m: nat, n: nat)
    ensures NatToString(m) == NatToString(n) ==> m == n
  {
  }

  /** A subset is no bigger than its superset. */
  lemma {:induction false} SubsetCardinality<T>(a: set<T>, b: set<T>)
    requires a <= b
    ensures |a| <= |b|
    decreases |a|
  {
    if a != {} {
      var x :| x in a;
      SubsetCardinality(a - {x}, b - {x});
    }
  }

  // ---------------------------------------------------------------------------
  // Stripping

  /** Python's `s.rstrip()`: drop every trailing whitespace character. */
  function RStrip(s: string): (r: string)
    ensures |r| <= |s| && r == s[..|r|]
    ensures r == [] || !IsSpace(r[|r| - 1])
    ensures forall k :: |r| <= k < |s| ==> IsSpace(s[k])
  {
    if s != [] && IsSpace(s[|s| - 1]) then RStrip(s[..|s| - 1]) else s
  }

  /** Python's `s.lstrip()`: drop every leading whitespace character. */
  function LStrip(s: string): (r: string)
    ensures |r| <= |s| && r == s[|s| - |r|..]
    ensures r == [] || !IsSpace(r[0])
    ensures forall k :: 0 <= k < |s| - |r| ==> IsSpace(s[k])
  {
    if s != [] && IsSpace(s[0]) then LStrip(s[1..]) else s
  }

  /** Python's `s.rstrip("\n")`: drop every trailing newline. */
  function RStripNewlines(s: string): (r: string)
    ensures |r| <= |s| && r == s[..|r|]
    ensures r == [] || r[|r| - 1] != '\n'
    ensures forall k :: |r| <= k < |s| ==> s[k] == '\n'
  {
    if s != [] && s[|s| - 1] == '\n' then RStripNewlines(s[..|s| - 1]) else s
  }

  /** Length of the longest run of whitespace at the start of `s` (a greedy `\s*`). */
  function SpaceRun(s: string): (n: nat)
    ensures n <= |s|
    ensures forall k :: 0 <= k < n ==> IsSpace(s[k])
    ensures n == |s| || !IsSpace(s[n])
  {
    if s != [] && IsSpace(s[0]) then 1 + SpaceRun(s[1..]) else 0
  }

  // ---------------------------------------------------------------------------
  // Searching

  /** The least position in `[lo, hi)` where `p` holds: the leftmost try of a regex search. */
  function FirstFrom(lo: nat, hi: nat, p: nat -> bool): Option<nat>
    decreases hi - lo
  {
    if lo >= hi then None else if p(lo) then Some(lo) else FirstFrom(lo + 1, hi, p)
  }

  /** The position found is in range and satisfies `p`, and none before it does; with none found, none does. */
  lemma {:induction false} FirstFromSound(lo: nat, hi: nat, p: nat -> bool)
    ensures var r := FirstFrom(lo, hi, p);
      (r.Some? ==> lo <= r.value < hi && p(r.value) && forall k :: lo <= k < r.value ==> !p(k))
      && (r.None? ==> forall k :: lo <= k < hi ==> !p(k))
    decreases hi - lo
  {
    if lo < hi && !p(lo) {
      FirstFromSound(lo + 1, hi, p);
    }
  }

  /** The first position where `p` holds is the one found. */
  lemma FirstFromIs(lo: nat, hi: nat, p: nat -> bool, q: nat)
    requires lo <= q < hi && p(q)
    requires forall k: nat :: lo <= k < q ==> !p(k)
    ensures FirstFrom(lo, hi, p) == Some(q)
  {
    var r := FirstFrom(lo, hi, p);
    FirstFromSound(lo, hi, p);
    assert r.Some? && !(r.value < q) && !(q < r.value);
  }

  /** The greatest index below `hi` whose element satisfies `p`: a scan over `reversed(s)`. */
  function LastWhere<T>(s: seq<T>, hi: nat, p: T -> bool): (r: Option<nat>)
    requires hi <= |s|
    ensures r.Some? ==> r.value < hi && p(s[r.value])
    ensures r.Some? ==> forall k :: r.value < k < hi ==> !p(s[k])
    ensures r.None? ==> forall k :: 0 <= k < hi ==> !p(s[k])
  {
    if hi == 0 then None else if p(s[hi - 1]) then Some(hi - 1) else LastWhere(s, hi - 1, p)
  }

  /** Python's `s.startswith(p)`. */
  predicate StartsWith<T(==)>(s: seq<T>, p: seq<T>) {
    |p| <= |s| && s[..|p|] == p
  }

  /** Python's `s.endswith(p)`. */
  predicate EndsWith<T(==)>(s: seq<T>, p: seq<T>) {
    |p| <= |s| && s[|s| - |p|..] == p
  }

  lemma EndsWithAppend<T>(s: seq<T>, t: seq<T>, u: seq<T>)
    requires EndsWith(s, t)
    ensures EndsWith(s + u, t + u)
  {
    assert (s + u)[|s + u| - |t + u|..] == s[|s| - |t|..] + u;
  }

  /** Length of the longest run of ASCII digits at the end of `s`. */
  function TrailingDigits(s: string): (n: nat)
    ensures n <= |s|
    ensures forall k :: |s| - n <= k < |s| ==> IsDigit(s[k])
    ensures n == |s| || !IsDigit(s[|s| - n - 1])
  {
    if s != [] && IsDigit(s[|s| - 1]) then 1 + TrailingDigits(s[..|s| - 1]) else 0
  }

  /** `needle` occurs as a contiguous run of `hay` starting at position `i`. */
  predicate OccursAt<T(==)>(needle: seq<T>, hay: seq<T>, i: nat) {
    i + |needle| <= |hay| && hay[i..i + |needle|] == needle
  }

  ghost predicate Occurs<T>(needle: seq<T>, hay: seq<T>) {
    exists i: nat :: OccursAt(needle, hay, i)
  }

  /** Python's `needle in hay` for `str` and `bytes`: contiguous containment. */
  function Contains<T(==)>(needle: seq<T>, hay: seq<T>): (r: bool)
    ensures r <==> Occurs(needle, hay)
  {
    if |needle| > |hay| then
      assert forall i: nat :: !OccursAt(needle, hay, i);
      false
    else
      var hi := |hay| - |needle| + 1;
      var r := FirstFrom(0, hi, (i: nat) => OccursAt(needle, hay, i));
      FirstFromSound(0, hi, (i: nat) => OccursAt(needle, hay, i));
      assert r.None? ==> forall i: nat :: !OccursAt(needle, hay, i) by {
        if r.None? {
          forall i: nat ensures !OccursAt(needle, hay, i) {
            if i < hi {
              assert !(((i: nat) => OccursAt(needle, hay, i))(i));
            }
          }
        }
      }
      r.Some?
  }

  lemma OccursLength<T>(needle: seq<T>, hay: seq<T>)
    requires Occurs(needle, hay)
    ensures |needle| <= |hay|
    ensures |needle| == |hay| ==> needle == hay
  {
    var i: nat :| OccursAt(needle, hay, i);
  }

  lemma OccursReflexive<T>(s: seq<T>)
    ensures Occurs(s, s)
  {
    assert OccursAt(s, s, 0);
  }

  lemma {:induction false} OccursTransitive<T>(a: seq<T>, b: seq<T>, c: seq<T>)
    requires Occurs(a, b) && Occurs(b, c)
    ensures Occurs(a, c)
  {
    var i: nat :| OccursAt(a, b, i);
    var j: nat :| OccursAt(b, c, j);
    assert b == c[j..j + |b|];
    assert a == b[i..i + |a|];
    var inC, inB := c[i + j..i + j + |a|], c[j..j + |b|][i..i + |a|];
    forall k | 0 <= k < |a| ensures inC[k] == inB[k] { }
    assert inC == inB;
    assert OccursAt(a, c, i + j);
  }

  /**
   * Python's `s.replace(old, new)`: every occurrence of `old`, found left to
   * right without overlaps, is replaced by `new`.
   */
  function Replace(s: string, pat: string, rep: string): (r: string)
    requires |pat| > 0
    ensures !Occurs(pat, s) ==> r == s
    decreases |s|
  {
    if |s| < |pat| then
      assert !Occurs(pat, s) by {
        if Occurs(pat, s) { OccursLength(pat, s); }
      }
      s
    else if s[..|pat|] == pat then
      assert OccursAt(pat, s, 0);
      rep + Replace(s[|pat|..], pat, rep)
    else
      var rest := Replace(s[1..], pat, rep);
      assert !Occurs(pat, s) ==> !Occurs(pat, s[1..]) by {
        if Occurs(pat, s[1..]) {
          var i: nat :| OccursAt(pat, s[1..], i);
          assert OccursAt(pat, s, i + 1);
        }
      }
      [s[0]] + rest
  }

  /**
   * The first occurrence of `pat`, at `i`, is replaced and the scan resumes
   * right after it; with the `ensures` of `Replace` for a text holding no
   * occurrence, this determines `Replace` completely.
   */
  lemma ReplaceAtFirst(s: string, pat: string, rep: string, i: nat)
    requires |pat| > 0 && OccursAt(pat, s, i)
    requires forall j: nat :: j < i ==> !OccursAt(pat, s, j)
    ensures Replace(s, pat, rep) == s[..i] + rep + Replace(s[i + |pat|..], pat, rep)
  {
    SplitAtOccurrence(s, pat, i);
    ReplacePrefix(s[..i], s[i..], pat, rep);
    ReplaceAtStart(s[i..], pat, rep);
  }

  lemma SplitAtOccurrence(s: string, pat: string, i: nat)
    requires OccursAt(pat, s, i)
    requires forall j: nat :: j < i ==> !OccursAt(pat, s, j)
    ensures s[..i] + s[i..] == s && OccursAt(pat, s[i..], 0) && s[i..][|pat|..] == s[i + |pat|..]
    ensures forall j: nat :: j < |s[..i]| ==> !OccursAt(pat, s[..i] + s[i..], j)
  {
    assert s[..i] + s[i..] == s;
    assert s[i..][..|pat|] == pat;
  }

  lemma ReplaceAtStart(s: string, pat: string, rep: string)
    requires |pat| > 0 && OccursAt(pat, s, 0)
    ensures Replace(s, pat, rep) == rep + Replace(s[|pat|..], pat, rep)
  {
    assert s[..|pat|] == pat;
  }

  /** `replace` copies a prefix none of whose positions starts an occurrence. */
  lemma {:induction false} ReplacePrefix(p: string, q: string, pat: string, rep: string)
    requires |pat| > 0
    requires forall j: nat :: j < |p| ==> !OccursAt(pat, p + q, j)
    ensures Replace(p + q, pat, rep) == p + Replace(q, pat, rep)
  {
    if p == [] {
      assert p + q == q;
    } else if |p + q| < |pat| {
      ReplaceShort(p, q, pat, rep);
    } else {
      PrefixTail(p, q, pat);
      ReplacePrefix(p[1..], q, pat, rep);
      ReplaceKeepsHead(p + q, pat, rep);
      HeadTail(p, Replace(q, pat, rep));
    }
  }

  lemma ReplaceShort(p: string, q: string, pat: string, rep: string)
    requires |pat| > 0 && |p + q| < |pat|
    ensures Replace(p + q, pat, rep) == p + Replace(q, pat, rep)
  {
    assert !Occurs(pat, q) by {
      if Occurs(pat, q) { OccursLength(pat, q); }
    }
    assert !Occurs(pat, p + q) by {
      if Occurs(pat, p + q) { OccursLength(pat, p + q); }
    }
  }

  lemma PrefixTail(p: string, q: string, pat: string)
    requires p != [] && forall j: nat :: j < |p| ==> !OccursAt(pat, p + q, j)
    ensures !OccursAt(pat, p + q, 0) && (p + q)[1..] == p[1..] + q
    ensures forall j: nat :: j < |p| - 1 ==> !OccursAt(pat, p[1..] + q, j)
  {
    assert (p + q)[1..] == p[1..] + q;
    forall j: nat | j < |p| - 1 ensures !OccursAt(pat, p[1..] + q, j) {
      assert !OccursAt(pat, p + q, j + 1);
      var t := p[1..] + q;
      if j + |pat| <= |t| {
        assert t[j..j + |pat|] == (p + q)[j + 1..j + 1 + |pat|];
      }
    }
  }

  lemma ReplaceKeepsHead(s: string, pat: string, rep: string)
    requires |pat| > 0 && |pat| <= |s| && !OccursAt(pat, s, 0)
    ensures Replace(s, pat, rep) == [s[0]] + Replace(s[1..], pat, rep)
  {
  }
}

=== FILE: wrappers.dfy ===
/** The optional value used wherever the source returns `None` or a regex match object. */
module Wrappers {

  datatype Option<+T> = None | Some(value: T)
}
